=== FILE: README.md ===
# Dictation app core, modelled in Dafny

This project models the logic at the heart of a desktop dictation app. The app has a
Tauri/Rust back end and a React front end. Five parts are modelled:

- **Global-shortcut recorder.** This is the `GlobalShortcutInput` component.
  - It has a session controller: start, cancel and commit.
  - It has two capture variants:
    - the back-end "handy keys" feed;
    - a window key listener, with its held-modifier set and one-shot `committed` flag.
  - Modifiers are classified and ordered per OS. The four OS kinds follow `useOsType`.
  - React re-rendering is an explicit step. The `committed` and `cleanup` flags are the
    only guards against stale events, exactly as in the code.
- **Transcript post-processing** (`text.rs`):
  - `preserve_case_pattern`, `extract_punctuation` and the skeleton of
    `apply_custom_words`, with the similarity score as a parameter;
  - filler removal, `collapse_stutters`, and the whitespace and trim stages of
    `filter_transcription_output`.
- **Shortcut dispatcher** (`handle_shortcut_event`). It has four branches and keeps a
  per-binding toggle map.
- **Model store and model switch:**
  - the set and map bookkeeping of `useModelStore`, its actions, and its back-end event
    listeners;
  - the `ModelSelector` event reducer, its switch and toggle guards, and its status text.
- **History pages:**
  - the dashboard statistics: words, time saved, active days;
  - the transcripts page: newest-first sort, search, delete, date grouping, copied text.

Strings are `seq<char>` over ASCII: letters are `A-Z`/`a-z`, and whitespace is space and
`\t`..`\r`. Every call into the back end or the settings store is an input value that
says how the call settled:

- `Reply` is ok data, an error result, or a thrown exception;
- `Outcome` is resolved or rejected. For the handy-keys start command, resolved means an
  ok result, and rejected means an error result or an exception.

Clocks and calendars are parameters:

- `nowMs` is milliseconds since the epoch;
- `dayOf` maps a timestamp to its calendar day;
- `labelOf` maps an entry to its date heading.

The Dafny modules follow the program:

| module | file | what it models |
|---|---|---|
| `Results`, `Strings`, `Seqs`, `StableSort` | shared helpers | `Reply`/`Option`/`Outcome`, ASCII strings and `split_whitespace`, `Array.prototype.filter` and order-insensitive folds, the stable `Array.prototype.sort` |
| `Modifiers`, `ShortcutRecorder`, `RecorderProperties` | recorder | the recorder and its invariants |
| `CustomWords`, `TranscriptFilter` | `text.rs` | the two text passes |
| `ShortcutHandler` | `handler.rs` | the dispatcher |
| `ModelStore`, `ModelSelector` | front end | the store and the model switch |
| `History`, `Dashboard`, `Transcripts` | front end | the two history pages |

## Model

| member | source | states |
|---|---|---|
| Modifiers.IndexOf | src/components/settings/GlobalShortcutInput.tsx:269-272 | the rank of a token is its first position in the order table; a token the table does not list gets the table's length |
| Modifiers.OrderTableDistinct | src/components/settings/GlobalShortcutInput.tsx:264-267 | neither order table lists a token twice, so every listed token has a unique rank |
| Modifiers.RankOfListed | src/components/settings/GlobalShortcutInput.tsx:269-271 | a listed token's rank is its position in the table |
| Modifiers.RankOfUnlisted | src/components/settings/GlobalShortcutInput.tsx:271-272 | an unlisted token ranks after every listed one |
| Modifiers.SortModifiersSpec | src/components/settings/GlobalShortcutInput.tsx:263-275 | the sorted modifiers are a permutation of the held ones, ordered by table rank; equal ranks keep press order, so unlisted tokens keep their relative order |
| Modifiers.UnlistedLast | src/components/settings/GlobalShortcutInput.tsx:268-274 | every token the table lists comes before every token it does not list |
| Modifiers.SortModifiersIdempotent | src/components/settings/GlobalShortcutInput.tsx:263-275 | sorting already sorted modifiers changes nothing |
| Modifiers.SortModifiersIgnoresPressOrder | src/components/settings/GlobalShortcutInput.tsx:263-278 | when every held token is listed, the display does not depend on the order the keys were pressed in |
| Modifiers.UnlistedTokensKeepPressOrder | src/components/settings/GlobalShortcutInput.tsx:268-274 | two unlisted modifier names such as "control" and "meta" come out in press order, so the display of such a chord depends on press order |
| Modifiers.CtrlAltOrder | src/components/settings/GlobalShortcutInput.tsx:264-267 | off macOS ctrl precedes alt whatever the press order; on macOS command precedes shift |
| ShortcutRecorder.SetAdd | src/components/settings/GlobalShortcutInput.tsx:301 | `Set.add` makes the token a member, keeps every other member, never duplicates, and leaves a set that already holds it unchanged |
| ShortcutRecorder.SetDelete | src/components/settings/GlobalShortcutInput.tsx:326 | `Set.delete` removes exactly that token and keeps the set duplicate-free |
| ShortcutRecorder.UpdateBindingCall | src/components/settings/GlobalShortcutInput.tsx:92 | an `updateBinding` call is logged; the stored binding changes to the new keys only if the call resolves |
| ShortcutRecorder.ApplyBinding | src/components/settings/GlobalShortcutInput.tsx:89-113 | a failed write raises the set-failed toast; it writes the captured original back only when that is non-empty, and a failed write-back adds the reset-failed toast |
| ShortcutRecorder.CancelRecording | src/components/settings/GlobalShortcutInput.tsx:51-87 | cancel does nothing when not recording; otherwise it drops the feed subscription, stops the back end only in handy mode, writes back a non-empty original, and leaves the recorder idle |
| ShortcutRecorder.StartRecording | src/components/settings/GlobalShortcutInput.tsx:211-238 | start does nothing while recording; otherwise it captures the stored binding ("" if none). With handy keys it always sends the start command; it enters handy mode only on an ok result, and an error result or an exception leaves it idle with the set-failed toast (the corrected start; see Findings). Any other implementation enters local mode with empty keys |
| ShortcutRecorder.StartRecordingAsWritten | src/components/settings/GlobalShortcutInput.tsx:211-232 | the start as written: an ok result and an error result both behave like a successful start; only an exception behaves like a failed one |
| ShortcutRecorder.StartErrorResultEntersRecording | src/components/settings/GlobalShortcutInput.tsx:218-222 | when the back end answers the start with an error result, the code as written shows a recording session with no toast; the corrected start stays idle and toasts |
| ShortcutRecorder.HandyFeed | src/components/settings/GlobalShortcutInput.tsx:127-152 | events are ignored without a live subscription or after cleanup; a key-down with a combination replaces the held one; a key-up commits a non-empty held combination once, stops the back end and ends the session; a key-up with nothing held is ignored |
| ShortcutRecorder.HandyEscape | src/components/settings/GlobalShortcutInput.tsx:161-167 | the handy session's window listener cancels only on `Escape`. The cancel stops the back-end recording, writes back the binding the listener captured (the store keeps its value if that write is rejected), and leaves the recorder idle. Any other key changes nothing |
| ShortcutRecorder.LocalKeyDown | src/components/settings/GlobalShortcutInput.tsx:282-321 | after the commit every key-down is ignored; Escape cancels and never commits; `unknown-*` keys and repeats change nothing; a modifier joins the held set; the first other key commits the sorted chord once and ends the session |
| ShortcutRecorder.HoldModifier | src/components/settings/GlobalShortcutInput.tsx:300-303 | a modifier key-down adds the token, and the display becomes the sorted held set joined by "+", with nothing written |
| ShortcutRecorder.CommitCombo | src/components/settings/GlobalShortcutInput.tsx:308-320 | a commit marks the listener committed, writes the chord first, and leaves the recorder idle |
| ShortcutRecorder.LocalKeyUp | src/components/settings/GlobalShortcutInput.tsx:323-331 | releasing a modifier removes it; the display is refreshed only while uncommitted; other keys change nothing |
| ShortcutRecorder.UnmountStep | src/components/settings/GlobalShortcutInput.tsx:171-182 | teardown removes the local listener, marks the handy listener cleaned up, and stops the back end once if a handy listener was live |
| RecorderProperties.InitialValid | src/components/settings/GlobalShortcutInput.tsx:35-40 | the freshly mounted recorder satisfies the recorder invariant |
| RecorderProperties.StartKeepsValid | src/components/settings/GlobalShortcutInput.tsx:211-238 | start preserves the invariant |
| RecorderProperties.CancelKeepsValid | src/components/settings/GlobalShortcutInput.tsx:51-87 | cancel preserves the invariant, whichever render's closure runs it |
| RecorderProperties.LocalKeyDownKeepsValid | src/components/settings/GlobalShortcutInput.tsx:282-321 | the local key-down handler preserves the invariant; in particular the display stays the sorted held set while uncommitted |
| RecorderProperties.LocalKeyUpKeepsValid | src/components/settings/GlobalShortcutInput.tsx:323-331 | the local key-up handler preserves the invariant |
| RecorderProperties.FeedKeepsValid | src/components/settings/GlobalShortcutInput.tsx:127-152 | the handy feed handler preserves the invariant |
| RecorderProperties.RenderKeepsValid | src/components/settings/GlobalShortcutInput.tsx:116-191 | re-running the effects preserves the invariant |
| RecorderProperties.StepKeepsValid | src/components/settings/GlobalShortcutInput.tsx:51-331 | every event preserves the invariant, and the local and handy capture sources are never live together |
| RecorderProperties.RunKeepsValid | src/components/settings/GlobalShortcutInput.tsx:51-331 | every trace of events preserves the invariant |
| RecorderProperties.ApplyTouchesOwnBindingOnly | src/components/settings/GlobalShortcutInput.tsx:89-113 | committing changes no other shortcut's binding and only appends to the call and toast logs |
| RecorderProperties.CancelTouchesOwnBindingOnly | src/components/settings/GlobalShortcutInput.tsx:51-87 | cancelling changes no other shortcut's binding |
| RecorderProperties.LocalKeyDownTouchesOwnBindingOnly | src/components/settings/GlobalShortcutInput.tsx:282-321 | a local key-down changes no other shortcut's binding |
| RecorderProperties.FeedTouchesOwnBindingOnly | src/components/settings/GlobalShortcutInput.tsx:127-152 | a feed event changes no other shortcut's binding |
| RecorderProperties.StepTouchesOwnBindingOnly | src/components/settings/GlobalShortcutInput.tsx:51-331 | no event changes another shortcut's binding, and the logs only grow |
| RecorderProperties.RunTouchesOwnBindingOnly | src/components/settings/GlobalShortcutInput.tsx:51-331 | no trace changes another shortcut's binding |
| RecorderProperties.CommittedListenerIsInert | src/components/settings/GlobalShortcutInput.tsx:282-314 | once the local listener has committed, no further key events write, toast or restart anything |
| RecorderProperties.CleanedFeedIsInert | src/components/settings/GlobalShortcutInput.tsx:119-128 | once the handy effect is cleaned up, feed events change nothing at all |
| RecorderProperties.UnmountSilencesFeed | src/components/settings/GlobalShortcutInput.tsx:171-182 | after teardown, late feed events and a late `listen` resolution write nothing and call nothing |
| RecorderProperties.UnmountFeedLoop | src/components/settings/GlobalShortcutInput.tsx:127-128 | a cleaned-up handy listener stays silent over any trace of feed events and `listen` resolutions |
| RecorderProperties.ModifierNotEmpty | src/components/settings/GlobalShortcutInput.tsx:247-261 | no modifier token is empty |
| RecorderProperties.SortedModifiersNonEmpty | src/components/settings/GlobalShortcutInput.tsx:308-309 | the chord parts are all non-empty, so `filter(Boolean)` drops nothing |
| RecorderProperties.ComboShape | src/components/settings/GlobalShortcutInput.tsx:308-309 | the committed chord is the key alone, or the modifier display, "+" and the key |
| RecorderProperties.HarmlessKeepsSession | src/components/settings/GlobalShortcutInput.tsx:282-331 | modifier presses, releases, feed key-downs and `listen` resolutions never write, call, toast or change the session's identity |
| RecorderProperties.CancelLeavesStoreUnchanged | src/components/settings/GlobalShortcutInput.tsx:51-87 | start, then any harmless traffic, then an outside click leaves the stored binding as it was before the session, however the calls settle; a handy session also stops the back end |
| RecorderProperties.OpenSession | src/components/settings/GlobalShortcutInput.tsx:211-238 | a click and the render after it mount a session that captured the stored binding, without writing |
| RecorderProperties.CancelRestores | src/components/settings/GlobalShortcutInput.tsx:197-204 | an outside click during a session that captured the stored binding leaves the store as it is, and stops a handy session's back-end recording |
| RecorderProperties.HandyEscapeRestores | src/components/settings/GlobalShortcutInput.tsx:161-167 | Escape during a live handy session that captured the stored binding leaves that binding as it was, stops the back-end recording and leaves the recorder idle, whichever way the write-back settles. Any other key changes nothing |
| RecorderProperties.FailedCommitRecovers | src/components/settings/GlobalShortcutInput.tsx:89-113 | a rejected commit whose write-back succeeds leaves the stored binding as before with one set-failed toast, and a new session can start |
| RecorderProperties.LocalChordCommitsOnce | src/components/settings/GlobalShortcutInput.tsx:282-321 | on Linux, ctrl, alt, m and a repeated m show "ctrl+alt" and then write "ctrl+alt+m" exactly once |
| RecorderProperties.PressModifier | src/components/settings/GlobalShortcutInput.tsx:300-303 | a modifier press through the event loop adds the token and shows the sorted held set |
| RecorderProperties.HoldTwo | src/components/settings/GlobalShortcutInput.tsx:300-303 | two distinct modifier presses hold both, in press order, and show their sorted display |
| RecorderProperties.HoldCtrlAlt | src/components/settings/GlobalShortcutInput.tsx:277-303 | holding Control then Alt on Linux shows "ctrl+alt" |
| RecorderProperties.CommitM | src/components/settings/GlobalShortcutInput.tsx:306-320 | with ctrl and alt held, m writes "ctrl+alt+m" and the repeat that follows writes nothing |
| RecorderProperties.MCombo | src/components/settings/GlobalShortcutInput.tsx:308-309 | ctrl and alt held with m make the chord "ctrl+alt+m" |
| RecorderProperties.DisplayCtrlAlt | src/components/settings/GlobalShortcutInput.tsx:277-280 | the Linux display of ctrl and alt is "ctrl+alt" |
| RecorderProperties.CtrlAltSorted | src/components/settings/GlobalShortcutInput.tsx:267-274 | ctrl and alt are already in Linux order |
| RecorderProperties.FeedChordCommitsOnce | src/components/settings/GlobalShortcutInput.tsx:127-152 | a handy session fed cmd, cmd+shift, cmd+shift+d and a key-up stores "cmd+shift+d"; the calls are start, one write, and two stops (handler and effect cleanup) |
| RecorderProperties.OpenHandySession | src/components/settings/GlobalShortcutInput.tsx:211-238 | click, render and `listen` resolution give a live, subscribed handy session with one start call |
| RecorderProperties.FeedKeyDown | src/components/settings/GlobalShortcutInput.tsx:132-135 | a feed key-down with a combination sets both the ref and the display and nothing else |
| RecorderProperties.FeedCommitThenRender | src/components/settings/GlobalShortcutInput.tsx:136-182 | a key-up commits the held combination, stops the back end, and the re-render's cleanup stops it again |
| CustomWords.PreserveCasePattern | src-tauri/src/audio_toolkit/text.rs:99-111 | an all-capitals original upper-cases the whole replacement; a capital first letter capitalises only the first letter; otherwise the replacement is unchanged; the length is kept |
| CustomWords.PreserveCaseOnlyChangesCase | src-tauri/src/audio_toolkit/text.rs:99-111 | the result equals the replacement up to letter case |
| CustomWords.PreserveCaseIdempotent | src-tauri/src/audio_toolkit/text.rs:99-111 | applying the pattern again changes nothing |
| CustomWords.PreserveCaseKeepsWord | src-tauri/src/audio_toolkit/text.rs:99-111 | a replacement without whitespace stays without whitespace |
| CustomWords.PreserveCaseExamples | src-tauri/src/audio_toolkit/text.rs:247-251 | HELLO/world gives WORLD, Hello/world gives World, hello/WORLD gives WORLD |
| CustomWords.LeadCount | src-tauri/src/audio_toolkit/text.rs:115 | counts the maximal run of non-letters at the front |
| CustomWords.TrailCount | src-tauri/src/audio_toolkit/text.rs:116-120 | counts the maximal run of non-letters at the back |
| CustomWords.ExtractPunctuationSpec | src-tauri/src/audio_toolkit/text.rs:114-135 | the prefix is the longest letter-free prefix and the suffix the longest letter-free suffix |
| CustomWords.TrimNonAlphaIsMiddle | src-tauri/src/audio_toolkit/text.rs:32-34 | the trimmed core is exactly what lies between the two punctuation runs |
| CustomWords.PunctuationSplit | src-tauri/src/audio_toolkit/text.rs:114-135 | for a word with a letter, prefix, core and suffix concatenate back to the word; a letterless word has an empty core and is its own prefix and suffix |
| CustomWords.ExtractPunctuationExamples | src-tauri/src/audio_toolkit/text.rs:254-258 | "hello", "!hello?" and "...hello..." split as the unit test expects |
| CustomWords.ExtractPunctuationAsWritten | src-tauri/src/audio_toolkit/text.rs:122-132 | the code as written slices at character counts taken as byte offsets; a result is produced only when both cuts fall on character boundaries |
| CustomWords.CorrectedCuts | src-tauri/src/audio_toolkit/text.rs:114-135 | cutting at the byte offsets of the two runs always falls on character boundaries |
| CustomWords.ExtractPunctuationPanicsOnInvertedQuestion | src-tauri/src/audio_toolkit/text.rs:123 | "¿hola" makes the code as written slice inside the two-byte "¿"; the corrected cut is at byte 2 |
| CustomWords.AsWrittenAgreesOnAscii | src-tauri/src/audio_toolkit/text.rs:114-135 | on ASCII words the code as written never panics and cuts where the corrected version does |
| CustomWords.ScanSpec | src-tauri/src/audio_toolkit/text.rs:47-81 | the candidate loop returns an acceptable candidate of least score; among equal scores it keeps the earliest, because only a strictly smaller score replaces the best |
| CustomWords.BestMatchSpec | src-tauri/src/audio_toolkit/text.rs:47-81 | a custom word is chosen exactly when one is within five characters in length and scores under the threshold; it is the first one of least score |
| CustomWords.CorrectWordSpec | src-tauri/src/audio_toolkit/text.rs:32-92 | a token with an empty or over-long core, or no acceptable match, passes unchanged. Otherwise the token is always replaced: by the acceptable custom word of least score, the first among equal scores, in the token's case pattern, with the punctuation around the core kept |
| CustomWords.CorrectWordKeepsWord | src-tauri/src/audio_toolkit/text.rs:83-92 | a corrected token is still one token when the custom words are |
| CustomWords.ApplyCustomWords | src-tauri/src/audio_toolkit/text.rs:21-23 | an empty custom-word list returns the text unchanged, whitespace and all |
| CustomWords.ApplyCustomWordsTokens | src-tauri/src/audio_toolkit/text.rs:28-95 | the output splits into exactly one corrected token per input token, in order |
| TranscriptFilter.KeepTokensWords | src-tauri/src/audio_toolkit/text.rs:211-214 | removing tokens that fail a test leaves exactly the tokens that pass, in order |
| TranscriptFilter.StripFillersWords | src-tauri/src/audio_toolkit/text.rs:186-194 | filler removal deletes exactly the tokens that are a filler word in any case, optionally followed by "," or "."; every other token stays, in order |
| TranscriptFilter.MultiSpaceWords | src-tauri/src/audio_toolkit/text.rs:220 | shrinking whitespace runs keeps the tokens |
| TranscriptFilter.MultiSpaceNoDoubleSpace | src-tauri/src/audio_toolkit/text.rs:143 | after the pass no two whitespace characters are adjacent |
| TranscriptFilter.MultiSpaceKeepsSingleSpaced | src-tauri/src/audio_toolkit/text.rs:143 | text without adjacent whitespace passes unchanged |
| TranscriptFilter.Run | src-tauri/src/audio_toolkit/text.rs:163-166 | counts the leading words equal to the key up to case, and stops at the first that differs |
| TranscriptFilter.Skip | src-tauri/src/audio_toolkit/text.rs:160-179 | each scan step advances by at least one word and never past the end |
| TranscriptFilter.Collapse | src-tauri/src/audio_toolkit/text.rs:156-180 | collapsing never adds words |
| TranscriptFilter.CollapseMembers | src-tauri/src/audio_toolkit/text.rs:156-180 | every kept word is an input word |
| TranscriptFilter.CollapseRun | src-tauri/src/audio_toolkit/text.rs:160-175 | a maximal run of three or more short words, equal up to case, keeps only its first word; a run of one or two is kept whole |
| TranscriptFilter.CollapseNoTriple | src-tauri/src/audio_toolkit/text.rs:147-183 | the result has no three adjacent short words that are equal up to case |
| TranscriptFilter.CollapseKeepsNoTriple | src-tauri/src/audio_toolkit/text.rs:147-183 | a word list with no such triple is unchanged |
| TranscriptFilter.CollapseIdempotent | src-tauri/src/audio_toolkit/text.rs:147-183 | collapsing twice is collapsing once |
| TranscriptFilter.CollapseKeepsLongWords | src-tauri/src/audio_toolkit/text.rs:176-179 | every word that is not a stutter candidate survives, in order |
| TranscriptFilter.CollapseStuttersWords | src-tauri/src/audio_toolkit/text.rs:147-183 | the words of the collapsed text are the collapsed words |
| TranscriptFilter.StutterCollapse | src-tauri/src/audio_toolkit/text.rs:318-322 | "w wh wh wh wh wh wh wh wh wh why" keeps "w", "wh", "why" |
| TranscriptFilter.StutterShortWords | src-tauri/src/audio_toolkit/text.rs:325-329 | "I I I I think so so so so" keeps "I", "think", "so" |
| TranscriptFilter.StutterMixedCase | src-tauri/src/audio_toolkit/text.rs:332-336 | "No NO no NO no" keeps only "No" |
| TranscriptFilter.StutterKeepsPair | src-tauri/src/audio_toolkit/text.rs:339-343 | "no no is fine" keeps all four words |
| TranscriptFilter.FilterIsJoinOfSurvivors | src-tauri/src/audio_toolkit/text.rs:208-224 | the whole pass equals the non-filler words, stutter-collapsed, joined by single spaces |
| TranscriptFilter.FilterOutputShape | src-tauri/src/audio_toolkit/text.rs:217-223 | the output has no leading or trailing whitespace and no two adjacent whitespace characters |
| TranscriptFilter.SurvivorsAreClean | src-tauri/src/audio_toolkit/text.rs:208-224 | no filler survives the pass |
| TranscriptFilter.FilterKeepsCleanText | src-tauri/src/audio_toolkit/text.rs:311-315 | words with no fillers and no stutter runs, joined by single spaces, come out unchanged |
| TranscriptFilter.FilterIdempotent | src-tauri/src/audio_toolkit/text.rs:208-224 | filtering filtered output changes nothing |
| Strings.Words | src-tauri/src/audio_toolkit/text.rs:28 | `split_whitespace` yields only non-empty tokens without whitespace |
| Strings.WordsOfJoin | src-tauri/src/audio_toolkit/text.rs:95 | joining tokens with single spaces and splitting again gives the tokens back |
| Strings.JoinOfWordsShape | src-tauri/src/audio_toolkit/text.rs:182 | tokens joined by single spaces have no edge whitespace and no adjacent whitespace |
| Strings.Trim | src-tauri/src/audio_toolkit/text.rs:223 | the trimmed text is a slice of the input with no whitespace at either end, and everything cut away on either side is whitespace |
| ShortcutHandler.HandleShortcutEvent | src-tauri/src/shortcut/handler.rs:28-91 | an unknown binding does nothing; the cancel binding never stops; only a toggle-mode press of a known, non-cancel binding changes the toggle map |
| ShortcutHandler.CancelRule | src-tauri/src/shortcut/handler.rs:45-51 | cancel starts exactly on a press while recording, never stops, keeps the toggles, and ignores the push-to-talk setting |
| ShortcutHandler.PushToTalkRule | src-tauri/src/shortcut/handler.rs:54-61 | push-to-talk starts on press and stops on release, and keeps the toggles |
| ShortcutHandler.ToggleReleaseIgnored | src-tauri/src/shortcut/handler.rs:64 | in toggle mode a release does nothing |
| ShortcutHandler.TogglePressRule | src-tauri/src/shortcut/handler.rs:64-89 | a press starts when the entry is missing or false, stops when it is true, stores whether it started, and changes no other entry |
| ShortcutHandler.TwoTogglePressesRestore | src-tauri/src/shortcut/handler.rs:75-89 | two presses make opposite calls and restore every binding's on/off state |
| ShortcutHandler.ToggleParity | src-tauri/src/shortcut/handler.rs:64-89 | after any event sequence, a binding is on exactly when the parity of its calls flipped its initial state |
| ModelStore.GetModelInfo | src/stores/modelStore.ts:111-112 | the lookup finds a catalogue entry with that id exactly when one exists |
| ModelStore.FindModel | src/stores/modelStore.ts:112 | `find` returns the first entry with the id |
| ModelStore.SetSettersTouchOnlyTheirId | src/stores/modelStore.ts:76-95 | each set setter adds or removes exactly the given id; every other id and every other field is unchanged |
| ModelStore.AddRemoveInverse | src/stores/modelStore.ts:76-95 | adding an absent id and removing it again, or the reverse, restores the store |
| ModelStore.ProgressSetGet | src/stores/modelStore.ts:96-115 | progress reads back what was set; removal forgets only that id |
| ModelStore.CheckModelLoadStatus | src/stores/modelStore.ts:121-134 | a reported load flag is adopted; a named current model is adopted, and when none is named the store keeps its own; a failure changes nothing; no other field changes |
| ModelStore.LoadModels | src/stores/modelStore.ts:136-149 | success replaces the catalogue and clears the error; failure keeps it and sets an error; loading ends either way |
| ModelStore.ModelStateThenReload | src/stores/modelStore.ts:248-265 | after a model-state event, with the replies of the reloads it fires applied in the order fired, the store names the active model that the back end reports. A failed current-model reload keeps the store's model except after `loading_completed`. The load flag is the reported one after `loading_completed` (true if that reload fails), false after `unloaded` and `loading_failed`, and unchanged otherwise. The catalogue, downloads and progress are untouched |
| ModelStore.LoadingCompletedEitherOrder | src/stores/modelStore.ts:252-264 | neither reload fired by `loading_completed` is awaited, so their replies may land in either order. In both orders the load flag is the status's (true if that reload fails), and a successful current-model reload leaves either its model or a model the status names. When the status lands last, a model it names wins; otherwise the current-model reply wins. Nothing else differs between the two orders |
| ModelStore.CheckFirstRun | src/stores/modelStore.ts:162-175 | on success `isFirstRun` is the negation of "has models", and the call returns it; on failure it returns false and changes nothing |
| ModelStore.SelectModel | src/stores/modelStore.ts:177-194 | success makes the model current, ends the first run, records that a model exists, clears the error, reloads the load status, and changes nothing else; failure changes only the error |
| ModelStore.DownloadModel | src/stores/modelStore.ts:196-214 | the model is marked downloading; a failed or throwing download sets the error and unmarks it |
| ModelStore.DeleteModel | src/stores/modelStore.ts:216-233 | success reloads the catalogue and then the load status; failure changes only the error |
| ModelStore.LoadFlagFollowsEvents | src/stores/modelStore.ts:248-265 | `loading_completed` sets the load flag; `unloaded` and `loading_failed` clear it; other events keep it; every model-state event ends by reloading the current model |
| ModelStore.DownloadCompleteClears | src/stores/modelStore.ts:273-279 | download completion clears the id from both the downloading set and the progress map, and keeps everything else |
| ModelStore.DownloadLifecycle | src/stores/modelStore.ts:196-279 | accepted download, progress, then completion returns both bookkeeping structures to their state before the download |
| ModelStore.ExtractionLifecycle | src/stores/modelStore.ts:281-298 | extraction start then completion restores the store; start then failure differs only by the error |
| ModelSelector.ModelStateRules | src/components/model-selector/ModelSelector.tsx:76-94 | each model-state event sets the status and error it names; only `loading_completed` with a model id moves the current model; unknown events change nothing |
| ModelSelector.SelectorTracksStore | src/components/model-selector/ModelSelector.tsx:99-229 | the component keeps its own copy of the download progress and the extracting set, fed by the same events as the store's; if the two copies start equal, they stay equal after any sequence of events |
| ModelSelector.OnExtractionStarted | src/components/model-selector/ModelSelector.tsx:186-191 | the model is marked extracting and the status becomes extracting; no other model's mark and no other field changes |
| ModelSelector.OnExtractionCompleted | src/components/model-selector/ModelSelector.tsx:199-203 | the model is no longer extracting; nothing else changes |
| ModelSelector.OnExtractionFailed | src/components/model-selector/ModelSelector.tsx:223-229 | the model is no longer extracting, the status is error, and the error is "Failed to extract model: " followed by the reason; nothing else changes |
| ModelSelector.LoadCurrentModel | src/components/model-selector/ModelSelector.tsx:253-280 | the reported model is adopted. No model means status none. For a named model the status follows the engine: ready when it has that model loaded, unloaded when it has another, unchanged on an error result, and error with "Failed to check model status" on an exception. An exception from the first call gives that error too. An error result from the first call changes nothing |
| ModelSelector.SwitchRules | src/components/model-selector/ModelSelector.tsx:282-311 | the online model with a blank key is refused with no command and no change of model; any other target becomes current at once, is sent once, and is reported only on failure |
| ModelSelector.ToggleTargetFlips | src/components/model-selector/ModelSelector.tsx:314 | the toggle goes offline from online and online from anywhere else; between the two models it alternates |
| ModelSelector.ToggleRules | src/components/model-selector/ModelSelector.tsx:313-337 | an offline target that is neither downloaded nor downloading only starts the download; every other toggle is a switch |
| ModelSelector.DownloadingTextShape | src/components/model-selector/ModelSelector.tsx:343 | the download text is never empty and differs from each of the extracting, loading, error and ready texts |
| ModelSelector.StatusTextPriority | src/components/model-selector/ModelSelector.tsx:339-349 | each status text is shown exactly when its condition holds and no higher-priority one does: extracting, then downloading, then loading, then error, then ready, then nothing |
| History.DisplayTextChoice | src/components/pages/Transcripts.tsx:104 | the shown and copied text is the post-processed text or the transcription; an absent or empty post-processed text never hides the transcription, and the shown text is empty only when both are |
| History.SortNewestFirstSpec | src/components/pages/Transcripts.tsx:24 | the sorted history is a permutation of the entries, newest first, with equal timestamps in reply order |
| History.SortNewestFirstIdempotent | src/components/pages/Dashboard.tsx:26 | sorting an already sorted history changes nothing |
| StableSort.SortProperties | src/components/settings/GlobalShortcutInput.tsx:268-274 | the sort is a permutation, ordered by key, that keeps the relative order of equal keys |
| StableSort.SortedUnique | src/components/pages/Dashboard.tsx:26 | only one ordering is sorted and keeps equal keys in input order, so the stable sort is determined |
| StableSort.SortIdempotent | src/components/pages/Transcripts.tsx:24 | sorting twice is sorting once |
| Dashboard.SplitLengthCountsWords | src/components/pages/Dashboard.tsx:45 | on trimmed non-empty text, the `split(/\s+/)` length is the number of whitespace-separated tokens |
| Dashboard.EntryWordsCountsTokens | src/components/pages/Dashboard.tsx:44-48 | a counted entry adds the number of tokens of its shown text, which is positive |
| Dashboard.ActiveDaySetMembers | src/components/pages/Dashboard.tsx:40-49 | a day is active exactly when some counted entry falls on it |
| Dashboard.SecondsSavedRounds | src/components/pages/Dashboard.tsx:53 | seconds saved is 1.5 seconds per word, rounded half up |
| Dashboard.TimeSavedDisplayUnits | src/components/pages/Dashboard.tsx:56-61 | below a minute the display is seconds with "s"; otherwise it is the nearest whole minute, halves up, with "m" |
| Dashboard.CalculateStats | src/components/pages/Dashboard.tsx:35-68 | the word total is the token count over counted entries; the active days count the distinct days of counted entries; the display follows from the total |
| Dashboard.CountRecent | src/components/pages/Dashboard.tsx:42-50 | the loop over recent entries computes the word total and the set of active days |
| Dashboard.RecentFilterIsHarmless | src/components/pages/Dashboard.tsx:36-37 | dropping entries older than thirty days changes neither total |
| Dashboard.TotalsIgnoreOrder | src/components/pages/Dashboard.tsx:26-28 | neither total depends on the order of the entries, so sorting first does not change them |
| Dashboard.LoadData | src/components/pages/Dashboard.tsx:20-33 | a successful reply shows the history newest first with the statistics of the returned entries: their word total, the time saved shown for that total, and their count of active days. Anything else leaves the page as it was |
| Transcripts.LoadHistory | src/components/pages/Transcripts.tsx:19-30 | a successful reply replaces the history with its entries, newest first; a failure keeps the history |
| Transcripts.LoadHistoryStable | src/components/pages/Transcripts.tsx:15-24 | polling again with the same reply changes nothing |
| Transcripts.FilteredHistorySpec | src/components/pages/Transcripts.tsx:56-59 | an entry is shown exactly when the lower-cased query occurs in its lower-cased transcription or non-empty post-processed text; the shown list keeps history order |
| Transcripts.EmptyQueryListsAll | src/components/pages/Transcripts.tsx:56-59 | the empty query shows every entry |
| Transcripts.ShownTextIsSearched | src/components/pages/Transcripts.tsx:56-59 | an entry whose shown text contains the query is found |
| Transcripts.HiddenTextIsSearched | src/components/pages/Transcripts.tsx:57 | the search also matches the transcription when the post-processed text is shown instead |
| Transcripts.HandleDelete | src/components/pages/Transcripts.tsx:32-43 | the success toast appears exactly on an ok reply and the failure toast exactly on an exception; otherwise the list stays |
| Transcripts.DeleteSpec | src/components/pages/Transcripts.tsx:37 | a confirmed delete removes exactly the entries with that id and keeps the others in order |
| Transcripts.DeleteIdempotent | src/components/pages/Transcripts.tsx:37 | deleting the same id twice is deleting it once |
| Transcripts.DeleteCommutesWithSearch | src/components/pages/Transcripts.tsx:37-59 | searching after a delete equals deleting from the search results |
| Transcripts.FindGroup | src/components/pages/Transcripts.tsx:69 | a group lookup finds the group with that label exactly when one exists |
| Transcripts.GroupLabelsDistinct | src/components/pages/Transcripts.tsx:62-72 | each label heads at most one group |
| Transcripts.GroupLabelSet | src/components/pages/Transcripts.tsx:62-72 | a group exists exactly for the labels some item has |
| Transcripts.GroupContents | src/components/pages/Transcripts.tsx:62-72 | each group holds exactly the items with its label, in their order in the filtered list |
| Transcripts.GroupOrder | src/components/pages/Transcripts.tsx:62-96 | groups are listed in the order their labels first occur |

## Left out

- **Rendering.** JSX, i18n `t()` strings, toasts' text, the heatmap, the info banner, the
  clipboard write and the "copied" timer are UI output.
- **Key names.** `getKeyName`, `normalizeKey` and `formatKeyCombination` are not part of
  this model. A key event carries the normalised name as an input.
- **Timing.** Promise timing and async interleaving are not modelled. Each handler is one
  atomic step, and every collaborator call settles inside that step. The stale-event
  window is modelled through explicit `Render` and `ListenResolved` events only. A
  single flag marks the handy effect's `listen` call as in flight, so two overlapping
  `listen` calls cannot be told apart. An example is a re-render before the first call
  resolves. One resolution subscribes, whichever call it belongs to.
- **Polling.** The transcripts page's 5-second polling is not modelled. A reload is one
  `LoadHistory` step.
- **ModelStore.initialize.** It only runs four reloads concurrently. Each reload is
  modelled on its own.
- **Download speed.** The download speed statistics and their moving average
  (`ModelSelector.tsx` 110-148) are floating point and are left out.
- **Auto-switch.** The 500 ms auto-switch after a download or extraction is not modelled
  as a timer. It asks `isRecording` and then performs `LoadCurrentModel` and
  `HandleModelSwitch`, which are modelled.
- **Similarity score.** The score is the normalised Levenshtein distance, weighted by a
  Soundex match; both come from external crates. It is a parameter (`Scorer`), and only
  how the best candidate is chosen is modelled.
- **Locking.** The toggle map's mutex is not modelled. Dispatch is sequential, and the
  action bodies behind Start/Stop are outside the model.
- **Calendar.** date-fns, time zones and the "Today"/"Yesterday" labels are parameters:
  `dayOf`, `labelOf`, and 30 × 86 400 000 ms for `subDays(now, 30)`.
- **Text encoding.** Unicode whitespace, Unicode letters and Unicode case mapping are
  outside the model: it uses ASCII throughout. JavaScript `trim` and `\s`, and Rust
  `split_whitespace`, `is_alphabetic` and `to_lowercase`, all agree with the model on
  ASCII text.
- **Group order.** The order of `Object.entries` is insertion order only for labels
  that are not array indices. Date labels ("Today", "March 3, 2025") never are.
- TranscriptFilter.IsFiller: filler removal is modelled per whitespace token, not with
  the regex `\b` semantics. A token is removed when it is a filler word in any case,
  optionally followed by one "," or ".". The regex also removes a filler inside a token
  such as "uh.." (leaving "."), or one next to other punctuation; the model keeps such
  tokens whole.
- ShortcutHandler.ToggleParity: the parity holds for the dispatcher's own writes to the
  toggle map. The actions it starts, such as `cancel_current_operation`, take the toggle
  lock and may write the map themselves (handler.rs 66-67); those actions are not part of
  this model.
- ShortcutHandler.CancelRule: "keeps the toggles" speaks of the dispatcher only. The
  cancel action it starts may reset toggle entries on its own.
- ShortcutRecorder.HandyFeed: one feed event is one atomic step. In the code the key-up
  handler awaits `applyBinding` and the stop command before it clears the held
  combination, and `cleanup` is set only at the next render. So a second key-up that
  arrives during those awaits would commit again. The local listener sets `committed`
  before its await and has no such window.
- RecorderProperties.FeedChordCommitsOnce: the single commit of a back-end-feed chord
  holds under the atomic-step view of `ShortcutRecorder.HandyFeed` only. A second
  key-up during the awaits of the first would commit again.
- ShortcutRecorder.RenderStep: the effects re-run only when `isRecording`,
  `recordingMode` or `originalBinding` change. Their dependency lists also hold
  `shortcutId`, `osType`, `t`, `applyBinding` and `cancelRecording`, and the model assumes
  these keep their identity across renders. If one of them changed during a session, the
  handy effect's cleanup (GlobalShortcutInput.tsx lines 170-181) would stop the back-end
  recording and drop the feed subscription mid-session before the effect mounted again.
  That re-run is not modelled.
- ModelStore.ModelStateThenReload: its exact active model assumes the replies of the
  reloads land in the order they were fired. The code awaits neither, and
  `ModelStore.LoadingCompletedEitherOrder` states what holds in both orders.
- CustomWords.CloseInLength: the length gap of at most 5 counts characters, while the
  code compares byte lengths (`len()`). The two agree on ASCII text.
- CustomWords.BestMatchSpec: its length window of at most 5 counts characters, like
  `CustomWords.CloseInLength`, while the code compares byte lengths. On non-ASCII
  candidates the code's set of acceptable candidates can differ.
- CustomWords.CorrectWord: the 50-unit length limit on the core counts characters. The
  code counts bytes (`len()`); the two agree on the ASCII text the model covers.
- Dashboard.SecondsSaved: `Math.round((words / 40) * 60)` is computed exactly in
  integers. It is the nearest whole number to 1.5 × words, halves up. Floating-point
  rounding of the division is not modelled.
- ModelSelector.StatusText: the download percentage is rounded with `Math.round`
  semantics (halves up) on exact reals rather than doubles.
- **Behaviour worth noting.** The model keeps these traits of the code:
  - cancel writes a non-empty original binding back through `updateBinding`;
  - a handy commit or cancel stops the back-end recording twice (handler and effect
    cleanup);
  - the non-macOS table lists "win";
  - there is no generation counter.
  The display is independent of press order only for tokens the table lists;
  `Modifiers.UnlistedTokensKeepPressOrder` shows unlisted tokens keeping press order.

## Findings

| source | as written | input that shows it | evidently intended | confidence | as-written member | corrected member |
|---|---|---|---|---|---|---|
| src-tauri/src/audio_toolkit/text.rs:114-135 | `extract_punctuation` counts the punctuation runs in characters but slices the word with those counts as byte offsets (`&word[..prefix_end]`, `&word[word.len() - suffix_start..]`) | "¿hola": a custom word matching "hola" makes the prefix cut fall at byte 1, inside the two-byte "¿", and `str` slicing panics | cut at the byte offsets where the runs end, which always lie on character boundaries | not executed | CustomWords.ExtractPunctuationPanicsOnInvertedQuestion | CustomWords.CorrectedCuts |
| src/components/settings/GlobalShortcutInput.tsx:218-222 | `startRecording` awaits `commands.startHandyKeysRecording` and enters the handy session without looking at the result. Only an exception reaches the toast, but the generated commands report a back-end failure as an `{status: "error"}` result, which every other call site checks (modelStore.ts 124, Transcripts.tsx 22) | the back end answers the start with `{status: "error", error}`: the recorder shows a recording session with no toast, and the back end never opened one | an error result fails the start like an exception: no session, and the set-failed toast | not executed; the generated bindings file is not part of this model, and how errors arrive is read from the other call sites | ShortcutRecorder.StartErrorResultEntersRecording | ShortcutRecorder.StartRecording |

The recorder's event loop uses the corrected `ShortcutRecorder.StartRecording`. Its
contract proves that a failed start leaves no session and raises the toast.
`StartRecordingAsWritten` is the code as written, stated against it.

The rest of the model uses the character-indexed `CustomWords.ExtractPunctuation`, whose
cuts are `CorrectedCuts`. `PunctuationSplit` proves that prefix, core and suffix
reassemble the word. `AsWrittenAgreesOnAscii` proves that the code as written is correct
on ASCII words.

=== FILE: custom_words.dfy ===
/** Custom-word correction of a transcript (`apply_custom_words` and its helpers
    `preserve_case_pattern` and `extract_punctuation`).

    Every whitespace-separated token is reduced to its lower-cased alphabetic core; a core
    that is empty or longer than 50 characters is left alone; otherwise the custom word
    with the best (smallest) similarity score below the threshold replaces the core, in the
    token's case pattern and between the token's own leading and trailing punctuation.
    The score itself (normalised Levenshtein distance, weighted by a Soundex match) comes
    from foreign crates and is a parameter here. */
module CustomWords {
  import opened Strings
  import opened Results

  // ---------------------------------------------------------------------------
  // Case pattern
  // ---------------------------------------------------------------------------

  /** `chars().all(is_uppercase)`; true of the empty string. */
  predicate AllUpper(s: string) { forall i :: 0 <= i < |s| ==> IsUpper(s[i]) }

  /** `preserve_case_pattern`: an all-capitals original capitalises the whole replacement,
      an original with a capital first letter capitalises the replacement's first letter,
      any other original leaves the replacement as it is. */
  function PreserveCasePattern(original: string, replacement: string): (r: string)
    ensures |r| == |replacement|
    ensures AllUpper(original) ==> forall i :: 0 <= i < |r| ==> r[i] == UpperChar(replacement[i])
    ensures !AllUpper(original) && original != [] && IsUpper(original[0]) ==>
      (forall i :: 0 <= i < |r| ==> r[i] == if i == 0 then UpperChar(replacement[0]) else replacement[i])
    ensures !AllUpper(original) && (original == [] || !IsUpper(original[0])) ==> r == replacement
  {
    if AllUpper(original) then ToUpper(replacement)
    else if original != [] && IsUpper(original[0]) then
      (if replacement == [] then [] else [UpperChar(replacement[0])] + replacement[1..])
    else replacement
  }

  /** Only letter case changes: the replacement survives up to case. */
  lemma PreserveCaseOnlyChangesCase(original: string, replacement: string)
    ensures ToLower(PreserveCasePattern(original, replacement)) == ToLower(replacement)
  {
    var r := PreserveCasePattern(original, replacement);
    forall i | 0 <= i < |r|
      ensures LowerChar(r[i]) == LowerChar(replacement[i])
    {
      LowerOfUpperChar(replacement[i]);
    }
  }

  /** Applying the pattern twice is applying it once. */
  lemma PreserveCaseIdempotent(original: string, replacement: string)
    ensures var r := PreserveCasePattern(original, replacement);
      PreserveCasePattern(original, r) == r
  {
    var r := PreserveCasePattern(original, replacement);
    var rr := PreserveCasePattern(original, r);
    forall i | 0 <= i < |r|
      ensures rr[i] == r[i]
    {
    }
  }

  /** A token stays a token: the pattern neither adds nor removes whitespace. */
  lemma PreserveCaseKeepsWord(original: string, replacement: string)
    requires IsWord(replacement)
    ensures IsWord(PreserveCasePattern(original, replacement))
  {
    var r := PreserveCasePattern(original, replacement);
    forall i | 0 <= i < |r|
      ensures !IsSpace(r[i])
    {
    }
  }

  lemma PreserveCaseExamples()
    ensures PreserveCasePattern("HELLO", "world") == "WORLD"
    ensures PreserveCasePattern("Hello", "world") == "World"
    ensures PreserveCasePattern("hello", "WORLD") == "WORLD"
  {
    assert ToUpper("world") == "WORLD";
    assert !IsUpper("Hello"[1]);
    assert [UpperChar('w')] + "world"[1..] == "World";
  }

  // ---------------------------------------------------------------------------
  // Punctuation around the alphabetic core
  // ---------------------------------------------------------------------------

  /** How many characters `take_while(!is_alphabetic)` yields from the front. */
  function LeadCount(s: string): (n: nat)
    ensures n <= |s|
    ensures forall i :: 0 <= i < n ==> !IsAlpha(s[i])
    ensures n < |s| ==> IsAlpha(s[n])
  {
    if s != [] && !IsAlpha(s[0]) then 1 + LeadCount(s[1..]) else 0
  }

  /** How many characters the same scan yields from the back. */
  function TrailCount(s: string): (n: nat)
    ensures n <= |s|
    ensures forall i :: |s| - n <= i < |s| ==> !IsAlpha(s[i])
    ensures n < |s| ==> IsAlpha(s[|s| - n - 1])
  {
    if s != [] && !IsAlpha(s[|s| - 1]) then 1 + TrailCount(s[..|s| - 1]) else 0
  }

  /** `extract_punctuation`: the leading and the trailing run of non-letters. */
  function ExtractPunctuation(word: string): (string, string)
  {
    var p := LeadCount(word);
    var q := TrailCount(word);
    (if p > 0 then word[..p] else "", if q > 0 then word[|word| - q..] else "")
  }

  /** The prefix is the longest letter-free prefix of the word and the suffix the longest
      letter-free suffix; a word without letters is all run, so both are the whole word. */
  lemma ExtractPunctuationSpec(word: string)
    ensures var (prefix, suffix) := ExtractPunctuation(word);
      && prefix <= word && (forall i :: 0 <= i < |prefix| ==> !IsAlpha(prefix[i]))
      && (|prefix| < |word| ==> IsAlpha(word[|prefix|]))
      && |suffix| <= |word| && suffix == word[|word| - |suffix|..]
      && (forall i :: 0 <= i < |suffix| ==> !IsAlpha(suffix[i]))
      && (|suffix| < |word| ==> IsAlpha(word[|word| - |suffix| - 1]))
  {
    ExtractIsSlices(word);
    var (prefix, suffix) := ExtractPunctuation(word);
    forall i | 0 <= i < |suffix|
      ensures !IsAlpha(suffix[i])
    {
      assert suffix[i] == word[|word| - |suffix| + i];
    }
  }

  /** `trim_matches(|c| !c.is_alphabetic())`: non-letters stripped from both ends. */
  function TrimNonAlpha(s: string): (r: string)
    ensures |r| <= |s|
    decreases |s|
  {
    if s == [] then []
    else if !IsAlpha(s[0]) then TrimNonAlpha(s[1..])
    else if !IsAlpha(s[|s| - 1]) then TrimNonAlpha(s[..|s| - 1])
    else s
  }

  lemma {:induction false} TrimNonAlphaOfLetterless(s: string)
    requires !HasAlpha(s)
    ensures TrimNonAlpha(s) == []
    decreases |s|
  {
    if s != [] {
      assert !IsAlpha(s[0]);
      TrimNonAlphaOfLetterless(s[1..]);
    }
  }

  /** A word with a non-empty core has a letter. */
  lemma CoreHasAlpha(s: string)
    ensures TrimNonAlpha(s) != [] ==> HasAlpha(s)
  {
    if !HasAlpha(s) {
      TrimNonAlphaOfLetterless(s);
    }
  }

  /** The core left by trimming lies between the two runs `ExtractPunctuation` finds;
      `k` is the position of some letter. */
  lemma {:induction false} TrimNonAlphaIsMiddle(s: string, k: nat)
    requires k < |s| && IsAlpha(s[k])
    ensures LeadCount(s) + TrailCount(s) < |s|
    ensures TrimNonAlpha(s) == s[LeadCount(s)..|s| - TrailCount(s)]
    decreases |s|, 1
  {
    assert LeadCount(s) <= k && |s| - TrailCount(s) > k;
    if !IsAlpha(s[0]) {
      MiddleAfterFront(s, k);
    } else if !IsAlpha(s[|s| - 1]) {
      MiddleAfterBack(s, k);
    } else {
      assert LeadCount(s) == 0 && TrailCount(s) == 0;
    }
  }

  lemma {:induction false} MiddleAfterFront(s: string, k: nat)
    requires k < |s| && IsAlpha(s[k]) && !IsAlpha(s[0])
    ensures TrimNonAlpha(s) == s[LeadCount(s)..|s| - TrailCount(s)]
    decreases |s|, 0
  {
    var t := s[1..];
    assert t[k - 1] == s[k];
    TrimNonAlphaIsMiddle(t, k - 1);
    TrailCountOfTail(s, k);
    assert LeadCount(s) == 1 + LeadCount(t);
    assert t[LeadCount(t)..|t| - TrailCount(t)] == s[LeadCount(s)..|s| - TrailCount(s)];
  }

  lemma {:induction false} MiddleAfterBack(s: string, k: nat)
    requires k < |s| && IsAlpha(s[k]) && IsAlpha(s[0]) && !IsAlpha(s[|s| - 1])
    ensures TrimNonAlpha(s) == s[LeadCount(s)..|s| - TrailCount(s)]
    decreases |s|, 0
  {
    var t := s[..|s| - 1];
    assert t[k] == s[k];
    TrimNonAlphaIsMiddle(t, k);
    LeadCountOfInit(s, k);
    assert TrailCount(s) == 1 + TrailCount(t);
    assert t[LeadCount(t)..|t| - TrailCount(t)] == s[LeadCount(s)..|s| - TrailCount(s)];
  }

  /** Dropping a leading non-letter of a word with a letter keeps its trailing run. */
  lemma {:induction false} TrailCountOfTail(s: string, k: nat)
    requires k < |s| && IsAlpha(s[k]) && !IsAlpha(s[0])
    ensures TrailCount(s[1..]) == TrailCount(s)
    decreases |s|
  {
    if !IsAlpha(s[|s| - 1]) {
      var t := s[..|s| - 1];
      assert k < |s| - 1 && t[k] == s[k] && t[0] == s[0];
      TrailCountOfTail(t, k);
      assert s[1..][..|s[1..]| - 1] == t[1..];
    }
  }

  /** Dropping a trailing non-letter of a word with a letter keeps its leading run. */
  lemma {:induction false} LeadCountOfInit(s: string, k: nat)
    requires k < |s| && IsAlpha(s[k]) && !IsAlpha(s[|s| - 1])
    ensures LeadCount(s[..|s| - 1]) == LeadCount(s)
    decreases |s|
  {
    if !IsAlpha(s[0]) {
      var t := s[1..];
      assert k > 0 && t[k - 1] == s[k] && t[|t| - 1] == s[|s| - 1];
      LeadCountOfInit(t, k - 1);
      assert s[..|s| - 1][1..] == t[..|t| - 1];
    }
  }

  /** For a token with a letter, punctuation prefix, alphabetic core and punctuation
      suffix concatenate back to the token; a token without letters has an empty core and
      is its own prefix and suffix. */
  lemma PunctuationSplit(word: string)
    ensures var (prefix, suffix) := ExtractPunctuation(word);
      if HasAlpha(word) then prefix + TrimNonAlpha(word) + suffix == word
      else TrimNonAlpha(word) == [] && prefix == word && suffix == word
  {
    if HasAlpha(word) {
      var k :| 0 <= k < |word| && IsAlpha(word[k]);
      SplitAroundLetter(word, k);
    } else {
      SplitLetterless(word);
    }
  }

  lemma SplitAroundLetter(word: string, k: nat)
    requires k < |word| && IsAlpha(word[k])
    ensures ExtractPunctuation(word).0 + TrimNonAlpha(word) + ExtractPunctuation(word).1 == word
  {
    TrimNonAlphaIsMiddle(word, k);
    ExtractIsSlices(word);
    ThreeSlices(word, LeadCount(word), |word| - TrailCount(word));
  }

  lemma ExtractIsSlices(word: string)
    ensures ExtractPunctuation(word).0 == word[..LeadCount(word)]
    ensures ExtractPunctuation(word).1 == word[|word| - TrailCount(word)..]
  {
    var p, q := LeadCount(word), TrailCount(word);
    if p == 0 {
      assert word[..p] == [];
    }
    if q == 0 {
      assert word[|word| - q..] == [];
    }
  }

  lemma ThreeSlices(s: string, i: nat, j: nat)
    requires i <= j <= |s|
    ensures s[..i] + s[i..j] + s[j..] == s
  {
  }

  lemma SplitLetterless(word: string)
    requires !HasAlpha(word)
    ensures TrimNonAlpha(word) == []
    ensures ExtractPunctuation(word).0 == word && ExtractPunctuation(word).1 == word
  {
    TrimNonAlphaOfLetterless(word);
    assert LeadCount(word) == |word|;
    assert TrailCount(word) == |word|;
  }

  /** The cases of the unit test for `extract_punctuation`: a bare word, one mark on
      each side, and three on each side. */
  lemma ExtractPunctuationExamples()
    ensures ExtractPunctuation("hello") == ("", "")
    ensures ExtractPunctuation("!hello?") == ("!", "?")
    ensures ExtractPunctuation("...hello...") == ("...", "...")
  {
    ExtractPunctuationBare();
    ExtractPunctuationOneMark();
    ExtractPunctuationThreeMarks();
  }

  lemma ExtractPunctuationBare()
    ensures ExtractPunctuation("hello") == ("", "")
  {
    var a := "hello";
    assert IsAlpha(a[0]) && IsAlpha(a[4]);
    assert LeadCount(a) == 0 && TrailCount(a) == 0;
  }

  lemma ExtractPunctuationOneMark()
    ensures ExtractPunctuation("!hello?") == ("!", "?")
  {
    var b := "!hello?";
    assert !IsAlpha(b[0]) && IsAlpha(b[1]);
    assert LeadCount(b[1..]) == 0;
    assert LeadCount(b) == 1;
    assert !IsAlpha(b[6]) && IsAlpha(b[5]);
    assert TrailCount(b[..6]) == 0;
    assert TrailCount(b) == 1;
    assert b[..1] == "!" && b[6..] == "?";
  }

  lemma ExtractPunctuationThreeMarks()
    ensures ExtractPunctuation("...hello...") == ("...", "...")
  {
    var c := "...hello...";
    assert LeadCount(c[3..]) == 0;
    assert LeadCount(c[2..]) == 1;
    assert LeadCount(c[1..]) == 2;
    assert LeadCount(c) == 3;
    assert TrailCount(c[..8]) == 0;
    assert TrailCount(c[..9]) == 1;
    assert TrailCount(c[..10]) == 2;
    assert TrailCount(c) == 3;
    assert c[..3] == "..." && c[8..] == "...";
  }

  // ---------------------------------------------------------------------------
  // Byte offsets: `extract_punctuation` as written
  // ---------------------------------------------------------------------------

  /** The number of bytes UTF-8 uses for `c`. */
  function Utf8Width(c: char): (n: nat)
    ensures 1 <= n <= 4
  {
    if c as int < 0x80 then 1 else if c as int < 0x800 then 2 else if c as int < 0x1_0000 then 3 else 4
  }

  /** `str::len()`: the UTF-8 length in bytes. */
  function ByteLen(s: string): (n: nat)
    ensures n >= |s|
  {
    if s == [] then 0 else Utf8Width(s[0]) + ByteLen(s[1..])
  }

  /** The byte offset at which character `k` starts. */
  function ByteOffset(s: string, k: nat): nat
    requires k <= |s|
  {
    ByteLen(s[..k])
  }

  /** `str::is_char_boundary`: slicing at byte `b` does not split a character. */
  predicate IsCharBoundary(s: string, b: int) {
    exists k :: 0 <= k <= |s| && ByteOffset(s, k) == b
  }

  /** `extract_punctuation` as written: the two run lengths are counted in characters but
      used as byte indices (`&word[..prefix_end]`, `&word[word.len() - suffix_start..]`).
      The result is the byte range each slice takes (end of the prefix, start of the
      suffix), or `None` where the slice does not fall on a character boundary and the
      program panics. */
  function ExtractPunctuationAsWritten(word: string): (r: Option<(int, int)>)
    ensures r.Some? ==> IsCharBoundary(word, r.value.0) && IsCharBoundary(word, r.value.1)
  {
    var p := LeadCount(word);
    var q := TrailCount(word);
    var n := ByteLen(word);
    assert ByteOffset(word, 0) == 0 && ByteOffset(word, |word|) == n by {
      assert word[..0] == [] && word[..|word|] == word;
    }
    if p > 0 && !IsCharBoundary(word, p) then None
    else if q > 0 && !IsCharBoundary(word, n - q) then None
    else Some((p, n - q))
  }

  /** The byte ranges the character-indexed `ExtractPunctuation` takes. */
  function CorrectedCuts(word: string): (r: (int, int))
    ensures IsCharBoundary(word, r.0) && IsCharBoundary(word, r.1)
  {
    (ByteOffset(word, LeadCount(word)), ByteOffset(word, |word| - TrailCount(word)))
  }

  lemma {:induction false} ByteOffsetFromFirst(s: string, k: nat)
    requires 1 <= k <= |s|
    ensures ByteOffset(s, k) >= Utf8Width(s[0])
  {
    assert s[..k] == [s[0]] + s[..k][1..];
  }

  /** A word opening with an inverted question mark: one character of punctuation,
      two bytes long, so the prefix slice ends in the middle of that character. */
  lemma ExtractPunctuationPanicsOnInvertedQuestion()
    ensures ExtractPunctuationAsWritten("\U{BF}hola") == None
    ensures CorrectedCuts("\U{BF}hola").0 == 2
  {
    var w := "\U{BF}hola";
    assert !IsAlpha(w[0]) && IsAlpha(w[1]);
    assert LeadCount(w[1..]) == 0;
    assert LeadCount(w) == 1;
    assert ByteOffset(w, 1) == 2 by {
      assert w[..1] == [w[0]];
    }
    assert !IsCharBoundary(w, 1) by {
      forall k | 0 <= k <= |w|
        ensures ByteOffset(w, k) != 1
      {
        if k > 0 {
          ByteOffsetFromFirst(w, k);
        } else {
          assert w[..0] == [];
        }
      }
    }
  }

  lemma {:induction false} AsciiByteLen(s: string)
    requires forall i :: 0 <= i < |s| ==> s[i] as int < 0x80
    ensures ByteLen(s) == |s|
  {
    if s != [] {
      AsciiByteLen(s[1..]);
    }
  }

  /** On ASCII text bytes and characters coincide, so the code as written cuts exactly
      where the character-indexed model does and never panics. */
  lemma AsWrittenAgreesOnAscii(word: string)
    requires forall i :: 0 <= i < |word| ==> word[i] as int < 0x80
    ensures ExtractPunctuationAsWritten(word) == Some(CorrectedCuts(word))
  {
    var p, q := LeadCount(word), TrailCount(word);
    forall k | 0 <= k <= |word|
      ensures ByteOffset(word, k) == k
    {
      AsciiByteLen(word[..k]);
    }
    AsciiByteLen(word);
    assert ByteOffset(word, p) == p;
    assert ByteOffset(word, |word| - q) == |word| - q;
  }

  // ---------------------------------------------------------------------------
  // Choosing the custom word
  // ---------------------------------------------------------------------------

  /** `f64::MAX`, the starting value of the best score. */
  const F64Max: real :=
    179769313486231570814527423731704356798070567525844996598917476803157260780028538760589558632766878171540458953514382464234321326889464182768467546703537516986049910576551282076245490090389328944075868508455133942304583236903222948165808559332123348274797826204144723168738177180919299881250404026184124858368.0

  /** Cores longer than this are never corrected. */
  const MaxCoreLength := 50

  /** Candidates whose length differs from the core's by more than this are skipped. */
  const MaxLengthGap := 5

  /** The similarity of a lower-cased core and a lower-cased custom word (smaller is
      closer). */
  type Scorer = (string, string) -> real

  predicate CloseInLength(core: string, candidate: string) {
    -MaxLengthGap <= |core| - |candidate| <= MaxLengthGap
  }

  /** Candidate `j` is acceptable for `core`: close in length and scoring under both the
      threshold and the starting best score. */
  predicate Acceptable(core: string, lowers: seq<string>, score: Scorer, threshold: real, j: int)
  {
    0 <= j < |lowers| && CloseInLength(core, lowers[j])
    && score(core, lowers[j]) < threshold && score(core, lowers[j]) < F64Max
  }

  /** The candidate scan from index `from` on, with the best so far (`best`, scoring
      `bestScore`): a candidate replaces it only with a strictly smaller score. */
  function Scan(core: string, lowers: seq<string>, score: Scorer, threshold: real,
                from: nat, best: Option<nat>, bestScore: real): Option<nat>
    decreases |lowers| - from
  {
    if from >= |lowers| then best
    else
      var s := score(core, lowers[from]);
      if CloseInLength(core, lowers[from]) && s < threshold && s < bestScore then
        Scan(core, lowers, score, threshold, from + 1, Some(from), s)
      else
        Scan(core, lowers, score, threshold, from + 1, best, bestScore)
  }

  /** The index of the custom word chosen for `core`, if any. */
  function BestMatch(core: string, lowers: seq<string>, score: Scorer, threshold: real): (r: Option<nat>)
    ensures r.Some? ==> r.value < |lowers|
  {
    ScanSpec(core, lowers, score, threshold, 0, None, F64Max);
    Scan(core, lowers, score, threshold, 0, None, F64Max)
  }

  /** What the scan from `from` returns, given a best-so-far that is consistent with the
      candidates before `from`. */
  lemma {:induction false} ScanSpec(core: string, lowers: seq<string>, score: Scorer, threshold: real,
                                   from: nat, best: Option<nat>, bestScore: real)
    requires from <= |lowers|
    requires best.None? ==> bestScore == F64Max
    requires best.Some? ==> (best.value < from
      && Acceptable(core, lowers, score, threshold, best.value)
      && score(core, lowers[best.value]) == bestScore)
    ensures var r := Scan(core, lowers, score, threshold, from, best, bestScore);
      && (r.Some? ==> Acceptable(core, lowers, score, threshold, r.value))
      && (r.Some? ==> score(core, lowers[r.value]) <= bestScore)
      && (r.Some? && r != best ==> from <= r.value && score(core, lowers[r.value]) < bestScore)
      && (best.Some? ==> r.Some?)
      && (forall j :: from <= j < |lowers| && Acceptable(core, lowers, score, threshold, j) ==>
            && r.Some?
            && score(core, lowers[r.value]) <= score(core, lowers[j])
            && (j < r.value ==> score(core, lowers[r.value]) < score(core, lowers[j])))
    decreases |lowers| - from
  {
    if from < |lowers| {
      var s := score(core, lowers[from]);
      if CloseInLength(core, lowers[from]) && s < threshold && s < bestScore {
        assert s < F64Max;
        ScanSpec(core, lowers, score, threshold, from + 1, Some(from), s);
      } else {
        ScanSpec(core, lowers, score, threshold, from + 1, best, bestScore);
      }
    }
  }

  /** `BestMatch` finds a candidate exactly when one is acceptable, and then it is the
      first candidate of least score among the acceptable ones. */
  lemma BestMatchSpec(core: string, lowers: seq<string>, score: Scorer, threshold: real)
    ensures var r := BestMatch(core, lowers, score, threshold);
      && (r.None? <==> forall j :: 0 <= j < |lowers| ==> !Acceptable(core, lowers, score, threshold, j))
      && (r.Some? ==> Acceptable(core, lowers, score, threshold, r.value))
      && (r.Some? ==> forall j :: Acceptable(core, lowers, score, threshold, j) ==>
            score(core, lowers[r.value]) <= score(core, lowers[j]))
      && (r.Some? ==> forall j :: 0 <= j < r.value && Acceptable(core, lowers, score, threshold, j) ==>
            score(core, lowers[r.value]) < score(core, lowers[j]))
  {
    ScanSpec(core, lowers, score, threshold, 0, None, F64Max);
  }

  // ---------------------------------------------------------------------------
  // Correcting a token and a text
  // ---------------------------------------------------------------------------

  function Lowered(words: seq<string>): (r: seq<string>)
    ensures |r| == |words|
    ensures forall i :: 0 <= i < |r| ==> r[i] == ToLower(words[i])
  {
    seq(|words|, i requires 0 <= i < |words| => ToLower(words[i]))
  }

  /** The loop body of `apply_custom_words` for one token. */
  function CorrectWord(word: string, customs: seq<string>, score: Scorer, threshold: real): (r: string)
  {
    var core := ToLower(TrimNonAlpha(word));
    if core == [] || |core| > MaxCoreLength then word
    else
      match BestMatch(core, Lowered(customs), score, threshold)
      case None => word
      case Some(i) =>
        var (prefix, suffix) := ExtractPunctuation(word);
        prefix + PreserveCasePattern(word, customs[i]) + suffix
  }

  /** A token passes through unchanged when its alphabetic core is empty or longer than
      50 characters, or when no custom word is acceptable; otherwise the custom word of
      least score (the first among equal scores), in the token's case pattern, replaces
      exactly the core and the punctuation around it stays. */
  lemma CorrectWordSpec(word: string, customs: seq<string>, score: Scorer, threshold: real)
    ensures var core := ToLower(TrimNonAlpha(word));
      var lowers := Lowered(customs);
      var r := CorrectWord(word, customs, score, threshold);
      && (core == [] || |core| > MaxCoreLength ==> r == word)
      && ((forall j :: 0 <= j < |customs| ==> !Acceptable(core, lowers, score, threshold, j)) ==> r == word)
      && (core != [] && |core| <= MaxCoreLength && r != word ==>
            exists i :: Acceptable(core, lowers, score, threshold, i)
              && exists pre, post :: word == pre + TrimNonAlpha(word) + post
                   && r == pre + PreserveCasePattern(word, customs[i]) + post)
      && (core != [] && |core| <= MaxCoreLength
            && (exists j :: Acceptable(core, lowers, score, threshold, j)) ==>
            exists i :: Acceptable(core, lowers, score, threshold, i)
              && (forall j :: Acceptable(core, lowers, score, threshold, j) ==>
                    score(core, lowers[i]) <= score(core, lowers[j]))
              && (forall j :: 0 <= j < i && Acceptable(core, lowers, score, threshold, j) ==>
                    score(core, lowers[i]) < score(core, lowers[j]))
              && r == ExtractPunctuation(word).0 + PreserveCasePattern(word, customs[i])
                      + ExtractPunctuation(word).1)
  {
    var core := ToLower(TrimNonAlpha(word));
    var lowers := Lowered(customs);
    var r := CorrectWord(word, customs, score, threshold);
    BestMatchSpec(core, lowers, score, threshold);
    if core != [] && |core| <= MaxCoreLength {
      var m := BestMatch(core, lowers, score, threshold);
      if m.Some? {
        var (prefix, suffix) := ExtractPunctuation(word);
        PunctuationSplit(word);
        CoreHasAlpha(word);
        assert word == prefix + TrimNonAlpha(word) + suffix;
      }
    }
  }

  /** With custom words that are themselves tokens, every token is corrected to a token. */
  lemma CorrectWordKeepsWord(word: string, customs: seq<string>, score: Scorer, threshold: real)
    requires IsWord(word)
    requires forall i :: 0 <= i < |customs| ==> IsWord(customs[i])
    ensures IsWord(CorrectWord(word, customs, score, threshold))
  {
    var core := ToLower(TrimNonAlpha(word));
    if core != [] && |core| <= MaxCoreLength {
      var m := BestMatch(core, Lowered(customs), score, threshold);
      if m.Some? {
        BestMatchSpec(core, Lowered(customs), score, threshold);
        var (prefix, suffix) := ExtractPunctuation(word);
        var mid := PreserveCasePattern(word, customs[m.value]);
        PreserveCaseKeepsWord(word, customs[m.value]);
        var r := prefix + mid + suffix;
        forall i | 0 <= i < |r|
          ensures !IsSpace(r[i])
        {
          if i < |prefix| {
            assert r[i] == word[i];
          } else if i < |prefix| + |mid| {
            assert r[i] == mid[i - |prefix|];
          } else {
            assert r[i] == suffix[i - |prefix| - |mid|];
            assert suffix[i - |prefix| - |mid|] == word[|word| - |suffix| + (i - |prefix| - |mid|)];
          }
        }
      }
    }
  }

  /** `apply_custom_words`: an empty list returns the text as it is; otherwise every
      token is corrected and the results are joined with single spaces. */
  function ApplyCustomWords(text: string, customs: seq<string>, score: Scorer, threshold: real): (r: string)
    ensures customs == [] ==> r == text
  {
    if customs == [] then text
    else
      var ws := Words(text);
      Join(seq(|ws|, i requires 0 <= i < |ws| => CorrectWord(ws[i], customs, score, threshold)), " ")
  }

  /** With a non-empty list of token-shaped custom words, splitting the output gives back
      one corrected token per input token, in order. */
  lemma ApplyCustomWordsTokens(text: string, customs: seq<string>, score: Scorer, threshold: real)
    requires customs != []
    requires forall i :: 0 <= i < |customs| ==> IsWord(customs[i])
    ensures var out := Words(ApplyCustomWords(text, customs, score, threshold));
      var ws := Words(text);
      && |out| == |ws|
      && forall i :: 0 <= i < |ws| ==> out[i] == CorrectWord(ws[i], customs, score, threshold)
  {
    var ws := Words(text);
    var fixed := seq(|ws|, i requires 0 <= i < |ws| => CorrectWord(ws[i], customs, score, threshold));
    forall i | 0 <= i < |fixed|
      ensures IsWord(fixed[i])
    {
      CorrectWordKeepsWord(ws[i], customs, score, threshold);
    }
    WordsOfJoin(fixed);
  }
}

=== FILE: dashboard.dfy ===
/** The statistics cards of the dashboard page (`calculateStats`).

    Over the entries of the last thirty days the page sums the words of each entry's
    shown text, turns the sum into typing time saved at 40 words per minute, and counts
    the calendar days with at least one non-blank entry. Time is an integer here: `now`
    is milliseconds since the epoch, a day is 86 400 000 ms, and the calendar day of a
    timestamp is a function the caller supplies. */
module Dashboard {
  import opened Results
  import opened Strings
  import opened History
  import Seqs

  /** `subDays(now, 30)`, as a distance in milliseconds. */
  const ThirtyDaysMs := 30 * 86_400_000

  /** Words per minute of the typing the page compares against. */
  const TypingWordsPerMinute := 40

  /** `new Date(d.timestamp * 1000) >= thirtyDaysAgo`. */
  predicate Recent(nowMs: int, e: Entry) {
    e.timestamp * 1000 >= nowMs - ThirtyDaysMs
  }

  function RecentFilter(nowMs: int): Entry -> bool {
    (e: Entry) => Recent(nowMs, e)
  }

  // ---------------------------------------------------------------------------
  // Counting words: `text.trim().split(/\s+/).length`
  // ---------------------------------------------------------------------------

  /** The number of maximal whitespace runs in `s`. */
  function SpaceRuns(s: string): nat
    decreases |s|
  {
    if s == [] then 0
    else if IsSpace(s[0]) then 1 + SpaceRuns(DropSpaces(s))
    else SpaceRuns(s[1..])
  }

  /** `s.split(/\s+/).length`: every whitespace run separates two pieces. */
  function SplitLength(s: string): nat {
    1 + SpaceRuns(s)
  }

  /** The word count of one entry as the page computes it. */
  function EntryWords(e: Entry): nat {
    SplitLength(Trim(DisplayText(e)))
  }

  /** An entry counts when it is recent and its shown text is not blank. */
  predicate Counted(nowMs: int, e: Entry) {
    Recent(nowMs, e) && Trim(DisplayText(e)) != []
  }

  lemma {:induction false} SpaceRunsSkipWord(w: string, rest: string)
    requires NoSpace(w)
    ensures SpaceRuns(w + rest) == SpaceRuns(rest)
    decreases |w|
  {
    if w != [] {
      assert (w + rest)[1..] == w[1..] + rest;
      SpaceRunsSkipWord(w[1..], rest);
    } else {
      assert w + rest == rest;
    }
  }

  /** Leading whitespace does not change the tokens. */
  lemma WordsAfterSpaces(s: string)
    ensures Words(DropSpaces(s)) == Words(s)
  {
    var t := DropSpaces(s);
    assert DropSpaces(t) == t;
  }

  /** On trimmed text the split counts exactly the whitespace-separated tokens. */
  lemma {:induction false} SplitLengthCountsWords(t: string)
    requires t != [] && !IsSpace(t[0]) && !IsSpace(t[|t| - 1])
    ensures SplitLength(t) == |Words(t)|
    decreases |t|
  {
    var w := TakeWord(t);
    var rest := t[|w|..];
    assert t == w + rest;
    WordsConsWord(w, rest);
    SpaceRunsSkipWord(w, rest);
    if rest != [] {
      var next := DropSpaces(rest);
      assert rest[|rest| - 1] == t[|t| - 1];
      assert next != [];
      assert SpaceRuns(rest) == 1 + SpaceRuns(next);
      WordsAfterSpaces(rest);
      SplitLengthCountsWords(next);
    }
  }

  /** A counted entry contributes the number of tokens of its shown text. */
  lemma EntryWordsCountsTokens(e: Entry)
    requires Trim(DisplayText(e)) != []
    ensures EntryWords(e) == |Words(Trim(DisplayText(e)))| > 0
  {
    var t := Trim(DisplayText(e));
    SplitLengthCountsWords(t);
  }

  // ---------------------------------------------------------------------------
  // Totals
  // ---------------------------------------------------------------------------

  /** What one entry adds to the word total. */
  function WordsOf(nowMs: int): Entry -> nat {
    (e: Entry) => if Counted(nowMs, e) then EntryWords(e) else 0
  }

  /** What one entry adds to the set of active days. */
  function DayOf(nowMs: int, dayOf: int -> int): Entry -> set<int> {
    (e: Entry) => if Counted(nowMs, e) then {dayOf(e.timestamp)} else {}
  }

  /** The word total over the counted entries of `xs`. */
  function TotalWords(nowMs: int, xs: seq<Entry>): nat {
    Seqs.Sum(xs, WordsOf(nowMs))
  }

  /** The calendar days of the counted entries of `xs`. */
  function ActiveDaySet(nowMs: int, dayOf: int -> int, xs: seq<Entry>): set<int> {
    Seqs.Union(xs, DayOf(nowMs, dayOf))
  }

  /** Every day in the set comes from a counted entry. */
  lemma {:induction false} ActiveDayWitness(nowMs: int, dayOf: int -> int, xs: seq<Entry>, d: int)
    returns (i: nat)
    requires d in ActiveDaySet(nowMs, dayOf, xs)
    ensures i < |xs| && Counted(nowMs, xs[i]) && dayOf(xs[i].timestamp) == d
  {
    var init := xs[..|xs| - 1];
    if d in ActiveDaySet(nowMs, dayOf, init) {
      i := ActiveDayWitness(nowMs, dayOf, init, d);
      assert xs[i] == init[i];
    } else {
      i := |xs| - 1;
    }
  }

  /** The day of every counted entry is in the set. */
  lemma {:induction false} CountedDayIsActive(nowMs: int, dayOf: int -> int, xs: seq<Entry>, i: nat)
    requires i < |xs| && Counted(nowMs, xs[i])
    ensures dayOf(xs[i].timestamp) in ActiveDaySet(nowMs, dayOf, xs)
  {
    var init := xs[..|xs| - 1];
    if i < |init| {
      assert init[i] == xs[i];
      CountedDayIsActive(nowMs, dayOf, init, i);
    }
  }

  /** A day is active exactly when some counted entry falls on it. */
  lemma ActiveDaySetMembers(nowMs: int, dayOf: int -> int, xs: seq<Entry>, d: int)
    ensures d in ActiveDaySet(nowMs, dayOf, xs) <==>
      exists i :: 0 <= i < |xs| && Counted(nowMs, xs[i]) && dayOf(xs[i].timestamp) == d
  {
    if d in ActiveDaySet(nowMs, dayOf, xs) {
      var i := ActiveDayWitness(nowMs, dayOf, xs, d);
    }
    if i :| 0 <= i < |xs| && Counted(nowMs, xs[i]) && dayOf(xs[i].timestamp) == d {
      CountedDayIsActive(nowMs, dayOf, xs, i);
    }
  }

  /** `Math.round((words / 40) * 60)`: halves round up. */
  function SecondsSaved(words: nat): nat {
    (words * 60 * 2 + TypingWordsPerMinute) / (2 * TypingWordsPerMinute)
  }

  /** Seconds saved is the nearest whole number to 1.5 seconds per word, halves up. */
  lemma SecondsSavedRounds(words: nat)
    ensures 2 * SecondsSaved(words) == 3 * words || 2 * SecondsSaved(words) == 3 * words + 1
  {
  }

  /** "Ns" under a minute, else whole minutes rounded half up ("Mm"). */
  function TimeSavedDisplay(seconds: nat): string {
    if seconds < 60 then NatToString(seconds) + "s"
    else NatToString((seconds + 30) / 60) + "m"
  }

  /** The display ends in `s` exactly below a minute; in minutes it is the nearest
      whole number of minutes, halves up. */
  lemma TimeSavedDisplayUnits(seconds: nat)
    ensures var t := TimeSavedDisplay(seconds);
      && |t| >= 2
      && (t[|t| - 1] == 's' <==> seconds < 60)
      && (t[|t| - 1] == 'm' <==> seconds >= 60)
      && (seconds < 60 ==> t == NatToString(seconds) + "s")
      && (seconds >= 60 ==>
            exists m: nat :: (t == NatToString(m) + "m" && 60 * m - 30 <= seconds < 60 * m + 30))
  {
    if seconds >= 60 {
      var m := (seconds + 30) / 60;
      assert TimeSavedDisplay(seconds) == NatToString(m) + "m";
    }
  }

  datatype Stats = Stats(totalWords: nat, timeSavedDisplay: string, activeDays: nat)

  /** `calculateStats` over the sorted history. */
  method CalculateStats(data: seq<Entry>, nowMs: int, dayOf: int -> int) returns (stats: Stats)
    ensures stats.totalWords == TotalWords(nowMs, data)
    ensures stats.activeDays == |ActiveDaySet(nowMs, dayOf, data)|
    ensures stats.timeSavedDisplay == TimeSavedDisplay(SecondsSaved(stats.totalWords))
  {
    var recent := Seqs.Filter(data, RecentFilter(nowMs));
    var wordCount, days := CountRecent(recent, nowMs, dayOf);
    RecentFilterIsHarmless(nowMs, dayOf, data);
    var seconds := SecondsSaved(wordCount);
    stats := Stats(wordCount, TimeSavedDisplay(seconds), |days|);
  }

  /** The `forEach` of `calculateStats` over the recent entries: words and days of the
      entries whose shown text is not blank. */
  method CountRecent(recent: seq<Entry>, nowMs: int, dayOf: int -> int)
    returns (wordCount: nat, days: set<int>)
    requires forall i :: 0 <= i < |recent| ==> Recent(nowMs, recent[i])
    ensures wordCount == TotalWords(nowMs, recent)
    ensures days == ActiveDaySet(nowMs, dayOf, recent)
  {
    wordCount, days := 0, {};
    var i := 0;
    while i < |recent|
      invariant 0 <= i <= |recent|
      invariant wordCount == TotalWords(nowMs, recent[..i])
      invariant days == ActiveDaySet(nowMs, dayOf, recent[..i])
    {
      var d := recent[i];
      var text := DisplayText(d);
      TotalsStep(nowMs, dayOf, recent, i);
      if Trim(text) != [] {
        wordCount := wordCount + SplitLength(Trim(text));
        days := days + {dayOf(d.timestamp)};
      }
      i := i + 1;
    }
    assert recent[..i] == recent;
  }

  /** The totals of a prefix grow by the contribution of the next entry. */
  lemma TotalsStep(nowMs: int, dayOf: int -> int, xs: seq<Entry>, i: nat)
    requires i < |xs|
    ensures TotalWords(nowMs, xs[..i + 1]) == TotalWords(nowMs, xs[..i]) + WordsOf(nowMs)(xs[i])
    ensures ActiveDaySet(nowMs, dayOf, xs[..i + 1])
      == ActiveDaySet(nowMs, dayOf, xs[..i]) + DayOf(nowMs, dayOf)(xs[i])
  {
    assert xs[..i + 1][..i] == xs[..i];
  }

  /** Dropping the old entries first changes neither total, since old entries are not
      counted anyway. */
  lemma RecentFilterIsHarmless(nowMs: int, dayOf: int -> int, xs: seq<Entry>)
    ensures TotalWords(nowMs, Seqs.Filter(xs, RecentFilter(nowMs))) == TotalWords(nowMs, xs)
    ensures ActiveDaySet(nowMs, dayOf, Seqs.Filter(xs, RecentFilter(nowMs))) == ActiveDaySet(nowMs, dayOf, xs)
  {
    Seqs.SumOfFilter(xs, RecentFilter(nowMs), WordsOf(nowMs));
    Seqs.UnionOfFilter(xs, RecentFilter(nowMs), DayOf(nowMs, dayOf));
  }

  /** Neither total depends on the order of the entries, so sorting the history before
      computing the statistics does not change them. */
  lemma TotalsIgnoreOrder(nowMs: int, dayOf: int -> int, xs: seq<Entry>, ys: seq<Entry>)
    requires multiset(xs) == multiset(ys)
    ensures TotalWords(nowMs, xs) == TotalWords(nowMs, ys)
    ensures ActiveDaySet(nowMs, dayOf, xs) == ActiveDaySet(nowMs, dayOf, ys)
  {
    Seqs.SumIgnoresOrder(xs, ys, WordsOf(nowMs));
    Seqs.UnionIgnoresOrder(xs, ys, DayOf(nowMs, dayOf));
  }

  /** What the page shows: the history and its statistics. */
  datatype Page = Page(history: seq<Entry>, stats: Stats)

  /** `loadData`: a successful reply is sorted newest first and both shown; any other
      outcome leaves the page as it was. The statistics are those of the entries the
      back end returned, whatever order it returned them in. */
  method LoadData(page: Page, reply: Reply<seq<Entry>>, nowMs: int, dayOf: int -> int)
    returns (next: Page)
    ensures !reply.Ok? ==> next == page
    ensures reply.Ok? ==>
      && next.history == SortNewestFirst(reply.data)
      && next.stats.totalWords == TotalWords(nowMs, reply.data)
      && next.stats.timeSavedDisplay == TimeSavedDisplay(SecondsSaved(next.stats.totalWords))
      && next.stats.activeDays == |ActiveDaySet(nowMs, dayOf, reply.data)|
  {
    if reply.Ok? {
      var sorted := SortNewestFirst(reply.data);
      SortNewestFirstSpec(reply.data);
      TotalsIgnoreOrder(nowMs, dayOf, sorted, reply.data);
      var stats := CalculateStats(sorted, nowMs, dayOf);
      next := Page(sorted, stats);
    } else {
      next := page;
    }
  }
}

=== FILE: history.dfy ===
/** Transcript history entries as both history pages see them, and the newest-first
    order both pages sort them into. */
module History {
  import opened Results
  import StableSort

  /** The fields of a history entry the pages use; `timestamp` is in seconds. */
  datatype Entry = Entry(id: int, timestamp: int, transcription: string, postProcessed: Option<string>)

  /** `post_processed_text || transcription_text`: what the pages show, copy and count. */
  function DisplayText(e: Entry): string {
    OrElse(e.postProcessed, e.transcription)
  }

  /** The shown text is the post-processed text when there is one, else the raw
      transcription; it is empty only when both are, and an empty post-processed text
      never hides the transcription. */
  lemma DisplayTextChoice(e: Entry)
    ensures DisplayText(e) == e.transcription || (e.postProcessed.Some? && DisplayText(e) == e.postProcessed.value)
    ensures DisplayText(e) == "" <==> !Truthy(e.postProcessed) && e.transcription == ""
    ensures e.postProcessed == Some("") ==> DisplayText(e) == e.transcription
    ensures e.postProcessed.None? ==> DisplayText(e) == e.transcription
  {
  }

  /** The sort key that `(a, b) => b.timestamp - a.timestamp` orders by, ascending. */
  function NewestFirstKey(): Entry -> int {
    (e: Entry) => -e.timestamp
  }

  /** `sort((a, b) => b.timestamp - a.timestamp)`. */
  function SortNewestFirst(entries: seq<Entry>): seq<Entry> {
    StableSort.Sort(entries, NewestFirstKey())
  }

  /** The sorted history holds the same entries, newest first, and entries with equal
      timestamps keep the order the back end returned them in. */
  lemma SortNewestFirstSpec(entries: seq<Entry>)
    ensures var r := SortNewestFirst(entries);
      && multiset(r) == multiset(entries)
      && (forall i, j :: 0 <= i < j < |r| ==> r[i].timestamp >= r[j].timestamp)
      && StableSort.SameOrderPerKey(r, entries, NewestFirstKey())
  {
    var r := SortNewestFirst(entries);
    StableSort.SortProperties(entries, NewestFirstKey());
    forall i, j | 0 <= i < j < |r|
      ensures r[i].timestamp >= r[j].timestamp
    {
      assert NewestFirstKey()(r[i]) <= NewestFirstKey()(r[j]);
    }
  }

  /** Sorting again, as every reload does, changes nothing. */
  lemma SortNewestFirstIdempotent(entries: seq<Entry>)
    ensures SortNewestFirst(SortNewestFirst(entries)) == SortNewestFirst(entries)
  {
    StableSort.SortIdempotent(entries, NewestFirstKey());
  }
}

=== FILE: model_selector.dfy ===
/** The offline/online model switch in the footer (`ModelSelector`).

    The component keeps its own copy of the catalogue, the active model id, a status, an
    error message, the download progress and the set of extracting models. It reacts to
    the same back-end events as the store, and its toggle switches between one fixed
    offline model and one fixed online model, downloading the offline one first when it
    is missing. Back-end commands are `Reply` values the caller supplies; the download
    speed statistics are left out. */
module ModelSelector {
  import opened Results
  import opened Strings
  import opened ModelStore

  const OfflineModelId := "nvidia/nemotron-speech-streaming-en-0.6b"
  const OnlineModelId := "sarvam-speech-to-text"

  /** The message shown when the online model is chosen without an API key. */
  const MissingKeyMessage := "Sarvam API key is missing. Add it in Settings > General."

  const LoadFailedMessage := "Failed to load model"

  datatype ModelStatus = Ready | Loading | Downloading | Extracting | Failed | Unloaded | NoModel

  datatype Selector = Selector(
    models: seq<ModelInfo>,
    currentModelId: string,
    status: ModelStatus,
    error: Option<string>,
    progress: map<string, Progress>,
    extracting: set<string>)

  const InitialSelector := Selector([], "", Unloaded, None, map[], {})

  /** A command the component sends to the back end. */
  datatype Command = SetActiveModel(id: string) | DownloadModelCommand(id: string)

  /** The result of a user action: the new state, the commands sent (in order), and the
      message passed to the `onError` callback, if any. */
  datatype Effect = Effect(sel: Selector, commands: seq<Command>, notified: Option<string>)

  predicate IsOnline(sel: Selector) { sel.currentModelId == OnlineModelId }

  // ---------------------------------------------------------------------------
  // Back-end events
  // ---------------------------------------------------------------------------

  /** The `model-state-changed` switch. */
  function OnModelState(sel: Selector, eventType: string, modelId: Option<string>, error: Option<string>)
    : Selector
  {
    if eventType == "loading_started" then sel.(status := Loading, error := None)
    else if eventType == "loading_completed" then
      var done := sel.(status := Ready, error := None);
      if Truthy(modelId) then done.(currentModelId := modelId.value) else done
    else if eventType == "loading_failed" then
      sel.(status := Failed, error := Some(OrElse(error, LoadFailedMessage)))
    else if eventType == "unloaded" then sel.(status := Unloaded, error := None)
    else sel
  }

  /** What each model-state event does to the status, the error and the active model;
      every other event type changes nothing, and no event touches the catalogue, the
      progress or the extracting set. */
  lemma ModelStateRules(sel: Selector, eventType: string, modelId: Option<string>, error: Option<string>)
    ensures var r := OnModelState(sel, eventType, modelId, error);
      && (eventType == "loading_started" ==> r == sel.(status := Loading, error := None))
      && (eventType == "loading_completed" ==>
            r.status == Ready && r.error == None
            && r.currentModelId == (if Truthy(modelId) then modelId.value else sel.currentModelId)
            && r.(status := sel.status, error := sel.error, currentModelId := sel.currentModelId) == sel)
      && (eventType == "loading_failed" ==>
            r == sel.(status := Failed, error := r.error) && r.error.Some? && r.error.value != ""
            && (Truthy(error) ==> r.error == error)
            && (!Truthy(error) ==> r.error == Some(LoadFailedMessage)))
      && (eventType == "unloaded" ==> r == sel.(status := Unloaded, error := None))
      && (eventType !in {"loading_started", "loading_completed", "loading_failed", "unloaded"} ==> r == sel)
      && r.models == sel.models && r.progress == sel.progress && r.extracting == sel.extracting
  {
  }

  /** The other listeners: progress, completion and extraction. A completed download or
      extraction also reloads the catalogue and schedules an automatic switch; both are
      separate steps (`LoadModels`, `HandleModelSwitch`). */
  function OnDownloadProgress(sel: Selector, p: Progress): (r: Selector)
    ensures p.modelId in r.progress && r.progress[p.modelId] == p && r.status == Downloading
    ensures forall m :: m != p.modelId ==> (m in r.progress <==> m in sel.progress)
    ensures forall m :: m != p.modelId && m in sel.progress ==> r.progress[m] == sel.progress[m]
    ensures r.(progress := sel.progress, status := sel.status) == sel
  {
    sel.(progress := sel.progress[p.modelId := p], status := Downloading)
  }

  function OnDownloadComplete(sel: Selector, id: string): (r: Selector)
    ensures id !in r.progress
    ensures forall m :: m != id ==> (m in r.progress <==> m in sel.progress)
    ensures forall m :: m in r.progress ==> r.progress[m] == sel.progress[m]
    ensures r.(progress := sel.progress) == sel
  {
    sel.(progress := sel.progress - {id})
  }

  function OnExtractionStarted(sel: Selector, id: string): (r: Selector)
    ensures id in r.extracting && r.status == Extracting
    ensures forall m :: m != id ==> (m in r.extracting <==> m in sel.extracting)
    ensures r.(extracting := sel.extracting, status := sel.status) == sel
  {
    sel.(extracting := sel.extracting + {id}, status := Extracting)
  }

  function OnExtractionCompleted(sel: Selector, id: string): (r: Selector)
    ensures id !in r.extracting
    ensures forall m :: m != id ==> (m in r.extracting <==> m in sel.extracting)
    ensures r.(extracting := sel.extracting) == sel
  {
    sel.(extracting := sel.extracting - {id})
  }

  const ExtractFailedPrefix := "Failed to extract model: "

  function OnExtractionFailed(sel: Selector, id: string, reason: string): (r: Selector)
    ensures id !in r.extracting && r.status == Failed
    ensures forall m :: m != id ==> (m in r.extracting <==> m in sel.extracting)
    ensures r.error == Some(ExtractFailedPrefix + reason)
    ensures r.(extracting := sel.extracting, status := sel.status, error := sel.error) == sel
  {
    sel.(extracting := sel.extracting - {id}, error := Some(ExtractFailedPrefix + reason), status := Failed)
  }

  /** The selector's reaction to one of the store's back-end events. */
  function OnStoreEvent(sel: Selector, e: StoreEvent): Selector {
    match e
    case ModelStateChanged(kind, id, err) => OnModelState(sel, kind, id, err)
    case DownloadProgressed(p) => OnDownloadProgress(sel, p)
    case DownloadComplete(id) => OnDownloadComplete(sel, id)
    case ExtractionStarted(id) => OnExtractionStarted(sel, id)
    case ExtractionCompleted(id) => OnExtractionCompleted(sel, id)
    case ExtractionFailed(id, reason) => OnExtractionFailed(sel, id, reason)
  }

  function ReplaySelector(sel: Selector, events: seq<StoreEvent>): Selector
    decreases |events|
  {
    if events == [] then sel else ReplaySelector(OnStoreEvent(sel, events[0]), events[1..])
  }

  function ReplayStore(st: Store, events: seq<StoreEvent>): Store
    decreases |events|
  {
    if events == [] then st else ReplayStore(OnEvent(st, events[0]).0, events[1..])
  }

  /** The component and the store listen to the same events and keep their own copies of
      the download progress and the extracting set: started in agreement, the two copies
      agree after every sequence of events. */
  lemma {:induction false} SelectorTracksStore(sel: Selector, st: Store, events: seq<StoreEvent>)
    requires sel.progress == st.progress && sel.extracting == st.extracting
    ensures ReplaySelector(sel, events).progress == ReplayStore(st, events).progress
    ensures ReplaySelector(sel, events).extracting == ReplayStore(st, events).extracting
    decreases |events|
  {
    if events != [] {
      var s1 := OnStoreEvent(sel, events[0]);
      var t1 := OnEvent(st, events[0]).0;
      OneEventAgrees(sel, st, events[0]);
      SelectorTracksStore(s1, t1, events[1..]);
    }
  }

  /** One event moves both copies alike. */
  lemma OneEventAgrees(sel: Selector, st: Store, e: StoreEvent)
    requires sel.progress == st.progress && sel.extracting == st.extracting
    ensures OnStoreEvent(sel, e).progress == OnEvent(st, e).0.progress
    ensures OnStoreEvent(sel, e).extracting == OnEvent(st, e).0.extracting
  {
    match e
    case ModelStateChanged(kind, id, err) => ModelStateRules(sel, kind, id, err);
    case _ =>
  }

  /** The component's own `loadModels`: replaces the catalogue on success only. */
  function LoadModels(sel: Selector, reply: Reply<seq<ModelInfo>>): Selector {
    if reply.Ok? then sel.(models := reply.data) else sel
  }

  const StatusCheckFailedMessage := "Failed to check model status"

  /** The component's own `loadCurrentModel`: adopts the active model, then reports it
      ready when the transcription engine has that model loaded and unloaded otherwise;
      no active model means status `none`; an exception means an error. */
  function LoadCurrentModel(sel: Selector, reply: Reply<string>, engine: Reply<string>): (r: Selector)
    ensures reply.Ok? ==> r.currentModelId == reply.data
    ensures reply.Ok? && reply.data == "" ==> r.status == NoModel && r.error == sel.error
    ensures reply.Ok? && reply.data != "" && engine.Ok? ==>
      r.status == (if engine.data == reply.data then Ready else Unloaded) && r.error == sel.error
    ensures reply.Ok? && reply.data != "" && engine.Err? ==> r.status == sel.status && r.error == sel.error
    ensures reply.Ok? && reply.data != "" && engine.Thrown? ==>
      r.status == Failed && r.error == Some(StatusCheckFailedMessage)
    ensures reply.Err? ==> r == sel
    ensures reply.Thrown? ==>
      r.currentModelId == sel.currentModelId && r.status == Failed && r.error == Some(StatusCheckFailedMessage)
    ensures r.models == sel.models && r.progress == sel.progress && r.extracting == sel.extracting
  {
    match reply
    case Ok(current) =>
      var adopted := sel.(currentModelId := current);
      if current != "" then
        match engine
        case Ok(loaded) => adopted.(status := if loaded == current then Ready else Unloaded)
        case Err(_) => adopted
        case Thrown(_) => adopted.(status := Failed, error := Some(StatusCheckFailedMessage))
      else adopted.(status := NoModel)
    case Err(_) => sel
    case Thrown(_) => sel.(status := Failed, error := Some(StatusCheckFailedMessage))
  }

  // ---------------------------------------------------------------------------
  // Switching
  // ---------------------------------------------------------------------------

  /** `handleModelSwitch`: the online model needs a non-blank API key; otherwise the
      switch is shown at once and then sent, and a failure is reported. `apiKey` is the
      setting as stored (absent or a string). */
  function HandleModelSwitch(sel: Selector, target: string, apiKey: Option<string>, reply: Reply<()>): Effect
  {
    if target == OnlineModelId && Trim(apiKey.GetOr("")) == "" then
      Effect(sel.(error := Some(MissingKeyMessage), status := Failed), [], Some(MissingKeyMessage))
    else
      var shown := sel.(currentModelId := target, error := None);
      match reply
      case Ok(_) => Effect(shown, [SetActiveModel(target)], None)
      case Err(e) => Effect(shown.(error := Some(e), status := Failed), [SetActiveModel(target)], Some(e))
      case Thrown(e) => Effect(shown.(error := Some(e), status := Failed), [SetActiveModel(target)], Some(e))
  }

  /** The online model without a usable key is refused: an error status and message, no
      command, the active model unchanged. Any other target is shown as active at once
      and sent exactly once, and the error is cleared unless the back end refuses. */
  lemma SwitchRules(sel: Selector, target: string, apiKey: Option<string>, reply: Reply<()>)
    ensures var e := HandleModelSwitch(sel, target, apiKey, reply);
      && (target == OnlineModelId && Trim(apiKey.GetOr("")) == "" ==>
            e.sel.status == Failed && e.sel.error == Some(MissingKeyMessage) && e.commands == []
            && e.sel.currentModelId == sel.currentModelId && e.notified == Some(MissingKeyMessage))
      && (!(target == OnlineModelId && Trim(apiKey.GetOr("")) == "") ==>
            e.sel.currentModelId == target && e.commands == [SetActiveModel(target)]
            && (reply.Ok? <==> e.notified.None?)
            && (reply.Ok? ==> e.sel.error == None && e.sel.status == sel.status)
            && (!reply.Ok? ==> e.sel.status == Failed && e.sel.error == e.notified))
  {
  }

  /** Where the toggle goes: offline when the online model is active, online otherwise. */
  function ToggleTarget(current: string): (t: string)
  {
    if current == OnlineModelId then OfflineModelId else OnlineModelId
  }

  /** The toggle always leaves the online model, and from anywhere else goes online. */
  lemma ToggleTargetFlips(current: string)
    ensures ToggleTarget(current) == OnlineModelId <==> current != OnlineModelId
    ensures ToggleTarget(current) == OfflineModelId <==> current == OnlineModelId
    ensures current in {OnlineModelId, OfflineModelId} ==> ToggleTarget(current) != current
    ensures current in {OnlineModelId, OfflineModelId} ==> ToggleTarget(ToggleTarget(current)) == current
  {
  }

  /** The offline model is listed but neither downloaded nor downloading. */
  predicate NeedsDownload(sel: Selector) {
    var m := FindModel(sel.models, OfflineModelId);
    m.Some? && !sel.models[m.value].isDownloaded && !sel.models[m.value].isDownloading
  }

  /** `handleToggle`. `download` answers the download command, `reply` the switch. */
  function HandleToggle(sel: Selector, apiKey: Option<string>, download: Reply<()>, reply: Reply<()>): Effect
  {
    var target := ToggleTarget(sel.currentModelId);
    if target == OfflineModelId && NeedsDownload(sel) then
      var sent := [DownloadModelCommand(OfflineModelId)];
      match download
      case Ok(_) => Effect(sel, sent, None)
      case Err(e) => Effect(sel.(error := Some(e)), sent, None)
      case Thrown(e) => Effect(sel.(error := Some(e)), sent, None)
    else HandleModelSwitch(sel, target, apiKey, reply)
  }

  /** Toggling from online to a missing offline model only starts its download: no
      switch is sent and the active model stays; a refused download shows its error. In
      every other case the toggle is a switch to the target. */
  lemma ToggleRules(sel: Selector, apiKey: Option<string>, download: Reply<()>, reply: Reply<()>)
    ensures var e := HandleToggle(sel, apiKey, download, reply);
      var target := ToggleTarget(sel.currentModelId);
      && (target == OfflineModelId && NeedsDownload(sel) ==>
            && e.commands == [DownloadModelCommand(OfflineModelId)]
            && e.sel.currentModelId == sel.currentModelId
            && e.notified == None
            && (download.Ok? ==> e.sel == sel)
            && (!download.Ok? ==> e.sel == sel.(error := e.sel.error) && e.sel.error.Some?))
      && (!(target == OfflineModelId && NeedsDownload(sel)) ==> e == HandleModelSwitch(sel, target, apiKey, reply))
  {
  }

  // ---------------------------------------------------------------------------
  // Status text
  // ---------------------------------------------------------------------------

  /** JavaScript `Math.round`: halves round up. */
  function Round(x: real): int {
    (x + 0.5).Floor
  }

  const ExtractingText := "Extracting..."
  const LoadingText := "Loading..."
  const ErrorText := "Error"
  const ReadyText := "Ready"

  function DownloadingText(percentage: real): string {
    "Downloading: " + IntToString(Round(percentage)) + "%"
  }

  /** `getStatusText`. */
  function StatusText(sel: Selector): string {
    if OfflineModelId in sel.extracting then ExtractingText
    else if OfflineModelId in sel.progress then DownloadingText(sel.progress[OfflineModelId].percentage)
    else if sel.status == Loading then LoadingText
    else if sel.status == Failed then ErrorText
    else if sel.status == Ready then ReadyText
    else ""
  }

  /** The download text is never empty and can be told apart from every other status
      text by its first character. */
  lemma DownloadingTextShape(percentage: real)
    ensures |DownloadingText(percentage)| > 0 && DownloadingText(percentage)[0] == 'D'
    ensures DownloadingText(percentage) != ExtractingText && DownloadingText(percentage) != LoadingText
    ensures DownloadingText(percentage) != ErrorText && DownloadingText(percentage) != ReadyText
  {
    assert ExtractingText[0] == 'E' && LoadingText[0] == 'L' && ErrorText[0] == 'E' && ReadyText[0] == 'R';
  }

  /** The status text follows a fixed priority: extraction of the offline model first,
      then its download percentage, then loading, error and ready; otherwise nothing.
      Each text is shown exactly when every higher-priority condition is absent. */
  lemma StatusTextPriority(sel: Selector)
    ensures var t := StatusText(sel);
      var extracting := OfflineModelId in sel.extracting;
      var downloading := OfflineModelId in sel.progress;
      && (t == ExtractingText <==> extracting)
      && ((t == DownloadingText(if downloading then sel.progress[OfflineModelId].percentage else 0.0))
            <==> !extracting && downloading)
      && (t == LoadingText <==> !extracting && !downloading && sel.status == Loading)
      && (t == ErrorText <==> !extracting && !downloading && sel.status == Failed)
      && (t == ReadyText <==> !extracting && !downloading && sel.status == Ready)
      && (t == "" <==> !extracting && !downloading && sel.status !in {Loading, Failed, Ready})
  {
    var p := if OfflineModelId in sel.progress then sel.progress[OfflineModelId].percentage else 0.0;
    DownloadingTextShape(p);
    assert ExtractingText[0] == 'E' && LoadingText[0] == 'L' && ErrorText[0] == 'E' && ReadyText[0] == 'R';
  }
}

=== FILE: model_store.dfy ===
/** The front end's model store (`useModelStore`) and the back-end events it listens to.

    The store holds the model catalogue, the active model, which models are downloading
    or extracting, the download progress per model, and a few flags. Every back-end
    command is one `Reply` the caller supplies (success, error result, or a thrown
    exception), and each action is one atomic step. Requests the store fires without
    waiting for them (a reload of the catalogue, say) are returned as `Refresh` values;
    the functions that apply them are the store's own reload actions below. */
module ModelStore {
  import opened Results

  /** The part of a catalogue entry the front end branches on. */
  datatype ModelInfo = ModelInfo(id: string, isDownloaded: bool, isDownloading: bool)

  /** One `model-download-progress` payload. */
  datatype Progress = Progress(modelId: string, downloaded: int, total: int, percentage: real)

  /** What `get_model_load_status` reports. */
  datatype LoadStatus = LoadStatus(isLoaded: bool, currentModel: Option<string>)

  datatype Store = Store(
    models: seq<ModelInfo>,
    currentModel: string,
    downloading: set<string>,
    extracting: set<string>,
    progress: map<string, Progress>,
    loading: bool,
    error: Option<string>,
    hasAnyModels: bool,
    isFirstRun: bool,
    isModelLoaded: bool)

  /** The store as created. */
  const Initial := Store([], "", {}, {}, map[], true, None, false, false, false)

  /** A reload the store starts without awaiting it. */
  datatype Refresh = ReloadLoadStatus | ReloadCurrentModel | ReloadModels

  // ---------------------------------------------------------------------------
  // Setters and getters
  // ---------------------------------------------------------------------------

  function AddDownloading(st: Store, id: string): Store {
    st.(downloading := st.downloading + {id})
  }

  function RemoveDownloading(st: Store, id: string): Store {
    st.(downloading := st.downloading - {id})
  }

  function AddExtracting(st: Store, id: string): Store {
    st.(extracting := st.extracting + {id})
  }

  function RemoveExtracting(st: Store, id: string): Store {
    st.(extracting := st.extracting - {id})
  }

  function SetDownloadProgress(st: Store, id: string, p: Progress): Store {
    st.(progress := st.progress[id := p])
  }

  function RemoveDownloadProgress(st: Store, id: string): Store {
    st.(progress := st.progress - {id})
  }

  predicate IsModelDownloading(st: Store, id: string) { id in st.downloading }

  predicate IsModelExtracting(st: Store, id: string) { id in st.extracting }

  function GetDownloadProgress(st: Store, id: string): Option<Progress> {
    if id in st.progress then Some(st.progress[id]) else None
  }

  /** `models.find(m => m.id === id)`: the first catalogue entry with that id. */
  function GetModelInfo(st: Store, id: string): (r: Option<ModelInfo>)
    ensures r.None? <==> forall i :: 0 <= i < |st.models| ==> st.models[i].id != id
    ensures r.Some? ==> r.value.id == id && r.value in st.models
  {
    match FindModel(st.models, id)
    case None => None
    case Some(i) => Some(st.models[i])
  }

  /** The position of the first entry with the id, if any. */
  function FindModel(models: seq<ModelInfo>, id: string): (r: Option<nat>)
    ensures r.None? <==> forall i :: 0 <= i < |models| ==> models[i].id != id
    ensures r.Some? ==> r.value < |models| && models[r.value].id == id
    ensures r.Some? ==> forall j :: 0 <= j < r.value ==> models[j].id != id
  {
    if models == [] then None
    else if models[0].id == id then Some(0)
    else
      match FindModel(models[1..], id)
      case None => None
      case Some(i) => Some(i + 1)
  }

  /** The set setters change only the named member of the named set; every other model
      answers the getters as before, and the named one answers as asked. */
  lemma SetSettersTouchOnlyTheirId(st: Store, id: string, other: string)
    requires other != id
    ensures IsModelDownloading(AddDownloading(st, id), id)
    ensures !IsModelDownloading(RemoveDownloading(st, id), id)
    ensures IsModelExtracting(AddExtracting(st, id), id)
    ensures !IsModelExtracting(RemoveExtracting(st, id), id)
    ensures IsModelDownloading(AddDownloading(st, id), other) == IsModelDownloading(st, other)
    ensures IsModelDownloading(RemoveDownloading(st, id), other) == IsModelDownloading(st, other)
    ensures IsModelExtracting(AddExtracting(st, id), other) == IsModelExtracting(st, other)
    ensures IsModelExtracting(RemoveExtracting(st, id), other) == IsModelExtracting(st, other)
    ensures AddDownloading(st, id).(downloading := st.downloading) == st
    ensures RemoveDownloading(st, id).(downloading := st.downloading) == st
    ensures AddExtracting(st, id).(extracting := st.extracting) == st
    ensures RemoveExtracting(st, id).(extracting := st.extracting) == st
  {
  }

  /** Adding and removing an id undo each other. */
  lemma AddRemoveInverse(st: Store, id: string)
    ensures id !in st.downloading ==> RemoveDownloading(AddDownloading(st, id), id) == st
    ensures id in st.downloading ==> AddDownloading(RemoveDownloading(st, id), id) == st
    ensures id !in st.extracting ==> RemoveExtracting(AddExtracting(st, id), id) == st
    ensures id in st.extracting ==> AddExtracting(RemoveExtracting(st, id), id) == st
  {
    if id !in st.downloading {
      assert st.downloading + {id} - {id} == st.downloading;
    } else {
      assert st.downloading - {id} + {id} == st.downloading;
    }
    if id !in st.extracting {
      assert st.extracting + {id} - {id} == st.extracting;
    } else {
      assert st.extracting - {id} + {id} == st.extracting;
    }
  }

  /** Progress reads back what was set; removing it forgets only that model. */
  lemma ProgressSetGet(st: Store, id: string, p: Progress, other: string)
    requires other != id
    ensures GetDownloadProgress(SetDownloadProgress(st, id, p), id) == Some(p)
    ensures GetDownloadProgress(SetDownloadProgress(st, id, p), other) == GetDownloadProgress(st, other)
    ensures GetDownloadProgress(RemoveDownloadProgress(st, id), id) == None
    ensures GetDownloadProgress(RemoveDownloadProgress(st, id), other) == GetDownloadProgress(st, other)
    ensures SetDownloadProgress(st, id, p).(progress := st.progress) == st
    ensures RemoveDownloadProgress(st, id).(progress := st.progress) == st
    ensures id !in st.progress ==> RemoveDownloadProgress(SetDownloadProgress(st, id, p), id) == st
  {
    if id !in st.progress {
      assert st.progress[id := p] - {id} == st.progress;
    }
  }

  // ---------------------------------------------------------------------------
  // Actions
  // ---------------------------------------------------------------------------

  /** `checkModelLoadStatus`: adopts the reported load flag, and the reported active
      model when one is named; a failure changes nothing. */
  function CheckModelLoadStatus(st: Store, reply: Reply<LoadStatus>): (r: Store)
    ensures !reply.Ok? ==> r == st
    ensures reply.Ok? ==> r.isModelLoaded == reply.data.isLoaded
    ensures reply.Ok? && Truthy(reply.data.currentModel) ==> r.currentModel == reply.data.currentModel.value
    ensures reply.Ok? && !Truthy(reply.data.currentModel) ==> r.currentModel == st.currentModel
    ensures r.(isModelLoaded := st.isModelLoaded, currentModel := st.currentModel) == st
  {
    match reply
    case Ok(status) =>
      var withFlag := st.(isModelLoaded := status.isLoaded);
      if Truthy(status.currentModel) then withFlag.(currentModel := status.currentModel.value)
      else withFlag
    case _ => st
  }

  /** `loadModels`: a new catalogue on success, an error message otherwise; `loading`
      ends either way. */
  function LoadModels(st: Store, reply: Reply<seq<ModelInfo>>): (r: Store)
    ensures !r.loading
    ensures reply.Ok? ==> r.models == reply.data && r.error == None
    ensures !reply.Ok? ==> r.models == st.models && r.error.Some?
    ensures r.(models := st.models, error := st.error, loading := st.loading) == st
  {
    var st1 := match reply
      case Ok(models) => st.(models := models, error := None)
      case Err(e) => st.(error := Some("Failed to load models: " + e))
      case Thrown(e) => st.(error := Some("Failed to load models: " + e));
    st1.(loading := false)
  }

  /** `loadCurrentModel`: adopts the reported active model on success. */
  function LoadCurrentModel(st: Store, reply: Reply<string>): (r: Store)
    ensures reply.Ok? ==> r == st.(currentModel := reply.data)
    ensures !reply.Ok? ==> r == st
  {
    if reply.Ok? then st.(currentModel := reply.data) else st
  }

  /** Applies a fired reload once its reply has arrived. */
  function ApplyRefresh(st: Store, refresh: Refresh, status: Reply<LoadStatus>,
                        current: Reply<string>, models: Reply<seq<ModelInfo>>): Store
  {
    match refresh
    case ReloadLoadStatus => CheckModelLoadStatus(st, status)
    case ReloadCurrentModel => LoadCurrentModel(st, current)
    case ReloadModels => LoadModels(st, models)
  }

  /** `checkFirstRun`: on success the store records whether any model is available and
      the call answers whether this is a first run; a failure changes nothing and
      answers `false`. */
  function CheckFirstRun(st: Store, reply: Reply<bool>): (r: (Store, bool))
    ensures reply.Ok? ==> r.0.isFirstRun == !reply.data && r.0.hasAnyModels == reply.data
    ensures reply.Ok? ==> r.1 == r.0.isFirstRun
    ensures !reply.Ok? ==> r == (st, false)
    ensures r.0.(isFirstRun := st.isFirstRun, hasAnyModels := st.hasAnyModels) == st
  {
    if reply.Ok? then (st.(hasAnyModels := reply.data, isFirstRun := !reply.data), !reply.data)
    else (st, false)
  }

  /** `selectModel`: on success the model becomes current, the first run is over and a
      model is known to exist, and a load-status reload is fired; on failure only the
      error changes. The flag says which happened. */
  function SelectModel(st: Store, id: string, reply: Reply<()>): (r: (Store, bool, seq<Refresh>))
    ensures r.1 <==> reply.Ok?
    ensures r.1 ==> r.0.currentModel == id && !r.0.isFirstRun && r.0.hasAnyModels && r.0.error == None
    ensures r.1 ==> r.2 == [ReloadLoadStatus]
    ensures r.1 ==> r.0.(currentModel := st.currentModel, isFirstRun := st.isFirstRun,
                         hasAnyModels := st.hasAnyModels, error := st.error) == st
    ensures !r.1 ==> r.0 == st.(error := r.0.error) && r.0.error.Some? && r.2 == []
  {
    var cleared := st.(error := None);
    match reply
    case Ok(_) => (cleared.(currentModel := id, isFirstRun := false, hasAnyModels := true), true, [ReloadLoadStatus])
    case Err(e) => (cleared.(error := Some("Failed to switch to model: " + e)), false, [])
    case Thrown(e) => (cleared.(error := Some("Failed to switch to model: " + e)), false, [])
  }

  /** `downloadModel`: the model is marked downloading before the command is sent; a
      failure (error result or exception) records the error and unmarks it. */
  function DownloadModel(st: Store, id: string, reply: Reply<()>): (r: (Store, bool))
    ensures r.1 <==> reply.Ok?
    ensures r.1 ==> r.0 == AddDownloading(st, id).(error := None)
    ensures !r.1 ==> id !in r.0.downloading && r.0.error.Some?
    ensures !r.1 ==> r.0 == RemoveDownloading(st, id).(error := r.0.error)
  {
    var started := AddDownloading(st.(error := None), id);
    match reply
    case Ok(_) => (started, true)
    case Err(e) => (RemoveDownloading(started.(error := Some("Failed to download model: " + e)), id), false)
    case Thrown(e) => (RemoveDownloading(started.(error := Some("Failed to download model: " + e)), id), false)
  }

  /** `deleteModel`: on success the catalogue and then the load status are reloaded
      (both awaited); on failure only the error changes. */
  function DeleteModel(st: Store, id: string, reply: Reply<()>,
                       models: Reply<seq<ModelInfo>>, status: Reply<LoadStatus>): (r: (Store, bool))
    ensures r.1 <==> reply.Ok?
    ensures r.1 ==> r.0 == CheckModelLoadStatus(LoadModels(st.(error := None), models), status)
    ensures !r.1 ==> r.0 == st.(error := r.0.error) && r.0.error.Some?
  {
    var cleared := st.(error := None);
    match reply
    case Ok(_) => (CheckModelLoadStatus(LoadModels(cleared, models), status), true)
    case Err(e) => (cleared.(error := Some("Failed to delete model: " + e)), false)
    case Thrown(e) => (cleared.(error := Some("Failed to delete model: " + e)), false)
  }

  // ---------------------------------------------------------------------------
  // Back-end events
  // ---------------------------------------------------------------------------

  datatype StoreEvent =
    | ModelStateChanged(eventType: string, modelId: Option<string>, errorText: Option<string>)
    | DownloadProgressed(p: Progress)
    | DownloadComplete(id: string)
    | ExtractionStarted(id: string)
    | ExtractionCompleted(id: string)
    | ExtractionFailed(id: string, reason: string)

  /** The listeners registered at module load: the store after the event, and the
      reloads it fires, in the order fired. */
  function OnEvent(st: Store, e: StoreEvent): (r: (Store, seq<Refresh>))
  {
    match e
    case ModelStateChanged(kind, _, err) =>
      if kind == "loading_completed" then
        (st.(isModelLoaded := true), [ReloadLoadStatus, ReloadCurrentModel])
      else if kind == "unloaded" then
        (st.(isModelLoaded := false), [ReloadCurrentModel])
      else if kind == "loading_failed" then
        (st.(error := Some(OrElse(err, "Model failed to load")),
             isModelLoaded := false), [ReloadCurrentModel])
      else (st, [ReloadCurrentModel])
    case DownloadProgressed(p) => (SetDownloadProgress(st, p.modelId, p), [])
    case DownloadComplete(id) => (RemoveDownloadProgress(RemoveDownloading(st, id), id), [ReloadModels])
    case ExtractionStarted(id) => (AddExtracting(st, id), [])
    case ExtractionCompleted(id) => (RemoveExtracting(st, id), [ReloadModels])
    case ExtractionFailed(id, err) =>
      (RemoveExtracting(st, id).(error := Some("Failed to extract model: " + err)), [])
  }

  /** The load flag follows the model-state events: set by `loading_completed`, cleared
      by `unloaded` and `loading_failed`, untouched by every other event; every
      model-state event ends by reloading the active model. */
  lemma LoadFlagFollowsEvents(st: Store, e: StoreEvent)
    ensures var r := OnEvent(st, e);
      && (e.ModelStateChanged? && e.eventType == "loading_completed" ==> r.0.isModelLoaded)
      && (e.ModelStateChanged? && e.eventType in {"unloaded", "loading_failed"} ==> !r.0.isModelLoaded)
      && ((e.ModelStateChanged? && e.eventType !in {"loading_completed", "unloaded", "loading_failed"})
            ==> r.0 == st)
      && (!e.ModelStateChanged? ==> r.0.isModelLoaded == st.isModelLoaded)
      && (e.ModelStateChanged? ==> r.1 != [] && r.1[|r.1| - 1] == ReloadCurrentModel)
      && (e.ModelStateChanged? && e.eventType == "loading_failed" ==> r.0.error.Some? && r.0.error.value != "")
  {
  }

  /** Applies the reloads an event fired, in the order fired, once their replies have
      arrived. */
  function Settle(st: Store, fired: seq<Refresh>, status: Reply<LoadStatus>,
                  current: Reply<string>, models: Reply<seq<ModelInfo>>): Store
    decreases |fired|
  {
    if fired == [] then st
    else Settle(ApplyRefresh(st, fired[0], status, current, models), fired[1..], status, current, models)
  }

  /** After a model-state event and the reloads it fires, with the replies applied in
      the order the reloads were fired, the store names the active model the back end
      reports; the load flag is the reported one after `loading_completed`, false after
      `unloaded` and `loading_failed`, and as before otherwise. A failed current-model
      reload keeps the model the store had. Neither reload is awaited, so their replies
      may land in either order; `LoadingCompletedEitherOrder` covers both. */
  lemma ModelStateThenReload(st: Store, kind: string, id: Option<string>, err: Option<string>,
                             status: Reply<LoadStatus>, current: Reply<string>, models: Reply<seq<ModelInfo>>)
    ensures var (mid, fired) := OnEvent(st, ModelStateChanged(kind, id, err));
      var r := Settle(mid, fired, status, current, models);
      && (current.Ok? ==> r.currentModel == current.data)
      && (!current.Ok? && kind != "loading_completed" ==> r.currentModel == st.currentModel)
      && (kind == "loading_completed" ==>
            r.isModelLoaded == (if status.Ok? then status.data.isLoaded else true))
      && (kind in {"unloaded", "loading_failed"} ==> !r.isModelLoaded)
      && (kind !in {"loading_completed", "unloaded", "loading_failed"} ==> r.isModelLoaded == st.isModelLoaded)
      && r.models == st.models && r.downloading == st.downloading && r.progress == st.progress
  {
    var (mid, fired) := OnEvent(st, ModelStateChanged(kind, id, err));
    if kind == "loading_completed" {
      assert fired == [ReloadLoadStatus, ReloadCurrentModel];
      var a := CheckModelLoadStatus(mid, status);
      assert Settle(mid, fired, status, current, models) == Settle(a, [ReloadCurrentModel], status, current, models);
      assert Settle(a, [ReloadCurrentModel], status, current, models) == LoadCurrentModel(a, current);
    } else {
      assert fired == [ReloadCurrentModel];
      assert Settle(mid, fired, status, current, models) == LoadCurrentModel(mid, current);
    }
  }

  /** Whichever reply of the two reloads fired by `loading_completed` lands first, the
      store ends with the load flag the status reports (set when the status reload
      fails), and the active model is the one the current-model reload reports unless
      the status reply, landing last, names a model of its own. Either way a successful
      current-model reload leaves a model the back end named. */
  lemma LoadingCompletedEitherOrder(st: Store, id: Option<string>, err: Option<string>,
                                    status: Reply<LoadStatus>, current: Reply<string>,
                                    models: Reply<seq<ModelInfo>>)
    ensures var mid := OnEvent(st, ModelStateChanged("loading_completed", id, err)).0;
      var inOrder := Settle(mid, [ReloadLoadStatus, ReloadCurrentModel], status, current, models);
      var reversed := Settle(mid, [ReloadCurrentModel, ReloadLoadStatus], status, current, models);
      var flag := if status.Ok? then status.data.isLoaded else true;
      var named := status.Ok? && Truthy(status.data.currentModel);
      && inOrder.isModelLoaded == flag && reversed.isModelLoaded == flag
      && reversed.currentModel == (if named then status.data.currentModel.value
                                   else if current.Ok? then current.data else st.currentModel)
      && (current.Ok? ==>
            (inOrder.currentModel == current.data || (named && inOrder.currentModel == status.data.currentModel.value))
            && (reversed.currentModel == current.data || (named && reversed.currentModel == status.data.currentModel.value)))
      && reversed.(isModelLoaded := inOrder.isModelLoaded, currentModel := inOrder.currentModel) == inOrder
  {
    var mid := OnEvent(st, ModelStateChanged("loading_completed", id, err)).0;
    assert mid == st.(isModelLoaded := true);
    SettleStatusFirst(mid, status, current, models);
    SettleCurrentFirst(mid, status, current, models);
  }

  /** Settling the two reloads applies their replies one after the other. */
  lemma SettleStatusFirst(st: Store, status: Reply<LoadStatus>, current: Reply<string>,
                          models: Reply<seq<ModelInfo>>)
    ensures Settle(st, [ReloadLoadStatus, ReloadCurrentModel], status, current, models)
            == LoadCurrentModel(CheckModelLoadStatus(st, status), current)
  {
    assert [ReloadLoadStatus, ReloadCurrentModel][1..] == [ReloadCurrentModel];
  }

  lemma SettleCurrentFirst(st: Store, status: Reply<LoadStatus>, current: Reply<string>,
                           models: Reply<seq<ModelInfo>>)
    ensures Settle(st, [ReloadCurrentModel, ReloadLoadStatus], status, current, models)
            == CheckModelLoadStatus(LoadCurrentModel(st, current), status)
  {
    assert [ReloadCurrentModel, ReloadLoadStatus][1..] == [ReloadLoadStatus];
  }

  /** A finished download leaves the model neither downloading nor with progress, keeps
      every other model's entries, and changes nothing else. */
  lemma DownloadCompleteClears(st: Store, id: string, other: string)
    requires other != id
    ensures var r := OnEvent(st, DownloadComplete(id)).0;
      && !IsModelDownloading(r, id) && GetDownloadProgress(r, id) == None
      && IsModelDownloading(r, other) == IsModelDownloading(st, other)
      && GetDownloadProgress(r, other) == GetDownloadProgress(st, other)
      && r.(downloading := st.downloading, progress := st.progress) == st
  {
  }

  /** A download that the back end accepts, followed by its completion event, leaves
      the model as it was before the download with respect to both the downloading set
      and the progress map, provided it had neither to begin with. */
  lemma DownloadLifecycle(st: Store, id: string, p: Progress)
    requires id !in st.downloading && id !in st.progress && p.modelId == id
    ensures var started := DownloadModel(st, id, Ok(())).0;
      var progressed := OnEvent(started, DownloadProgressed(p)).0;
      var done := OnEvent(progressed, DownloadComplete(id)).0;
      && IsModelDownloading(started, id) && IsModelDownloading(progressed, id)
      && GetDownloadProgress(progressed, id) == Some(p)
      && done.downloading == st.downloading && done.progress == st.progress
  {
    assert st.downloading + {id} - {id} == st.downloading;
    assert st.progress[id := p] - {id} == st.progress;
  }

  /** Extraction marks and unmarks the model; a failure also records an error. */
  lemma ExtractionLifecycle(st: Store, id: string, err: string)
    requires id !in st.extracting
    ensures var started := OnEvent(st, ExtractionStarted(id)).0;
      && IsModelExtracting(started, id)
      && OnEvent(started, ExtractionCompleted(id)).0 == st
      && OnEvent(started, ExtractionFailed(id, err)).0 == st.(error := Some("Failed to extract model: " + err))
  {
    assert st.extracting + {id} - {id} == st.extracting;
  }
}

=== FILE: modifiers.dfy ===
/** Modifier classification and OS-specific modifier ordering of the shortcut recorder
    (`isModifier`, `sortModifiers` and the display string built from them). */
module Modifiers {
  import opened Strings
  import StableSort

  /** The four operating-system kinds the keyboard helpers distinguish. */
  datatype OsType = MacOs | Windows | Linux | Unknown

  /** Every token the local listener treats as a modifier. */
  const ModifierNames: seq<string> :=
    ["shift", "ctrl", "control", "alt", "option", "command", "cmd", "meta",
     "super", "win", "windows", "fn"]

  predicate IsModifier(key: string) {
    key in ModifierNames
  }

  lemma ListedModifier(j: nat)
    requires j < |ModifierNames|
    ensures IsModifier(ModifierNames[j])
  {
  }

  /** The canonical modifier order; only macOS selects the first table. */
  function OrderTable(os: OsType): seq<string> {
    if os == MacOs then ["command", "option", "shift", "ctrl", "fn"]
    else ["ctrl", "alt", "shift", "super", "win", "command", "option", "fn"]
  }

  /** `table.indexOf(x)`, with "absent" reported as `|table|`. */
  function IndexOf(table: seq<string>, x: string): (r: nat)
    ensures r <= |table|
    ensures r < |table| <==> x in table
    ensures r < |table| ==> table[r] == x
    ensures forall j :: 0 <= j < r ==> table[j] != x
  {
    if table == [] then 0
    else if table[0] == x then 0
    else 1 + IndexOf(table[1..], x)
  }

  /** No token appears twice in `table`. */
  predicate Distinct(table: seq<string>) {
    forall i, j :: 0 <= i < j < |table| ==> table[i] != table[j]
  }

  lemma OrderTableDistinct(os: OsType)
    ensures Distinct(OrderTable(os))
  {
  }

  /** In a table without repeats, the position of an entry is its index. */
  lemma IndexOfDistinct(table: seq<string>, j: nat)
    requires Distinct(table) && j < |table|
    ensures IndexOf(table, table[j]) == j
  {
  }

  /** The sort key of a token: its table position, or the table length when unlisted. */
  function Rank(os: OsType, token: string): nat {
    IndexOf(OrderTable(os), token)
  }

  function RankKey(os: OsType): string -> int {
    token => Rank(os, token)
  }

  /** The tokens of `mods` that the table does not list, in their order in `mods`. */
  function Unlisted(os: OsType, mods: seq<string>): (r: seq<string>)
  {
    if mods == [] then []
    else (if mods[0] in OrderTable(os) then [] else [mods[0]]) + Unlisted(os, mods[1..])
  }

  /** `sortModifiers`: a stable sort by table position. */
  function SortModifiers(os: OsType, mods: seq<string>): seq<string>
  {
    StableSort.Sort(mods, RankKey(os))
  }

  /** The result of `sortModifiers` is a rearrangement of the input, ordered by table
      position, in which tokens of equal position (in particular all unlisted tokens)
      keep their input order. */
  lemma SortModifiersSpec(os: OsType, mods: seq<string>)
    ensures var r := SortModifiers(os, mods);
      && multiset(r) == multiset(mods)
      && (forall i, j :: 0 <= i < j < |r| ==> Rank(os, r[i]) <= Rank(os, r[j]))
      && StableSort.SameOrderPerKey(r, mods, RankKey(os))
      && Unlisted(os, r) == Unlisted(os, mods)
  {
    var r := SortModifiers(os, mods);
    StableSort.SortProperties(mods, RankKey(os));
    UnlistedIsLastKey(os, r);
    UnlistedIsLastKey(os, mods);
  }

  lemma {:induction false} UnlistedIsLastKey(os: OsType, mods: seq<string>)
    ensures Unlisted(os, mods) == StableSort.WithKey(mods, RankKey(os), |OrderTable(os)|)
  {
    if mods != [] {
      UnlistedIsLastKey(os, mods[1..]);
    }
  }

  /** The live display: the sorted modifiers joined with `+`. */
  function DisplayModifiers(os: OsType, pressed: seq<string>): string {
    Join(SortModifiers(os, pressed), "+")
  }

  /** Every unlisted token comes after every listed one. */
  lemma UnlistedLast(os: OsType, mods: seq<string>)
    ensures var r := SortModifiers(os, mods);
      forall i, j :: 0 <= i < |r| && 0 <= j < |r| && r[i] in OrderTable(os) && r[j] !in OrderTable(os)
        ==> i < j
  {
    var r := SortModifiers(os, mods);
    var t := OrderTable(os);
    SortModifiersSpec(os, mods);
    forall i, j | 0 <= i < |r| && 0 <= j < |r| && r[i] in t && r[j] !in t
      ensures i < j
    {
      assert Rank(os, r[i]) < |t| == Rank(os, r[j]);
    }
  }

  /** Ordering an ordered list changes nothing. */
  lemma SortModifiersIdempotent(os: OsType, mods: seq<string>)
    ensures SortModifiers(os, SortModifiers(os, mods)) == SortModifiers(os, mods)
  {
    StableSort.SortIdempotent(mods, RankKey(os));
  }

  /** When every pressed token is listed in the table, the order of pressing does not
      matter: the same tokens always render the same way. */
  lemma SortModifiersIgnoresPressOrder(os: OsType, a: seq<string>, b: seq<string>)
    requires multiset(a) == multiset(b)
    requires forall i :: 0 <= i < |a| ==> a[i] in OrderTable(os)
    ensures SortModifiers(os, a) == SortModifiers(os, b)
  {
    var ra, rb := SortModifiers(os, a), SortModifiers(os, b);
    SortModifiersSpec(os, a);
    SortModifiersSpec(os, b);
    ListedPermutationsAgreePerKey(os, a, b);
    assert |ra| == |rb| by {
      calc {
        |ra|;
        |multiset(ra)|;
        |multiset(rb)|;
        |rb|;
      }
    }
    StableSort.SortedUnique(ra, rb, RankKey(os));
  }

  lemma ListedPermutationsAgreePerKey(os: OsType, a: seq<string>, b: seq<string>)
    requires multiset(a) == multiset(b)
    requires forall i :: 0 <= i < |a| ==> a[i] in OrderTable(os)
    ensures StableSort.SameOrderPerKey(a, b, RankKey(os))
  {
    var key := RankKey(os);
    var table := OrderTable(os);
    OrderTableDistinct(os);
    forall j | 0 <= j < |table|
      ensures key(table[j]) == j
    {
      IndexOfDistinct(table, j);
    }
    forall k
      ensures StableSort.WithKey(a, key, k) == StableSort.WithKey(b, key, k)
    {
      TableKeysAgree(a, b, key, table, k);
    }
  }

  /** When a key picks out a table position and every element is in the table, a
      rearrangement has the same elements under every key. */
  lemma TableKeysAgree(a: seq<string>, b: seq<string>, key: string -> int, table: seq<string>, k: int)
    requires multiset(a) == multiset(b)
    requires forall i :: 0 <= i < |a| ==> a[i] in table
    requires forall x :: x in table ==> 0 <= key(x) < |table| && table[key(x)] == x
    requires forall j :: 0 <= j < |table| ==> key(table[j]) == j
    ensures StableSort.WithKey(a, key, k) == StableSort.WithKey(b, key, k)
  {
    forall i | 0 <= i < |b|
      ensures b[i] in table
    {
      assert b[i] in multiset(a);
    }
    if 0 <= k < |table| {
      forall i | 0 <= i < |a| && key(a[i]) == k
        ensures a[i] == table[k]
      {
        assert a[i] in table;
      }
      forall i | 0 <= i < |b| && key(b[i]) == k
        ensures b[i] == table[k]
      {
        assert b[i] in table;
      }
      StableSort.WithKeyUniform(a, key, k, table[k]);
      StableSort.WithKeyUniform(b, key, k, table[k]);
    } else {
      StableSort.WithKeyNone(a, key, k);
      StableSort.WithKeyNone(b, key, k);
    }
  }

  /** The rank of a listed token is its table position. */
  lemma RankOfListed(os: OsType, j: nat)
    requires j < |OrderTable(os)|
    ensures Rank(os, OrderTable(os)[j]) == j
  {
    OrderTableDistinct(os);
    IndexOfDistinct(OrderTable(os), j);
  }

  /** An unlisted token ranks after every listed one. */
  lemma RankOfUnlisted(os: OsType, token: string)
    requires token !in OrderTable(os)
    ensures Rank(os, token) == |OrderTable(os)|
  {
  }

  /** A token that differs from every table entry of its length at position `k`. */
  lemma NotListed(x: string, table: seq<string>, k: nat)
    requires k < |x|
    requires forall i :: 0 <= i < |table| ==> |table[i]| != |x| || table[i][k] != x[k]
    ensures x !in table
  {
  }

  /** Unlisted modifier tokens keep their press order, so the same physical chord can
      render in two ways: `control` then `meta` differs from `meta` then `control`. */
  lemma UnlistedTokensKeepPressOrder()
    ensures SortModifiers(Windows, ["control", "meta"]) == ["control", "meta"]
    ensures SortModifiers(Windows, ["meta", "control"]) == ["meta", "control"]
  {
    var key := RankKey(Windows);
    NotListed("control", OrderTable(Windows), 2);
    NotListed("meta", OrderTable(Windows), 0);
    RankOfUnlisted(Windows, "control");
    RankOfUnlisted(Windows, "meta");
    StableSort.SortPair("control", "meta", key);
    StableSort.SortPair("meta", "control", key);
  }

  /** On Windows, Ctrl pressed after Alt is still rendered first; on macOS, Command
      pressed after Shift is. */
  lemma CtrlAltOrder()
    ensures SortModifiers(Windows, ["alt", "ctrl"]) == ["ctrl", "alt"]
    ensures SortModifiers(MacOs, ["shift", "command"]) == ["command", "shift"]
  {
    RankOfListed(Windows, 0);
    RankOfListed(Windows, 1);
    StableSort.SortPair("alt", "ctrl", RankKey(Windows));
    RankOfListed(MacOs, 0);
    RankOfListed(MacOs, 2);
    StableSort.SortPair("shift", "command", RankKey(MacOs));
  }
}

=== FILE: recorder_properties.dfy ===
/** What the shortcut recorder promises across steps: a state invariant kept by every
    event, the inertness of a committed local listener and of a cleaned-up feed handler,
    the shape of a committed chord, and four end-to-end sessions of the recorder:
    commit from the backend feed, commit from the local listener, cancel, and a failed
    commit. */
module RecorderProperties {
  import opened Strings
  import opened Results
  import Modifiers
  import StableSort
  import opened ShortcutRecorder

  predicate ActiveHandy(r: Recorder) {
    r.handy.Some? && !r.handy.value.cleanup
  }

  /** The effect deps as of now. */
  function Current(r: Recorder): Snapshot {
    Snapshot(r.isRecording, r.mode, r.originalBinding)
  }

  predicate AllModifiers(s: seq<string>) {
    forall i :: 0 <= i < |s| ==> Modifiers.IsModifier(s[i])
  }

  /** The recorder invariant. A session is recording exactly when it has a mode; at most
      one capture source is live and it belongs to the rendered session; while a local
      session is rendered and uncommitted the display is the ordered held set; in handy
      mode the display mirrors the ref. */
  predicate Valid(cfg: Config, w: World) {
    var r := w.rec;
    && (r.isRecording <==> r.mode.Some?)
    && (r.rendered.isRecording <==> r.rendered.mode.Some?)
    && (r.isRecording && r.rendered.isRecording ==> r.rendered == Current(r))
    && (r.local.Some? <==> r.rendered.isRecording && r.rendered.mode == Some(Local))
    && (r.local.Some? ==>
          r.local.value.original == r.rendered.original
          && NoDup(r.local.value.pressed) && AllModifiers(r.local.value.pressed))
    && (ActiveHandy(r) <==> r.rendered.isRecording && r.rendered.mode == Some(Handy))
    && (ActiveHandy(r) ==> r.handy.value.original == r.rendered.original)
    && (r.isRecording && r.mode == Some(Local) ==>
          if r.rendered == Current(r) then
            r.local.Some? && !r.local.value.committed
            && r.currentKeys == Modifiers.DisplayModifiers(cfg.os, r.local.value.pressed)
          else r.currentKeys == "")
    && (r.mode == Some(Handy) ==> r.currentKeys == r.keysRef)
  }

  lemma InitialValid(cfg: Config, bindings: map<string, string>)
    ensures Valid(cfg, World(InitialRecorder(), bindings, [], []))
  {
  }

  lemma DisplayOfNothing(os: Modifiers.OsType)
    ensures Modifiers.DisplayModifiers(os, []) == ""
  {
    var r := Modifiers.SortModifiers(os, []);
    Modifiers.SortModifiersSpec(os, []);
    assert |multiset(r)| == 0;
  }

  lemma SetAddKeepsModifiers(s: seq<string>, x: string)
    requires AllModifiers(s) && Modifiers.IsModifier(x)
    ensures AllModifiers(SetAdd(s, x))
  {
    var r := SetAdd(s, x);
    forall i | 0 <= i < |r| ensures Modifiers.IsModifier(r[i]) {
      assert r[i] in r;
    }
  }

  lemma SetDeleteKeepsModifiers(s: seq<string>, x: string)
    requires AllModifiers(s)
    ensures AllModifiers(SetDelete(s, x))
  {
    var r := SetDelete(s, x);
    forall i | 0 <= i < |r| ensures Modifiers.IsModifier(r[i]) {
      assert r[i] in r;
    }
  }

  lemma StartKeepsValid(cfg: Config, w: World, o: Oracle)
    requires Valid(cfg, w)
    ensures Valid(cfg, StartRecording(cfg, w, o))
  {
  }

  lemma CancelKeepsValid(cfg: Config, w: World, s: Snapshot, o: Oracle)
    requires Valid(cfg, w)
    ensures Valid(cfg, CancelRecording(cfg, w, s, o))
  {
  }

  lemma LocalKeyDownKeepsValid(cfg: Config, w: World, k: KeyEvent, o: Oracle)
    requires Valid(cfg, w) && w.rec.local.Some?
    ensures Valid(cfg, LocalKeyDown(cfg, w, w.rec.local.value, k, o))
  {
    var l := w.rec.local.value;
    if !l.committed && Modifiers.IsModifier(k.name) {
      SetAddKeepsModifiers(l.pressed, k.name);
    }
  }

  lemma LocalKeyUpKeepsValid(cfg: Config, w: World, k: KeyEvent)
    requires Valid(cfg, w) && w.rec.local.Some?
    ensures Valid(cfg, LocalKeyUp(cfg, w, w.rec.local.value, k))
  {
    var l := w.rec.local.value;
    if Modifiers.IsModifier(k.name) {
      SetDeleteKeepsModifiers(l.pressed, k.name);
    }
  }

  lemma FeedKeepsValid(cfg: Config, w: World, f: FeedEvent, o: Oracle)
    requires Valid(cfg, w)
    ensures Valid(cfg, HandyFeed(cfg, w, f, o))
  {
  }

  lemma RenderKeepsValid(cfg: Config, w: World)
    requires Valid(cfg, w)
    ensures Valid(cfg, RenderStep(w))
  {
    DisplayOfNothing(cfg.os);
  }

  /** Every event keeps the invariant, so at most one capture source is ever live. */
  lemma StepKeepsValid(cfg: Config, w: World, e: Event, o: Oracle)
    requires Valid(cfg, w)
    ensures Valid(cfg, Step(cfg, w, e, o))
    ensures var r := Step(cfg, w, e, o).rec; !(r.local.Some? && ActiveHandy(r))
  {
    match e
    case ClickBinding => StartKeepsValid(cfg, w, o);
    case ClickOutside => CancelKeepsValid(cfg, w, w.rec.rendered, o);
    case KeyDown(k) =>
      if w.rec.local.Some? {
        LocalKeyDownKeepsValid(cfg, w, k, o);
      } else if ActiveHandy(w.rec) {
        CancelKeepsValid(cfg, w, Snapshot(true, Some(Handy), w.rec.handy.value.original), o);
      }
    case KeyUp(k) =>
      if w.rec.local.Some? {
        LocalKeyUpKeepsValid(cfg, w, k);
      }
    case Feed(f) => FeedKeepsValid(cfg, w, f, o);
    case ListenResolved =>
    case Render => RenderKeepsValid(cfg, w);
  }

  lemma {:induction false} RunKeepsValid(cfg: Config, w: World, trace: seq<(Event, Oracle)>)
    requires Valid(cfg, w)
    ensures Valid(cfg, Run(cfg, w, trace))
    decreases |trace|
  {
    if trace != [] {
      StepKeepsValid(cfg, w, trace[0].0, trace[0].1);
      RunKeepsValid(cfg, Step(cfg, w, trace[0].0, trace[0].1), trace[1..]);
    }
  }

  // ---------------------------------------------------------------------------
  // What a step may do to the store and the call log
  // ---------------------------------------------------------------------------

  /** `b2` agrees with `b1` on every shortcut other than `id`. */
  ghost predicate SameElsewhere(b1: map<string, string>, b2: map<string, string>, id: string) {
    forall x :: x != id ==> (x in b1 <==> x in b2) && (x in b1 ==> b1[x] == b2[x])
  }

  lemma ApplyTouchesOwnBindingOnly(cfg: Config, w: World, original: string, keys: string, o: Oracle)
    ensures var r := ApplyBinding(cfg, w, original, keys, o);
      SameElsewhere(w.bindings, r.bindings, cfg.shortcutId) && w.calls <= r.calls && w.toasts <= r.toasts
  {
  }

  lemma CancelTouchesOwnBindingOnly(cfg: Config, w: World, s: Snapshot, o: Oracle)
    ensures var r := CancelRecording(cfg, w, s, o);
      SameElsewhere(w.bindings, r.bindings, cfg.shortcutId) && w.calls <= r.calls && w.toasts <= r.toasts
  {
  }

  lemma LocalKeyDownTouchesOwnBindingOnly(cfg: Config, w: World, l: LocalListener, k: KeyEvent, o: Oracle)
    ensures var r := LocalKeyDown(cfg, w, l, k, o);
      SameElsewhere(w.bindings, r.bindings, cfg.shortcutId) && w.calls <= r.calls && w.toasts <= r.toasts
  {
    if l.committed || StartsWith(k.name, "unknown-") || Modifiers.IsModifier(k.name) || k.repeat {
    } else if IsEscapeName(k.name) {
      CancelTouchesOwnBindingOnly(cfg, w, Snapshot(true, Some(Local), l.original), o);
    } else {
      var combo := Combo(cfg.os, l.pressed, k.name);
      if combo != "" {
        ApplyTouchesOwnBindingOnly(cfg, WithLocal(w, l.(committed := true)), l.original, combo, o);
      }
    }
  }

  lemma FeedTouchesOwnBindingOnly(cfg: Config, w: World, f: FeedEvent, o: Oracle)
    ensures var r := HandyFeed(cfg, w, f, o);
      SameElsewhere(w.bindings, r.bindings, cfg.shortcutId) && w.calls <= r.calls && w.toasts <= r.toasts
  {
    if w.rec.feedSubscribed && w.rec.handy.Some? && !w.rec.handy.value.cleanup
       && !f.isKeyDown && w.rec.keysRef != "" {
      ApplyTouchesOwnBindingOnly(cfg, w, w.rec.handy.value.original, w.rec.keysRef, o);
    }
  }

  /** A step only ever writes the recorder's own shortcut and only appends calls and
      toasts. */
  lemma StepTouchesOwnBindingOnly(cfg: Config, w: World, e: Event, o: Oracle)
    ensures SameElsewhere(w.bindings, Step(cfg, w, e, o).bindings, cfg.shortcutId)
    ensures w.calls <= Step(cfg, w, e, o).calls
    ensures w.toasts <= Step(cfg, w, e, o).toasts
  {
    match e
    case ClickBinding =>
    case ClickOutside => CancelTouchesOwnBindingOnly(cfg, w, w.rec.rendered, o);
    case KeyDown(k) =>
      if w.rec.local.Some? {
        LocalKeyDownTouchesOwnBindingOnly(cfg, w, w.rec.local.value, k, o);
      } else if w.rec.handy.Some? && !w.rec.handy.value.cleanup {
        CancelTouchesOwnBindingOnly(cfg, w, Snapshot(true, Some(Handy), w.rec.handy.value.original), o);
      }
    case KeyUp(k) =>
    case Feed(f) => FeedTouchesOwnBindingOnly(cfg, w, f, o);
    case ListenResolved =>
    case Render =>
  }

  lemma {:induction false} RunTouchesOwnBindingOnly(cfg: Config, w: World, trace: seq<(Event, Oracle)>)
    ensures SameElsewhere(w.bindings, Run(cfg, w, trace).bindings, cfg.shortcutId)
    ensures w.calls <= Run(cfg, w, trace).calls
    decreases |trace|
  {
    if trace != [] {
      var w1 := Step(cfg, w, trace[0].0, trace[0].1);
      StepTouchesOwnBindingOnly(cfg, w, trace[0].0, trace[0].1);
      RunTouchesOwnBindingOnly(cfg, w1, trace[1..]);
    }
  }

  // ---------------------------------------------------------------------------
  // The two one-shot guards
  // ---------------------------------------------------------------------------

  predicate IsKeyEvent(e: Event) {
    e.KeyDown? || e.KeyUp?
  }

  /** Once the local listener has committed, no further key event (a key repeat, a late
      key-down before the re-render) writes anything or raises anything. */
  lemma {:induction false} CommittedListenerIsInert(cfg: Config, w: World, trace: seq<(Event, Oracle)>)
    requires w.rec.local.Some? && w.rec.local.value.committed
    requires forall i :: 0 <= i < |trace| ==> IsKeyEvent(trace[i].0)
    ensures var r := Run(cfg, w, trace);
      && r.calls == w.calls && r.bindings == w.bindings && r.toasts == w.toasts
      && r.rec.local.Some? && r.rec.local.value.committed
      && r.rec.isRecording == w.rec.isRecording
    decreases |trace|
  {
    if trace != [] {
      var w1 := Step(cfg, w, trace[0].0, trace[0].1);
      assert IsKeyEvent(trace[0].0);
      assert w1.calls == w.calls && w1.bindings == w.bindings && w1.toasts == w.toasts;
      assert w1.rec.local.Some? && w1.rec.local.value.committed;
      CommittedListenerIsInert(cfg, w1, trace[1..]);
    }
  }

  /** Once the handy effect has been cleaned up, feed events (including ones delivered by
      a subscription that resolved late) change nothing. */
  lemma {:induction false} CleanedFeedIsInert(cfg: Config, w: World, trace: seq<(Event, Oracle)>)
    requires w.rec.handy.Some? && w.rec.handy.value.cleanup
    requires forall i :: 0 <= i < |trace| ==> trace[i].0.Feed?
    ensures Run(cfg, w, trace) == w
    decreases |trace|
  {
    if trace != [] {
      assert Step(cfg, w, trace[0].0, trace[0].1) == w;
      CleanedFeedIsInert(cfg, w, trace[1..]);
    }
  }

  /** After teardown, however late the feed subscription resolves, nothing it delivers
      has any effect. */
  lemma UnmountSilencesFeed(cfg: Config, w: World, trace: seq<(Event, Oracle)>)
    requires w.rec.handy.Some?
    requires forall i :: 0 <= i < |trace| ==> trace[i].0.Feed? || trace[i].0 == ListenResolved
    ensures Run(cfg, UnmountStep(w), trace).bindings == w.bindings
    ensures Run(cfg, UnmountStep(w), trace).calls == UnmountStep(w).calls
  {
    UnmountFeedLoop(cfg, UnmountStep(w), trace);
  }

  lemma {:induction false} UnmountFeedLoop(cfg: Config, w: World, trace: seq<(Event, Oracle)>)
    requires w.rec.handy.Some? && w.rec.handy.value.cleanup
    requires forall i :: 0 <= i < |trace| ==> trace[i].0.Feed? || trace[i].0 == ListenResolved
    ensures Run(cfg, w, trace).bindings == w.bindings && Run(cfg, w, trace).calls == w.calls
    decreases |trace|
  {
    if trace != [] {
      var w1 := Step(cfg, w, trace[0].0, trace[0].1);
      assert w1.rec.handy == w.rec.handy && w1.bindings == w.bindings && w1.calls == w.calls;
      UnmountFeedLoop(cfg, w1, trace[1..]);
    }
  }

  // ---------------------------------------------------------------------------
  // The committed chord
  // ---------------------------------------------------------------------------

  lemma ModifierNotEmpty(x: string)
    requires Modifiers.IsModifier(x)
    ensures x != []
  {
  }

  lemma SortedModifiersNonEmpty(os: Modifiers.OsType, pressed: seq<string>, name: string)
    requires AllModifiers(pressed) && name != ""
    ensures var parts := Modifiers.SortModifiers(os, pressed) + [name];
      forall i :: 0 <= i < |parts| ==> parts[i] != []
  {
    var sorted := Modifiers.SortModifiers(os, pressed);
    Modifiers.SortModifiersSpec(os, pressed);
    var parts := sorted + [name];
    forall i | 0 <= i < |parts|
      ensures parts[i] != []
    {
      if i < |sorted| {
        assert parts[i] == sorted[i];
        assert sorted[i] in multiset(pressed);
        var j :| 0 <= j < |pressed| && pressed[j] == sorted[i];
        ModifierNotEmpty(pressed[j]);
      }
    }
  }

  /** The local listener commits the held modifiers in table order followed by the key:
      the display string, a `+`, and the key; or the key alone when nothing is held. */
  lemma ComboShape(os: Modifiers.OsType, pressed: seq<string>, name: string)
    requires AllModifiers(pressed) && name != ""
    ensures Combo(os, pressed, name)
         == if pressed == [] then name else Modifiers.DisplayModifiers(os, pressed) + "+" + name
  {
    var sorted := Modifiers.SortModifiers(os, pressed);
    SortedModifiersNonEmpty(os, pressed, name);
    NonEmptyKeepsNonEmpty(sorted + [name]);
    assert |sorted| == |pressed| by {
      Modifiers.SortModifiersSpec(os, pressed);
      assert |multiset(sorted)| == |multiset(pressed)|;
    }
    if pressed == [] {
      assert sorted + [name] == [name];
    } else {
      JoinSnoc(sorted, name, "+");
    }
  }

  // ---------------------------------------------------------------------------
  // Sessions
  // ---------------------------------------------------------------------------

  /** Events that cannot end a session: holding or releasing a modifier, backend
      key-downs, the feed subscription resolving. */
  predicate Harmless(e: Event) {
    || (e.KeyDown? && Modifiers.IsModifier(e.k.name) && e.k.key != "Escape")
    || (e.KeyUp?)
    || (e.Feed? && e.f.isKeyDown)
    || e == ListenResolved
  }

  /** Harmless events leave the store, the call log and the session identity alone. */
  lemma {:induction false} HarmlessKeepsSession(cfg: Config, w: World, trace: seq<(Event, Oracle)>)
    requires forall i :: 0 <= i < |trace| ==> Harmless(trace[i].0)
    ensures var r := Run(cfg, w, trace);
      && r.bindings == w.bindings && r.calls == w.calls && r.toasts == w.toasts
      && Current(r.rec) == Current(w.rec) && r.rec.rendered == w.rec.rendered
      && r.rec.local.Some? == w.rec.local.Some?
      && (r.rec.local.Some? ==> r.rec.local.value.original == w.rec.local.value.original)
      && r.rec.handy == w.rec.handy
    decreases |trace|
  {
    if trace != [] {
      var e, o := trace[0].0, trace[0].1;
      var w1 := Step(cfg, w, e, o);
      assert Harmless(e);
      if e.KeyDown? && w.rec.local.Some? {
        assert !IsEscapeName(e.k.name) && !StartsWith(e.k.name, "unknown-");
      }
      assert w1.bindings == w.bindings && w1.calls == w.calls && w1.toasts == w.toasts;
      HarmlessKeepsSession(cfg, w1, trace[1..]);
    }
  }

  /** A fully idle recorder: not recording, nothing mounted. */
  predicate Quiet(w: World) {
    IsIdle(w.rec) && w.rec.rendered == Idle && w.rec.local.None? && !ActiveHandy(w.rec)
  }

  /** Cancelling a session by clicking outside, after any harmless key traffic, leaves
      the persisted binding exactly as it was before the session began, whichever way
      the backend calls settle; a handy session also stops the backend recording. */
  lemma CancelLeavesStoreUnchanged(cfg: Config, w0: World, o1: Oracle, o2: Oracle,
                                   mids: seq<(Event, Oracle)>, o3: Oracle)
    requires Quiet(w0)
    requires forall i :: 0 <= i < |mids| ==> Harmless(mids[i].0)
    ensures var w1 := Step(cfg, w0, ClickBinding, o1);
      var w2 := Step(cfg, w1, Render, o2);
      var w3 := Run(cfg, w2, mids);
      var w4 := Step(cfg, w3, ClickOutside, o3);
      && w4.bindings == w0.bindings
      && (w1.rec.isRecording && w1.rec.mode == Some(Handy) ==> StopHandyKeysRecording in w4.calls[|w3.calls|..])
  {
    var w1 := Step(cfg, w0, ClickBinding, o1);
    var w2 := Step(cfg, w1, Render, o2);
    var w3 := Run(cfg, w2, mids);
    OpenSession(cfg, w0, o1, o2);
    HarmlessKeepsSession(cfg, w2, mids);
    if w1.rec.isRecording {
      CancelRestores(cfg, w3, o3, w1.rec.mode);
    }
  }

  /** The binding a session snapshots when it starts. */
  function StoredBinding(cfg: Config, w: World): string {
    if cfg.shortcutId in w.bindings then w.bindings[cfg.shortcutId] else ""
  }

  /** A click and the render after it mount a session that captured the stored binding,
      without touching the store. */
  lemma OpenSession(cfg: Config, w0: World, o1: Oracle, o2: Oracle)
    requires Quiet(w0)
    ensures var w1 := Step(cfg, w0, ClickBinding, o1);
      var w2 := Step(cfg, w1, Render, o2);
      && w2.bindings == w0.bindings
      && (w1.rec.isRecording ==> w2.rec.rendered == Snapshot(true, w1.rec.mode, StoredBinding(cfg, w0)))
  {
  }

  /** A click outside a mounted session writes back only the binding the store already
      holds, and stops the backend recording of a handy session. */
  lemma CancelRestores(cfg: Config, w: World, o: Oracle, mode: Option<Mode>)
    requires w.rec.rendered == Snapshot(true, mode, StoredBinding(cfg, w))
    ensures var r := Step(cfg, w, ClickOutside, o);
      && r.bindings == w.bindings
      && (mode == Some(Handy) ==> StopHandyKeysRecording in r.calls[|w.calls|..])
  {
    var r := Step(cfg, w, ClickOutside, o);
    var original := StoredBinding(cfg, w);
    if original != "" && o.firstUpdate == Resolved {
      assert r.bindings == w.bindings[cfg.shortcutId := original];
    }
    if mode == Some(Handy) {
      assert r.calls[|w.calls|] == StopHandyKeysRecording;
    }
  }

  /** Escape during a live handy session, whose listener captured the stored binding,
      leaves the stored binding as it was, stops the backend recording and leaves the
      recorder idle; any other key reaching that listener changes nothing. */
  lemma HandyEscapeRestores(cfg: Config, w: World, k: KeyEvent, o: Oracle)
    requires Valid(cfg, w) && ActiveHandy(w.rec)
    requires w.rec.handy.value.original == StoredBinding(cfg, w)
    ensures var r := Step(cfg, w, KeyDown(k), o);
      && (k.key == "Escape" ==>
            r.bindings == w.bindings && IsIdle(r.rec) && StopHandyKeysRecording in r.calls[|w.calls|..])
      && (k.key != "Escape" ==> r == w)
  {
    assert w.rec.local.None?;
    var r := Step(cfg, w, KeyDown(k), o);
    var original := w.rec.handy.value.original;
    if k.key == "Escape" {
      if original != "" && o.firstUpdate == Resolved {
        assert r.bindings == w.bindings[cfg.shortcutId := original];
      }
      assert r.calls[|w.calls|..][0] == StopHandyKeysRecording;
    }
  }

  /** A failed commit writes the captured original back, raises the error, and leaves
      the recorder able to start again after the next render. */
  lemma FailedCommitRecovers(cfg: Config, w0: World, o1: Oracle, k: KeyEvent, o3: Oracle, o5: Oracle)
    requires Quiet(w0) && !UsesHandyKeys(cfg)
    requires k.name != "" && !IsEscapeName(k.name) && !StartsWith(k.name, "unknown-")
    requires !Modifiers.IsModifier(k.name) && !k.repeat
    requires o3.firstUpdate == Rejected && o3.secondUpdate == Resolved
    ensures var w1 := Step(cfg, w0, ClickBinding, o1);
      var w2 := Step(cfg, w1, Render, o1);
      var w3 := Step(cfg, w2, KeyDown(k), o3);
      var w4 := Step(cfg, w3, Render, o1);
      var w5 := Step(cfg, w4, ClickBinding, o5);
      && w3.bindings == w0.bindings
      && w3.toasts == w0.toasts + [SetFailed]
      && w5.rec.isRecording && w5.rec.mode == Some(Local)
  {
    var w1 := Step(cfg, w0, ClickBinding, o1);
    var w2 := Step(cfg, w1, Render, o1);
    assert w2.rec.local == Some(LocalListener([], false, w1.rec.originalBinding));
    ComboShape(cfg.os, [], k.name);
    var w3 := Step(cfg, w2, KeyDown(k), o3);
    var original := w1.rec.originalBinding;
    if original != "" {
      assert w3.bindings == w0.bindings[cfg.shortcutId := original];
    }
    var w4 := Step(cfg, w3, Render, o1);
    assert w4.rec.rendered == Idle;
  }

  /** A local-listener session on a non-macOS system: holding
      Ctrl, then Alt, then pressing M commits "ctrl+alt+m" once; a key repeat of M that
      arrives before the re-render commits nothing more. */
  lemma LocalChordCommitsOnce(cfg: Config, w0: World, o: Oracle)
    requires Quiet(w0) && !UsesHandyKeys(cfg) && cfg.os == Modifiers.Linux
    requires o.firstUpdate == Resolved
    ensures var w1 := Step(cfg, w0, ClickBinding, o);
      var w2 := Step(cfg, w1, Render, o);
      var w3 := Step(cfg, w2, KeyDown(KeyEvent("Control", "ctrl", false)), o);
      var w4 := Step(cfg, w3, KeyDown(KeyEvent("Alt", "alt", false)), o);
      var w5 := Step(cfg, w4, KeyDown(KeyEvent("m", "m", false)), o);
      var w6 := Step(cfg, w5, KeyDown(KeyEvent("m", "m", true)), o);
      && w4.rec.currentKeys == "ctrl+alt"
      && w6.calls == w0.calls + [UpdateBinding(cfg.shortcutId, "ctrl+alt+m")]
      && w6.bindings == w0.bindings[cfg.shortcutId := "ctrl+alt+m"]
  {
    var w1 := Step(cfg, w0, ClickBinding, o);
    var w2 := Step(cfg, w1, Render, o);
    assert w2.calls == w0.calls && w2.bindings == w0.bindings;
    var l2 := LocalListener([], false, w1.rec.originalBinding);
    assert w2.rec.local == Some(l2);
    var w4 := HoldCtrlAlt(cfg, w2, l2, o);
    var l4 := l2.(pressed := ["ctrl", "alt"]);
    CommitM(cfg, w4, l4, o);
  }

  /** A modifier key-down in an uncommitted local listener only adds the modifier to
      the held set and refreshes the display. */
  lemma PressModifier(cfg: Config, w: World, l: LocalListener, k: KeyEvent, o: Oracle)
    requires w.rec.local == Some(l) && !l.committed && Modifiers.IsModifier(k.name)
    ensures var r := Step(cfg, w, KeyDown(k), o);
      && r.rec.local == Some(l.(pressed := SetAdd(l.pressed, k.name)))
      && r.rec.currentKeys == Modifiers.DisplayModifiers(cfg.os, SetAdd(l.pressed, k.name))
      && r.calls == w.calls && r.bindings == w.bindings
  {
  }

  /** Holding two different modifiers, one after the other, in a fresh local listener. */
  lemma HoldTwo(cfg: Config, w2: World, l2: LocalListener, ka: KeyEvent, kb: KeyEvent, o: Oracle)
    returns (w4: World)
    requires w2.rec.local == Some(l2) && l2.pressed == [] && !l2.committed
    requires Modifiers.IsModifier(ka.name) && Modifiers.IsModifier(kb.name) && ka.name != kb.name
    ensures w4 == Step(cfg, Step(cfg, w2, KeyDown(ka), o), KeyDown(kb), o)
    ensures w4.rec.local == Some(l2.(pressed := [ka.name, kb.name]))
    ensures w4.rec.currentKeys == Modifiers.DisplayModifiers(cfg.os, [ka.name, kb.name])
    ensures w4.calls == w2.calls && w4.bindings == w2.bindings
  {
    var w3 := Step(cfg, w2, KeyDown(ka), o);
    PressModifier(cfg, w2, l2, ka, o);
    assert SetAdd([], ka.name) == [ka.name];
    w4 := Step(cfg, w3, KeyDown(kb), o);
    PressModifier(cfg, w3, l2.(pressed := [ka.name]), kb, o);
    assert SetAdd([ka.name], kb.name) == [ka.name, kb.name];
  }

  /** Holding Ctrl then Alt in a fresh local listener. */
  lemma HoldCtrlAlt(cfg: Config, w2: World, l2: LocalListener, o: Oracle) returns (w4: World)
    requires cfg.os == Modifiers.Linux
    requires w2.rec.local == Some(l2) && l2.pressed == [] && !l2.committed
    ensures w4 == Step(cfg, Step(cfg, w2, KeyDown(KeyEvent("Control", "ctrl", false)), o),
                       KeyDown(KeyEvent("Alt", "alt", false)), o)
    ensures w4.rec.local == Some(l2.(pressed := ["ctrl", "alt"]))
    ensures w4.rec.currentKeys == "ctrl+alt"
    ensures w4.calls == w2.calls && w4.bindings == w2.bindings
  {
    Modifiers.ListedModifier(1);
    Modifiers.ListedModifier(3);
    w4 := HoldTwo(cfg, w2, l2, KeyEvent("Control", "ctrl", false), KeyEvent("Alt", "alt", false), o);
    DisplayCtrlAlt();
  }

  /** Pressing M with Ctrl and Alt held commits once; the repeat that follows is ignored. */
  lemma CommitM(cfg: Config, w4: World, l4: LocalListener, o: Oracle)
    requires cfg.os == Modifiers.Linux && o.firstUpdate == Resolved
    requires w4.rec.local == Some(l4) && l4.pressed == ["ctrl", "alt"] && !l4.committed
    ensures var w5 := Step(cfg, w4, KeyDown(KeyEvent("m", "m", false)), o);
      var w6 := Step(cfg, w5, KeyDown(KeyEvent("m", "m", true)), o);
      && w6.calls == w4.calls + [UpdateBinding(cfg.shortcutId, "ctrl+alt+m")]
      && w6.bindings == w4.bindings[cfg.shortcutId := "ctrl+alt+m"]
  {
    var m, mRepeat := KeyEvent("m", "m", false), KeyEvent("m", "m", true);
    Modifiers.NotListed("m", Modifiers.ModifierNames, 0);
    assert !IsEscapeName("m") && !StartsWith("m", "unknown-");
    MCombo(l4.pressed);
    var w5 := LocalKeyDown(cfg, w4, l4, m, o);
    assert w5 == Step(cfg, w4, KeyDown(m), o);
    assert w5.rec.local == Some(l4.(committed := true));
    var w6 := LocalKeyDown(cfg, w5, l4.(committed := true), mRepeat, o);
    assert w6 == Step(cfg, w5, KeyDown(mRepeat), o);
  }

  lemma MCombo(pressed: seq<string>)
    requires pressed == ["ctrl", "alt"]
    ensures Combo(Modifiers.Linux, pressed, "m") == "ctrl+alt+m"
  {
    assert AllModifiers(pressed) by {
      Modifiers.ListedModifier(1);
      Modifiers.ListedModifier(3);
    }
    ComboShape(Modifiers.Linux, pressed, "m");
    DisplayCtrlAlt();
    SpellCtrlAltM();
  }

  lemma SpellCtrlAltM()
    ensures "ctrl+alt" + "+" + "m" == "ctrl+alt+m"
  {
  }

  lemma DisplayCtrlAlt()
    ensures Modifiers.DisplayModifiers(Modifiers.Linux, ["ctrl", "alt"]) == "ctrl+alt"
  {
    CtrlAltSorted();
    JoinCtrlAlt();
  }

  lemma JoinCtrlAlt()
    ensures Join(["ctrl", "alt"], "+") == "ctrl+alt"
  {
    assert ["ctrl", "alt"][1..] == ["alt"];
  }

  lemma CtrlAltSorted()
    ensures Modifiers.SortModifiers(Modifiers.Linux, ["ctrl", "alt"]) == ["ctrl", "alt"]
  {
    Modifiers.RankOfListed(Modifiers.Linux, 0);
    Modifiers.RankOfListed(Modifiers.Linux, 1);
    StableSort.SortPair("ctrl", "alt", Modifiers.RankKey(Modifiers.Linux));
  }

  /** A backend-feed session: the feed reports growing
      combinations, and the key-up commits the last one exactly once, then stops the
      backend recording; the re-render's effect cleanup stops it a second time. */
  lemma FeedChordCommitsOnce(cfg: Config, w0: World, o: Oracle)
    requires Quiet(w0) && UsesHandyKeys(cfg) && !w0.rec.feedSubscribed && !w0.rec.listenPending
    requires o.start == Resolved && o.firstUpdate == Resolved
    ensures var w1 := Step(cfg, w0, ClickBinding, o);
      var w2 := Step(cfg, w1, Render, o);
      var w3 := Step(cfg, w2, ListenResolved, o);
      var w4 := Step(cfg, w3, Feed(FeedEvent("cmd", true)), o);
      var w5 := Step(cfg, w4, Feed(FeedEvent("cmd+shift", true)), o);
      var w6 := Step(cfg, w5, Feed(FeedEvent("cmd+shift+d", true)), o);
      var w7 := Step(cfg, w6, Feed(FeedEvent("", false)), o);
      var w8 := Step(cfg, w7, Render, o);
      && w7.bindings == w0.bindings[cfg.shortcutId := "cmd+shift+d"]
      && w8.calls == w0.calls + [StartHandyKeysRecording(cfg.shortcutId),
                                 UpdateBinding(cfg.shortcutId, "cmd+shift+d"),
                                 StopHandyKeysRecording, StopHandyKeysRecording]
      && IsIdle(w8.rec)
  {
    var w3 := OpenHandySession(cfg, w0, o);
    var w4 := FeedKeyDown(cfg, w3, "cmd", o);
    var w5 := FeedKeyDown(cfg, w4, "cmd+shift", o);
    var w6 := FeedKeyDown(cfg, w5, "cmd+shift+d", o);
    FeedCommitThenRender(cfg, w6, o);
  }

  /** Clicking, rendering and the feed subscription resolving open a handy session. */
  lemma OpenHandySession(cfg: Config, w0: World, o: Oracle) returns (w3: World)
    requires Quiet(w0) && UsesHandyKeys(cfg) && !w0.rec.feedSubscribed && !w0.rec.listenPending
    requires o.start == Resolved
    ensures w3 == Step(cfg, Step(cfg, Step(cfg, w0, ClickBinding, o), Render, o), ListenResolved, o)
    ensures ActiveHandy(w3.rec) && w3.rec.feedSubscribed && w3.rec.isRecording
    ensures w3.rec.rendered == Current(w3.rec) && w3.rec.mode == Some(Handy)
    ensures w3.calls == w0.calls + [StartHandyKeysRecording(cfg.shortcutId)] && w3.bindings == w0.bindings
  {
    var w1 := Step(cfg, w0, ClickBinding, o);
    var w2 := Step(cfg, w1, Render, o);
    assert ActiveHandy(w2.rec) && w2.rec.listenPending;
    w3 := Step(cfg, w2, ListenResolved, o);
  }

  /** A feed key-down with a non-empty combination only replaces the held combination. */
  lemma FeedKeyDown(cfg: Config, w: World, hotkey: string, o: Oracle) returns (r: World)
    requires ActiveHandy(w.rec) && w.rec.feedSubscribed && hotkey != ""
    ensures r == Step(cfg, w, Feed(FeedEvent(hotkey, true)), o)
    ensures r == w.(rec := w.rec.(keysRef := hotkey, currentKeys := hotkey))
  {
    r := Step(cfg, w, Feed(FeedEvent(hotkey, true)), o);
  }

  /** The feed key-up commits the held combination once and stops the backend; the
      re-render's cleanup stops it again and leaves the recorder idle. */
  lemma FeedCommitThenRender(cfg: Config, w: World, o: Oracle)
    requires ActiveHandy(w.rec) && w.rec.feedSubscribed && w.rec.keysRef != ""
    requires w.rec.isRecording && w.rec.rendered == Current(w.rec) && o.firstUpdate == Resolved
    ensures var w7 := Step(cfg, w, Feed(FeedEvent("", false)), o);
      var w8 := Step(cfg, w7, Render, o);
      && w7.bindings == w.bindings[cfg.shortcutId := w.rec.keysRef]
      && w8.calls == w.calls + [UpdateBinding(cfg.shortcutId, w.rec.keysRef),
                                StopHandyKeysRecording, StopHandyKeysRecording]
      && IsIdle(w8.rec)
  {
    var w7 := Step(cfg, w, Feed(FeedEvent("", false)), o);
    assert w7.calls == w.calls + [UpdateBinding(cfg.shortcutId, w.rec.keysRef), StopHandyKeysRecording];
  }
}

=== FILE: results.dfy ===
/** Shared failure-carrying datatypes.

    The front end talks to the backend through generated `commands.*` bindings whose
    promises settle in one of three ways: `{status: "ok", data}`, `{status: "error", error}`,
    or a rejection (an exception). `Reply` names those three outcomes so every caller
    has to handle all of them, exactly as the TypeScript `try`/`if (result.status ...)`
    blocks do. */
module Results {

  /** A value that may be absent (`null`/`undefined` in TypeScript, `Option` in Rust). */
  datatype Option<+T> = None | Some(value: T) {

    /** The carried value, or `default` when absent. */
    function GetOr(default: T): T {
      match this
      case Some(v) => v
      case None => default
    }
  }

  /** JavaScript truthiness of an optional string: present and not empty. */
  predicate Truthy(s: Option<string>) { s.Some? && s.value != "" }

  /** `s || fallback` for an optional string. */
  function OrElse(s: Option<string>, fallback: string): (r: string)
    ensures Truthy(s) ==> r == s.value
    ensures !Truthy(s) ==> r == fallback
  {
    if Truthy(s) then s.value else fallback
  }

  /** How a backend command settled. */
  datatype Reply<+T> =
    | Ok(data: T)          // `{status: "ok", data}`
    | Err(error: string)   // `{status: "error", error}`
    | Thrown(reason: string) // the promise rejected; `reason` is `String(err)`

  /** A call whose value is ignored: it either resolved or threw. */
  datatype Outcome = Resolved | Rejected
}

=== FILE: seqs.dfy ===
/** `Array.prototype.filter` and the subsequence relation it establishes. */
module Seqs {

  /** The elements of `xs` that satisfy `p`, in their order in `xs`. */
  function Filter<T>(xs: seq<T>, p: T -> bool): (r: seq<T>)
    ensures |r| <= |xs|
    ensures forall i :: 0 <= i < |r| ==> p(r[i])
  {
    if xs == [] then []
    else (if p(xs[0]) then [xs[0]] else []) + Filter(xs[1..], p)
  }

  /** `a` can be obtained from `b` by deleting elements. */
  ghost predicate Subsequence<T>(a: seq<T>, b: seq<T>)
    decreases |b|
  {
    if a == [] then true
    else if b == [] then false
    else (a[0] == b[0] && Subsequence(a[1..], b[1..])) || Subsequence(a, b[1..])
  }

  /** An element survives the filter exactly when it is in the list and passes. */
  lemma {:induction false} FilterMembers<T>(xs: seq<T>, p: T -> bool)
    ensures forall x :: x in Filter(xs, p) <==> x in xs && p(x)
  {
    if xs != [] {
      FilterMembers(xs[1..], p);
      assert xs == [xs[0]] + xs[1..];
    }
  }

  /** The filter keeps the relative order of what it keeps. */
  lemma {:induction false} FilterIsSubsequence<T>(xs: seq<T>, p: T -> bool)
    ensures Subsequence(Filter(xs, p), xs)
  {
    if xs != [] {
      FilterIsSubsequence(xs[1..], p);
      var r := Filter(xs, p);
      if p(xs[0]) {
        assert r[0] == xs[0] && r[1..] == Filter(xs[1..], p);
      } else {
        assert r == Filter(xs[1..], p);
      }
    }
  }

  /** A filter that every element passes keeps the list whole. */
  lemma {:induction false} FilterAll<T>(xs: seq<T>, p: T -> bool)
    requires forall i :: 0 <= i < |xs| ==> p(xs[i])
    ensures Filter(xs, p) == xs
  {
    if xs != [] {
      FilterAll(xs[1..], p);
    }
  }

  /** Filtering twice by the same test is filtering once. */
  lemma FilterIdempotent<T>(xs: seq<T>, p: T -> bool)
    ensures Filter(Filter(xs, p), p) == Filter(xs, p)
  {
    FilterAll(Filter(xs, p), p);
  }

  /** Filtering a list extended at the back extends the filtered list at the back. */
  lemma {:induction false} FilterSnoc<T>(xs: seq<T>, x: T, p: T -> bool)
    ensures Filter(xs + [x], p) == Filter(xs, p) + (if p(x) then [x] else [])
    decreases |xs|
  {
    if xs == [] {
      assert xs + [x] == [x];
      assert [x][1..] == [];
    } else {
      assert (xs + [x])[1..] == xs[1..] + [x];
      FilterSnoc(xs[1..], x, p);
    }
  }

  /** The filter of a list with a given head. */
  lemma FilterCons<T>(x: T, ys: seq<T>, p: T -> bool)
    ensures Filter([x] + ys, p) == (if p(x) then [x] else []) + Filter(ys, p)
  {
    assert ([x] + ys)[1..] == ys;
  }

  /** Two filters can be applied in either order. */
  lemma {:induction false} FilterCommutes<T>(xs: seq<T>, p: T -> bool, q: T -> bool)
    ensures Filter(Filter(xs, p), q) == Filter(Filter(xs, q), p)
  {
    if xs != [] {
      var x := xs[0];
      var fp, fq := Filter(xs[1..], p), Filter(xs[1..], q);
      FilterCommutes(xs[1..], p, q);
      if p(x) {
        assert Filter(xs, p) == [x] + fp;
        FilterCons(x, fp, q);
      } else {
        assert Filter(xs, p) == fp;
      }
      if q(x) {
        assert Filter(xs, q) == [x] + fq;
        FilterCons(x, fq, p);
      } else {
        assert Filter(xs, q) == fq;
      }
    }
  }

  // ---------------------------------------------------------------------------
  // Folds that ignore order
  // ---------------------------------------------------------------------------

  /** The sum of `f` over the elements of `xs`. */
  function Sum<T>(xs: seq<T>, f: T -> nat): nat
  {
    if xs == [] then 0 else Sum(xs[..|xs| - 1], f) + f(xs[|xs| - 1])
  }

  /** The union of `f` over the elements of `xs`. */
  function Union<T, U>(xs: seq<T>, f: T -> set<U>): set<U>
  {
    if xs == [] then {} else Union(xs[..|xs| - 1], f) + f(xs[|xs| - 1])
  }

  lemma {:induction false} SumAppend<T>(a: seq<T>, b: seq<T>, f: T -> nat)
    ensures Sum(a + b, f) == Sum(a, f) + Sum(b, f)
    decreases |b|
  {
    if b == [] {
      assert a + b == a;
    } else {
      var init := b[..|b| - 1];
      assert (a + b)[..|a + b| - 1] == a + init;
      assert (a + b)[|a + b| - 1] == b[|b| - 1];
      SumAppend(a, init, f);
    }
  }

  lemma {:induction false} UnionAppend<T, U>(a: seq<T>, b: seq<T>, f: T -> set<U>)
    ensures Union(a + b, f) == Union(a, f) + Union(b, f)
    decreases |b|
  {
    if b == [] {
      assert a + b == a;
    } else {
      var init := b[..|b| - 1];
      assert (a + b)[..|a + b| - 1] == a + init;
      assert (a + b)[|a + b| - 1] == b[|b| - 1];
      UnionAppend(a, init, f);
    }
  }

  lemma SumSingle<T>(x: T, f: T -> nat)
    ensures Sum([x], f) == f(x)
  {
    assert [x][..0] == [];
  }

  lemma UnionSingle<T, U>(x: T, f: T -> set<U>)
    ensures Union([x], f) == f(x)
  {
    assert [x][..0] == [];
  }

  /** An element of `ys` found at `k`, with the rest of `ys` around it. */
  lemma TakeOut<T>(ys: seq<T>, x: T) returns (left: seq<T>, right: seq<T>)
    requires x in multiset(ys)
    ensures ys == left + [x] + right
    ensures multiset(left + right) == multiset(ys) - multiset{x}
  {
    var k :| 0 <= k < |ys| && ys[k] == x;
    left, right := ys[..k], ys[k + 1..];
    assert ys == left + [x] + right;
    assert multiset(ys) == multiset(left) + multiset{x} + multiset(right);
    assert multiset(left + right) == multiset(left) + multiset(right);
  }

  /** The last element of `xs` and the multiset of the rest. */
  lemma DropLast<T>(xs: seq<T>)
    requires xs != []
    ensures xs == xs[..|xs| - 1] + [xs[|xs| - 1]]
    ensures multiset(xs[..|xs| - 1]) == multiset(xs) - multiset{xs[|xs| - 1]}
  {
    assert xs == xs[..|xs| - 1] + [xs[|xs| - 1]];
  }

  /** Reordering does not change a sum. */
  lemma {:induction false} SumIgnoresOrder<T>(xs: seq<T>, ys: seq<T>, f: T -> nat)
    requires multiset(xs) == multiset(ys)
    ensures Sum(xs, f) == Sum(ys, f)
    decreases |xs|
  {
    if xs == [] {
      assert |ys| == |multiset(ys)| == 0;
    } else {
      var x := xs[|xs| - 1];
      var init := xs[..|xs| - 1];
      DropLast(xs);
      var left, right := TakeOut(ys, x);
      SumIgnoresOrder(init, left + right, f);
      SumAppend(left, right, f);
      SumAppend(left + [x], right, f);
      SumAppend(left, [x], f);
      SumSingle(x, f);
    }
  }

  /** Reordering does not change a union. */
  lemma {:induction false} UnionIgnoresOrder<T, U>(xs: seq<T>, ys: seq<T>, f: T -> set<U>)
    requires multiset(xs) == multiset(ys)
    ensures Union(xs, f) == Union(ys, f)
    decreases |xs|
  {
    if xs == [] {
      assert |ys| == |multiset(ys)| == 0;
    } else {
      var x := xs[|xs| - 1];
      var init := xs[..|xs| - 1];
      DropLast(xs);
      var left, right := TakeOut(ys, x);
      UnionIgnoresOrder(init, left + right, f);
      UnionAppend(left, right, f);
      UnionAppend(left + [x], right, f);
      UnionAppend(left, [x], f);
      UnionSingle(x, f);
    }
  }

  /** Dropping elements that contribute nothing does not change a sum. */
  lemma {:induction false} SumOfFilter<T>(xs: seq<T>, p: T -> bool, f: T -> nat)
    requires forall x :: !p(x) ==> f(x) == 0
    ensures Sum(Filter(xs, p), f) == Sum(xs, f)
  {
    if xs != [] {
      SumOfFilter(xs[1..], p, f);
      assert xs == [xs[0]] + xs[1..];
      SumAppend([xs[0]], xs[1..], f);
      SumSingle(xs[0], f);
      if p(xs[0]) {
        assert Filter(xs, p) == [xs[0]] + Filter(xs[1..], p);
        SumAppend([xs[0]], Filter(xs[1..], p), f);
      } else {
        assert Filter(xs, p) == Filter(xs[1..], p);
      }
    }
  }

  /** Dropping elements that contribute nothing does not change a union. */
  lemma {:induction false} UnionOfFilter<T, U>(xs: seq<T>, p: T -> bool, f: T -> set<U>)
    requires forall x :: !p(x) ==> f(x) == {}
    ensures Union(Filter(xs, p), f) == Union(xs, f)
  {
    if xs != [] {
      UnionOfFilter(xs[1..], p, f);
      assert xs == [xs[0]] + xs[1..];
      UnionAppend([xs[0]], xs[1..], f);
      UnionSingle(xs[0], f);
      if p(xs[0]) {
        assert Filter(xs, p) == [xs[0]] + Filter(xs[1..], p);
        UnionAppend([xs[0]], Filter(xs[1..], p), f);
      } else {
        assert Filter(xs, p) == Filter(xs[1..], p);
      }
    }
  }
}

=== FILE: shortcut_handler.dfy ===
/** The shared shortcut dispatcher of the back end (`handle_shortcut_event`).

    A shortcut event names a binding and says whether its key went down or up. The
    dispatcher looks the binding up among the registered actions, gives the `cancel`
    binding its own rule, and otherwise starts/stops the action in push-to-talk mode or
    flips a per-binding toggle in toggle mode. What the action then does is not modelled:
    the result is just which of its two entry points is called, if any. */
module ShortcutHandler {

  /** The action entry point a shortcut event calls. */
  datatype Dispatch = Start | Stop | NoAction

  /** The binding id that cancels the current operation. */
  const CancelBinding := "cancel"

  /** The settings and back-end state the dispatcher reads. */
  datatype Context = Context(
    actions: set<string>,   // the binding ids `ACTION_MAP` defines
    isRecording: bool,      // whether the audio manager is recording
    pushToTalk: bool)       // the `push_to_talk` setting

  /** Whether the toggle entry for `id` is on; a missing entry reads as off. */
  function ToggleOn(toggles: map<string, bool>, id: string): bool {
    id in toggles && toggles[id]
  }

  /** `handle_shortcut_event`: the entry point called and the new toggle map. */
  function HandleShortcutEvent(ctx: Context, toggles: map<string, bool>, id: string, pressed: bool)
    : (r: (Dispatch, map<string, bool>))
    ensures id !in ctx.actions ==> r == (NoAction, toggles)
    ensures r.0 == Stop ==> id != CancelBinding
    ensures r.1 != toggles ==> id in ctx.actions && id != CancelBinding && !ctx.pushToTalk && pressed
  {
    if id !in ctx.actions then (NoAction, toggles)
    else if id == CancelBinding then
      (if ctx.isRecording && pressed then Start else NoAction, toggles)
    else if ctx.pushToTalk then
      (if pressed then Start else Stop, toggles)
    else if pressed then
      var shouldStart := !ToggleOn(toggles, id);
      (if shouldStart then Start else Stop, toggles[id := shouldStart])
    else (NoAction, toggles)
  }

  /** The cancel binding fires only on a press while recording, never stops, never
      touches the toggles, and is decided before the push-to-talk setting is read. */
  lemma CancelRule(ctx: Context, toggles: map<string, bool>, pressed: bool)
    requires CancelBinding in ctx.actions
    ensures var r := HandleShortcutEvent(ctx, toggles, CancelBinding, pressed);
      && (r.0 == Start <==> ctx.isRecording && pressed)
      && r.0 != Stop
      && r.1 == toggles
      && r == HandleShortcutEvent(ctx.(pushToTalk := !ctx.pushToTalk), toggles, CancelBinding, pressed)
  {
  }

  /** Push-to-talk: press starts, release stops, the toggles stay. */
  lemma PushToTalkRule(ctx: Context, toggles: map<string, bool>, id: string, pressed: bool)
    requires id in ctx.actions && id != CancelBinding && ctx.pushToTalk
    ensures var r := HandleShortcutEvent(ctx, toggles, id, pressed);
      && (r.0 == Start <==> pressed)
      && (r.0 == Stop <==> !pressed)
      && r.1 == toggles
  {
  }

  /** Toggle mode ignores releases. */
  lemma ToggleReleaseIgnored(ctx: Context, toggles: map<string, bool>, id: string)
    requires !ctx.pushToTalk
    ensures HandleShortcutEvent(ctx, toggles, id, false) == (NoAction, toggles)
  {
  }

  /** A toggle press starts when the binding was off (no entry, or false) and stops when
      it was on; the stored entry then says whether the last call was a start, and no
      other entry changes. */
  lemma TogglePressRule(ctx: Context, toggles: map<string, bool>, id: string)
    requires id in ctx.actions && id != CancelBinding && !ctx.pushToTalk
    ensures var r := HandleShortcutEvent(ctx, toggles, id, true);
      && (r.0 == Start <==> !ToggleOn(toggles, id))
      && (r.0 == Stop <==> ToggleOn(toggles, id))
      && id in r.1 && (r.1[id] <==> r.0 == Start)
      && r.1.Keys == toggles.Keys + {id}
      && (forall k :: k in toggles && k != id ==> r.1[k] == toggles[k])
  {
  }

  /** Two presses in toggle mode start then stop (or stop then start) and leave every
      binding on exactly when it was on before; an entry that was missing is now off. */
  lemma TwoTogglePressesRestore(ctx: Context, toggles: map<string, bool>, id: string)
    requires id in ctx.actions && id != CancelBinding && !ctx.pushToTalk
    ensures var r1 := HandleShortcutEvent(ctx, toggles, id, true);
      var r2 := HandleShortcutEvent(ctx, r1.1, id, true);
      && r1.0 != r2.0 && r1.0 != NoAction && r2.0 != NoAction
      && (forall k :: ToggleOn(r2.1, k) == ToggleOn(toggles, k))
      && (id in toggles ==> r2.1 == toggles)
      && (id !in toggles ==> r2.1 == toggles[id := false])
  {
    var r1 := HandleShortcutEvent(ctx, toggles, id, true);
    var r2 := HandleShortcutEvent(ctx, r1.1, id, true);
    if id in toggles {
      assert r2.1 == toggles[id := toggles[id]];
    }
  }

  /** The toggle state after a sequence of key presses and releases on bindings. */
  function RunToggles(ctx: Context, toggles: map<string, bool>, events: seq<(string, bool)>)
    : map<string, bool>
    decreases |events|
  {
    if events == [] then toggles
    else RunToggles(ctx, HandleShortcutEvent(ctx, toggles, events[0].0, events[0].1).1, events[1..])
  }

  /** The calls a sequence of events makes, in order. */
  function RunDispatches(ctx: Context, toggles: map<string, bool>, events: seq<(string, bool)>)
    : (r: seq<Dispatch>)
    ensures |r| == |events|
    decreases |events|
  {
    if events == [] then []
    else
      var step := HandleShortcutEvent(ctx, toggles, events[0].0, events[0].1);
      [step.0] + RunDispatches(ctx, step.1, events[1..])
  }

  /** In toggle mode a binding's entry tracks its calls: it is on after a run exactly when
      it was on and the run called it an even number of times, or off and an odd number
      of times. */
  lemma {:induction false} ToggleParity(ctx: Context, toggles: map<string, bool>,
                                        events: seq<(string, bool)>, id: string)
    requires !ctx.pushToTalk && id in ctx.actions && id != CancelBinding
    ensures var calls := Calls(RunDispatches(ctx, toggles, events), events, id);
      ToggleOn(RunToggles(ctx, toggles, events), id) == (ToggleOn(toggles, id) != (calls % 2 == 1))
    decreases |events|
  {
    if events != [] {
      var step := HandleShortcutEvent(ctx, toggles, events[0].0, events[0].1);
      ToggleParity(ctx, step.1, events[1..], id);
      if events[0].0 == id && events[0].1 {
        TogglePressRule(ctx, toggles, id);
      }
    }
  }

  /** How many of the calls `ds` made for `events` were made for binding `id`. */
  function Calls(ds: seq<Dispatch>, events: seq<(string, bool)>, id: string): nat
    requires |ds| == |events|
  {
    if ds == [] then 0
    else (if events[0].0 == id && ds[0] != NoAction then 1 else 0) + Calls(ds[1..], events[1..], id)
  }
}

=== FILE: shortcut_recorder.dfy ===
/** The hotkey capture and rebinding state machine of the global-shortcut input.

    The component keeps React state (`isRecording`, `recordingMode`, `currentKeys`,
    `originalBinding`), one ref (`currentKeysRef`, here `keysRef`) and one subscription
    handle (`unlistenRef`, here `feedSubscribed`). Two effects capture keys: the handy
    effect (backend key feed plus a window Escape listener) and the local effect (window
    key-down/key-up listeners with a private `pressedModifiers` set and a one-shot
    `committed` flag). Handlers run as closures made at the render that mounted their
    effect, so each listener below records the `originalBinding` it captured.

    React's re-render is an explicit `Render` step. The model re-runs the effects only
    when `isRecording`, `recordingMode` or `originalBinding` change. Their dependency
    lists also hold `shortcutId`, `osType`, the translation function `t` and the
    callbacks `applyBinding` and `cancelRecording`; the model takes those to keep their
    identity from one render to the next. Because effects re-run only at a render, a
    handler can still fire between a state change and the next render. The only
    guards against such stale events are the `committed` flag and the handy effect's
    `cleanup` flag; there is no generation counter.

    Collaborators are replaced by inputs: `updateBinding`, `startHandyKeysRecording` and
    `stopHandyKeysRecording` settle as an `Outcome` supplied by the caller, and the key
    name produced by `getKeyName`/`normalizeKey` arrives inside the key event. */
module ShortcutRecorder {
  import opened Strings
  import opened Results
  import Modifiers

  /** `recordingMode`: the backend feed ("handy") or the window listener ("local"). */
  datatype Mode = Handy | Local

  /** The values the capture effects depend on, as of one render. */
  datatype Snapshot = Snapshot(isRecording: bool, mode: Option<Mode>, original: string)

  /** The local effect's closure: its `pressedModifiers` set (insertion-ordered, as a
      JavaScript `Set` is), its `committed` flag and the `originalBinding` it captured. */
  datatype LocalListener = LocalListener(pressed: seq<string>, committed: bool, original: string)

  /** The handy effect's closure: its `cleanup` flag and captured `originalBinding`. */
  datatype HandyListener = HandyListener(cleanup: bool, original: string)

  datatype Recorder = Recorder(
    isRecording: bool,
    mode: Option<Mode>,
    currentKeys: string,         // the live display
    keysRef: string,             // `currentKeysRef.current`
    originalBinding: string,
    rendered: Snapshot,          // the state the mounted effects were created from
    local: Option<LocalListener>,
    handy: Option<HandyListener>,
    feedSubscribed: bool,        // `unlistenRef.current !== null`
    listenPending: bool)         // the handy effect's `listen(...)` has not resolved yet

  /** Calls into the backend and the settings store, in issue order. */
  datatype Call =
    | UpdateBinding(id: string, keys: string)
    | StartHandyKeysRecording(id: string)
    | StopHandyKeysRecording

  /** The error toasts: `errors.set`, `errors.reset`, `errors.restore`. */
  datatype Toast = SetFailed | ResetFailed | RestoreFailed

  /** The recorder together with what it can affect: the persisted bindings
      (shortcut id to current binding), the calls it issued and the toasts it raised. */
  datatype World = World(rec: Recorder, bindings: map<string, string>, calls: seq<Call>, toasts: seq<Toast>)

  /** Component props and settings that do not change during a session. */
  datatype Config = Config(shortcutId: string, os: Modifiers.OsType, keyboardImplementation: Option<string>)

  /** How each collaborator call made by one step settles: the backend start, and the
      first and second `updateBinding` calls. For the start, `Resolved` is an ok result and
      `Rejected` is an error result or an exception. */
  datatype Oracle = Oracle(start: Outcome, firstUpdate: Outcome, secondUpdate: Outcome)

  /** A window key event: `key` is `e.key`, `name` is what `normalizeKey(getKeyName(e, os))`
      returns for it, `repeat` is `e.repeat`. */
  datatype KeyEvent = KeyEvent(key: string, name: string, repeat: bool)

  /** A backend key event; only `hotkey_string` and `is_key_down` are read. */
  datatype FeedEvent = FeedEvent(hotkey: string, isKeyDown: bool)

  datatype Event =
    | ClickBinding            // click on the binding display: `startRecording`
    | ClickOutside            // click outside the capture surface
    | KeyDown(k: KeyEvent)
    | KeyUp(k: KeyEvent)
    | Feed(f: FeedEvent)      // "handy-keys-event" from the backend
    | ListenResolved          // the handy effect's `listen(...)` promise resolves
    | Render                  // React re-renders and re-runs effects whose deps changed

  const Idle: Snapshot := Snapshot(false, None, "")

  function InitialRecorder(): Recorder {
    Recorder(false, None, "", "", "", Idle, None, None, false, false)
  }

  predicate UsesHandyKeys(cfg: Config) {
    cfg.keyboardImplementation.GetOr("tauri") == "handy_keys"
  }

  // ---------------------------------------------------------------------------
  // Small pieces
  // ---------------------------------------------------------------------------

  /** `Set.add` on an insertion-ordered set. */
  function SetAdd(s: seq<string>, x: string): (r: seq<string>)
    ensures x in r
    ensures forall y :: y in r <==> y in s || y == x
    ensures NoDup(s) ==> NoDup(r)
    ensures x in s ==> r == s
  {
    if x in s then s else s + [x]
  }

  /** `Set.delete`. */
  function SetDelete(s: seq<string>, x: string): (r: seq<string>)
    ensures x !in r
    ensures forall y :: y in r <==> y in s && y != x
    ensures NoDup(s) ==> NoDup(r)
  {
    if s == [] then []
    else
      assert NoDup(s) ==> NoDup(s[1..]) && s[0] !in s[1..] by {
        if NoDup(s) {
          forall i, j | 0 <= i < j < |s| - 1 ensures s[1..][i] != s[1..][j] {
            assert s[1..][i] == s[i + 1] && s[1..][j] == s[j + 1];
          }
          forall i | 0 <= i < |s| - 1 ensures s[1..][i] != s[0] {
            assert s[1..][i] == s[i + 1];
          }
        }
      }
      var rest := SetDelete(s[1..], x);
      if s[0] == x then rest else [s[0]] + rest
  }

  predicate NoDup(s: seq<string>) {
    forall i, j :: 0 <= i < j < |s| ==> s[i] != s[j]
  }

  function Issue(w: World, c: Call): World {
    w.(calls := w.calls + [c])
  }

  function Notify(w: World, t: Toast): World {
    w.(toasts := w.toasts + [t])
  }

  /** `updateBinding(id, keys)`: recorded as a call; the store changes only if it resolves. */
  function UpdateBindingCall(w: World, id: string, keys: string, o: Outcome): (r: World)
    ensures r.calls == w.calls + [UpdateBinding(id, keys)]
    ensures o == Resolved ==> r.bindings == w.bindings[id := keys]
    ensures o == Rejected ==> r.bindings == w.bindings
    ensures r.rec == w.rec && r.toasts == w.toasts
  {
    Issue(w, UpdateBinding(id, keys)).(bindings := if o == Resolved then w.bindings[id := keys] else w.bindings)
  }

  /** The five state resets that end a session. */
  function EndSession(r: Recorder): Recorder {
    r.(isRecording := false, currentKeys := "", keysRef := "", originalBinding := "", mode := None)
  }

  predicate IsIdle(r: Recorder) {
    !r.isRecording && r.mode == None && r.currentKeys == "" && r.keysRef == "" && r.originalBinding == ""
  }

  // ---------------------------------------------------------------------------
  // Binding synchroniser and session controller
  // ---------------------------------------------------------------------------

  /** `applyBinding(keys)` as captured with `original`: write `keys`; if that throws, toast
      and write `original` back, but only when `original` is non-empty. */
  function ApplyBinding(cfg: Config, w: World, original: string, keys: string, o: Oracle): (r: World)
    ensures r.rec == w.rec
    ensures o.firstUpdate == Resolved ==>
      r.calls == w.calls + [UpdateBinding(cfg.shortcutId, keys)] &&
      r.bindings == w.bindings[cfg.shortcutId := keys] && r.toasts == w.toasts
    ensures o.firstUpdate == Rejected && original == "" ==>
      r.calls == w.calls + [UpdateBinding(cfg.shortcutId, keys)] &&
      r.bindings == w.bindings && r.toasts == w.toasts + [SetFailed]
    ensures o.firstUpdate == Rejected && original != "" ==>
      r.calls == w.calls + [UpdateBinding(cfg.shortcutId, keys), UpdateBinding(cfg.shortcutId, original)] &&
      r.bindings == (if o.secondUpdate == Resolved then w.bindings[cfg.shortcutId := original] else w.bindings) &&
      r.toasts == w.toasts + (if o.secondUpdate == Resolved then [SetFailed] else [SetFailed, ResetFailed])
  {
    var w1 := UpdateBindingCall(w, cfg.shortcutId, keys, o.firstUpdate);
    if o.firstUpdate == Resolved then w1
    else
      var w2 := Notify(w1, SetFailed);
      if original == "" then w2
      else
        var w3 := UpdateBindingCall(w2, cfg.shortcutId, original, o.secondUpdate);
        if o.secondUpdate == Resolved then w3 else Notify(w3, ResetFailed)
  }

  /** `cancelRecording` as captured by a closure made from snapshot `s`. */
  function CancelRecording(cfg: Config, w: World, s: Snapshot, o: Oracle): (r: World)
    ensures !s.isRecording ==> r == w
    ensures s.isRecording ==>
      && IsIdle(r.rec)
      && !r.rec.feedSubscribed
      && r.rec.rendered == w.rec.rendered && r.rec.local == w.rec.local && r.rec.handy == w.rec.handy
      && r.calls == w.calls
           + (if s.mode == Some(Handy) then [StopHandyKeysRecording] else [])
           + (if s.original != "" then [UpdateBinding(cfg.shortcutId, s.original)] else [])
      && (s.original == "" || o.firstUpdate == Rejected ==> r.bindings == w.bindings)
      && (s.original != "" && o.firstUpdate == Resolved ==> r.bindings == w.bindings[cfg.shortcutId := s.original])
      && r.toasts == w.toasts + (if s.original != "" && o.firstUpdate == Rejected then [RestoreFailed] else [])
  {
    if !s.isRecording then w
    else
      var w1 := w.(rec := w.rec.(feedSubscribed := false));
      var w2 := if s.mode == Some(Handy) then Issue(w1, StopHandyKeysRecording) else w1;
      var w3 :=
        if s.original == "" then w2
        else
          var w4 := UpdateBindingCall(w2, cfg.shortcutId, s.original, o.firstUpdate);
          if o.firstUpdate == Resolved then w4 else Notify(w4, RestoreFailed);
      w3.(rec := EndSession(w3.rec))
  }

  /** `startRecording`, as the click handler of the last render sees it, with the
      backend start's error result treated as a failure (see `StartRecordingAsWritten`). */
  function StartRecording(cfg: Config, w: World, o: Oracle): (r: World)
    ensures w.rec.rendered.isRecording ==> r == w
    ensures !w.rec.rendered.isRecording ==>
      && r.rec.originalBinding == (if cfg.shortcutId in w.bindings then w.bindings[cfg.shortcutId] else "")
      && r.bindings == w.bindings
      && r.rec.rendered == w.rec.rendered && r.rec.local == w.rec.local && r.rec.handy == w.rec.handy
      && (UsesHandyKeys(cfg) ==> r.calls == w.calls + [StartHandyKeysRecording(cfg.shortcutId)])
      && (UsesHandyKeys(cfg) && o.start == Resolved ==>
            r.rec.isRecording && r.rec.mode == Some(Handy) && r.rec.currentKeys == "" && r.rec.keysRef == ""
            && r.toasts == w.toasts)
      && (UsesHandyKeys(cfg) && o.start == Rejected ==>
            r.rec.isRecording == w.rec.isRecording && r.rec.mode == w.rec.mode
            && r.toasts == w.toasts + [SetFailed])
      && (!UsesHandyKeys(cfg) ==>
            r.rec.isRecording && r.rec.mode == Some(Local) && r.rec.currentKeys == "" && r.rec.keysRef == ""
            && r.calls == w.calls && r.toasts == w.toasts)
  {
    if w.rec.rendered.isRecording then w
    else
      var original := if cfg.shortcutId in w.bindings then w.bindings[cfg.shortcutId] else "";
      var w1 := w.(rec := w.rec.(originalBinding := original));
      if UsesHandyKeys(cfg) then
        var w2 := Issue(w1, StartHandyKeysRecording(cfg.shortcutId));
        if o.start == Resolved then
          w2.(rec := w2.rec.(isRecording := true, mode := Some(Handy), currentKeys := "", keysRef := ""))
        else Notify(w2, SetFailed)
      else
        w1.(rec := w1.rec.(isRecording := true, mode := Some(Local), currentKeys := "", keysRef := ""))
  }

  /** `startRecording` as written: the start command's result is awaited but never
      inspected, so only an exception counts as a failure, and an error result enters
      the handy session like an ok one. */
  function StartRecordingAsWritten(cfg: Config, w: World, start: Reply<()>): (r: World)
    ensures !start.Thrown? ==> r == StartRecording(cfg, w, Oracle(Resolved, Resolved, Resolved))
    ensures start.Thrown? ==> r == StartRecording(cfg, w, Oracle(Rejected, Resolved, Resolved))
  {
    if w.rec.rendered.isRecording then w
    else
      var original := if cfg.shortcutId in w.bindings then w.bindings[cfg.shortcutId] else "";
      var w1 := w.(rec := w.rec.(originalBinding := original));
      if UsesHandyKeys(cfg) then
        var w2 := Issue(w1, StartHandyKeysRecording(cfg.shortcutId));
        match start
        case Thrown(_) => Notify(w2, SetFailed)
        case _ => w2.(rec := w2.rec.(isRecording := true, mode := Some(Handy), currentKeys := "", keysRef := ""))
      else
        w1.(rec := w1.rec.(isRecording := true, mode := Some(Local), currentKeys := "", keysRef := ""))
  }

  /** A backend that answers the start with an error result: the code as written shows a
      recording session, with no toast, that the backend never opened; the corrected
      start stays idle and raises the set-failed toast. */
  lemma StartErrorResultEntersRecording(cfg: Config, w: World, e: string)
    requires UsesHandyKeys(cfg) && !w.rec.rendered.isRecording && !w.rec.isRecording
    ensures var asWritten := StartRecordingAsWritten(cfg, w, Err(e));
      asWritten.rec.isRecording && asWritten.rec.mode == Some(Handy) && asWritten.toasts == w.toasts
    ensures var corrected := StartRecording(cfg, w, Oracle(Rejected, Resolved, Resolved));
      !corrected.rec.isRecording && corrected.toasts == w.toasts + [SetFailed]
  {
  }

  // ---------------------------------------------------------------------------
  // Capture: the handy feed
  // ---------------------------------------------------------------------------

  /** The backend feed handler: a key-down with a non-empty combination replaces the
      held combination; a key-up while a combination is held commits it and ends the
      session; anything else, and every event once `cleanup` is set, is ignored. */
  function HandyFeed(cfg: Config, w: World, f: FeedEvent, o: Oracle): (r: World)
    ensures !(w.rec.feedSubscribed && w.rec.handy.Some?) ==> r == w
    ensures w.rec.handy.Some? && w.rec.handy.value.cleanup ==> r == w
    ensures w.rec.feedSubscribed && w.rec.handy.Some? && !w.rec.handy.value.cleanup ==>
      && (f.isKeyDown && f.hotkey != "" ==>
            r == w.(rec := w.rec.(keysRef := f.hotkey, currentKeys := f.hotkey)))
      && (f.isKeyDown && f.hotkey == "" ==> r == w)
      && (!f.isKeyDown && w.rec.keysRef == "" ==> r == w)
      && (!f.isKeyDown && w.rec.keysRef != "" ==>
            && |w.calls| + 2 <= |r.calls|
            && r.calls[..|w.calls| + 1] == w.calls + [UpdateBinding(cfg.shortcutId, w.rec.keysRef)]
            && r.calls[|r.calls| - 1] == StopHandyKeysRecording
            && IsIdle(r.rec) && !r.rec.feedSubscribed
            && (o.firstUpdate == Resolved ==> r.bindings == w.bindings[cfg.shortcutId := w.rec.keysRef]))
  {
    if !(w.rec.feedSubscribed && w.rec.handy.Some?) then w
    else
      var l := w.rec.handy.value;
      if l.cleanup then w
      else if f.isKeyDown && f.hotkey != "" then
        w.(rec := w.rec.(keysRef := f.hotkey, currentKeys := f.hotkey))
      else if !f.isKeyDown && w.rec.keysRef != "" then
        var w1 := ApplyBinding(cfg, w, l.original, w.rec.keysRef, o);
        var w2 := Issue(w1.(rec := w1.rec.(feedSubscribed := false)), StopHandyKeysRecording);
        w2.(rec := EndSession(w2.rec))
      else w
  }

  /** The handy effect's window listener: only an `Escape` key cancels, through the
      `cancelRecording` of the render that mounted the listener. That cancel stops the
      backend recording, writes back the binding the listener captured, and leaves the
      recorder idle; any other key changes nothing. */
  function HandyEscape(cfg: Config, w: World, l: HandyListener, k: KeyEvent, o: Oracle): (r: World)
    ensures k.key != "Escape" ==> r == w
    ensures k.key == "Escape" ==>
      && IsIdle(r.rec) && !r.rec.feedSubscribed
      && |r.calls| > |w.calls| && r.calls[|w.calls|] == StopHandyKeysRecording
      && (l.original == "" || o.firstUpdate == Rejected ==> r.bindings == w.bindings)
      && (l.original != "" && o.firstUpdate == Resolved ==> r.bindings == w.bindings[cfg.shortcutId := l.original])
  {
    if k.key == "Escape" then CancelRecording(cfg, w, Snapshot(true, Some(Handy), l.original), o) else w
  }

  // ---------------------------------------------------------------------------
  // Capture: the local listener
  // ---------------------------------------------------------------------------

  predicate IsEscapeName(name: string) {
    name == "escape" || name == "esc"
  }

  /** The chord a non-modifier key commits: sorted modifiers then the key, empty parts
      dropped, joined with `+`. */
  function Combo(os: Modifiers.OsType, pressed: seq<string>, name: string): string {
    Join(NonEmpty(Modifiers.SortModifiers(os, pressed) + [name]), "+")
  }

  function WithLocal(w: World, l: LocalListener): World {
    w.(rec := w.rec.(local := Some(l)))
  }

  /** The local key-down handler running in closure `l`. */
  function LocalKeyDown(cfg: Config, w: World, l: LocalListener, k: KeyEvent, o: Oracle): (r: World)
    // after the commit every key-down is ignored
    ensures l.committed ==> r == w
    // Escape cancels and never writes anything but the captured original back
    ensures !l.committed && IsEscapeName(k.name) ==>
      && IsIdle(r.rec) && r.rec.local == w.rec.local
      && r.calls == w.calls + (if l.original != "" then [UpdateBinding(cfg.shortcutId, l.original)] else [])
    ensures !l.committed && !IsEscapeName(k.name) && StartsWith(k.name, "unknown-") ==> r == w
    // a modifier joins the held set and the display shows the ordered set
    ensures !l.committed && Modifiers.IsModifier(k.name) ==>
      && r.rec.local == Some(l.(pressed := SetAdd(l.pressed, k.name)))
      && r.rec.currentKeys == Modifiers.DisplayModifiers(cfg.os, SetAdd(l.pressed, k.name))
      && r.rec.isRecording == w.rec.isRecording && r.rec.mode == w.rec.mode
      && r.rec.originalBinding == w.rec.originalBinding && r.rec.rendered == w.rec.rendered
      && r.calls == w.calls && r.bindings == w.bindings && r.toasts == w.toasts
    ensures (!l.committed && !IsEscapeName(k.name) && !StartsWith(k.name, "unknown-")
             && !Modifiers.IsModifier(k.name) && k.repeat) ==> r == w
    // the first other key commits the chord once and ends the session
    ensures (!l.committed && !IsEscapeName(k.name) && !StartsWith(k.name, "unknown-")
             && !Modifiers.IsModifier(k.name) && !k.repeat && Combo(cfg.os, l.pressed, k.name) != "") ==>
      && r.rec.local == Some(l.(committed := true))
      && IsIdle(r.rec)
      && |w.calls| + 1 <= |r.calls|
      && r.calls[..|w.calls| + 1] == w.calls + [UpdateBinding(cfg.shortcutId, Combo(cfg.os, l.pressed, k.name))]
      && (o.firstUpdate == Resolved ==>
            r.calls == w.calls + [UpdateBinding(cfg.shortcutId, Combo(cfg.os, l.pressed, k.name))]
            && r.bindings == w.bindings[cfg.shortcutId := Combo(cfg.os, l.pressed, k.name)])
  {
    if l.committed then w
    else if IsEscapeName(k.name) then
      CancelRecording(cfg, w, Snapshot(true, Some(Local), l.original), o)
    else if StartsWith(k.name, "unknown-") then w
    else if Modifiers.IsModifier(k.name) then HoldModifier(cfg, w, l, k.name)
    else if k.repeat then w
    else
      var combo := Combo(cfg.os, l.pressed, k.name);
      if combo == "" then w
      else CommitCombo(cfg, w, l, combo, o)
  }

  /** A modifier key-down: the key joins the held set and the display shows the set. */
  function HoldModifier(cfg: Config, w: World, l: LocalListener, name: string): (r: World)
    ensures r.rec.local == Some(l.(pressed := SetAdd(l.pressed, name)))
    ensures r.rec.currentKeys == Modifiers.DisplayModifiers(cfg.os, SetAdd(l.pressed, name))
    ensures r.rec.isRecording == w.rec.isRecording && r.rec.mode == w.rec.mode
    ensures r.rec.originalBinding == w.rec.originalBinding && r.rec.rendered == w.rec.rendered
    ensures r.calls == w.calls && r.bindings == w.bindings && r.toasts == w.toasts
  {
    var pressed := SetAdd(l.pressed, name);
    var w1 := WithLocal(w, l.(pressed := pressed));
    w1.(rec := w1.rec.(currentKeys := Modifiers.DisplayModifiers(cfg.os, pressed)))
  }

  /** The first non-modifier key-down: mark the closure committed, save the chord and end
      the session. */
  function CommitCombo(cfg: Config, w: World, l: LocalListener, combo: string, o: Oracle): (r: World)
    ensures r.rec.local == Some(l.(committed := true))
    ensures IsIdle(r.rec)
    ensures |w.calls| + 1 <= |r.calls|
    ensures r.calls[..|w.calls| + 1] == w.calls + [UpdateBinding(cfg.shortcutId, combo)]
    ensures o.firstUpdate == Resolved ==>
              r.calls == w.calls + [UpdateBinding(cfg.shortcutId, combo)]
              && r.bindings == w.bindings[cfg.shortcutId := combo]
  {
    var w1 := ApplyBinding(cfg, WithLocal(w, l.(committed := true)), l.original, combo, o);
    w1.(rec := EndSession(w1.rec))
  }

  /** The local key-up handler: releasing a modifier removes it and, unless the chord was
      already committed, refreshes the display. */
  function LocalKeyUp(cfg: Config, w: World, l: LocalListener, k: KeyEvent): (r: World)
    ensures !Modifiers.IsModifier(k.name) ==> r == w
    ensures Modifiers.IsModifier(k.name) ==>
      && r.rec.local == Some(l.(pressed := SetDelete(l.pressed, k.name)))
      && r.rec.currentKeys == (if l.committed then w.rec.currentKeys
                               else Modifiers.DisplayModifiers(cfg.os, SetDelete(l.pressed, k.name)))
      && r.rec.isRecording == w.rec.isRecording && r.rec.mode == w.rec.mode
      && r.rec.originalBinding == w.rec.originalBinding && r.rec.rendered == w.rec.rendered
      && r.calls == w.calls && r.bindings == w.bindings && r.toasts == w.toasts
  {
    if Modifiers.IsModifier(k.name) then
      var pressed := SetDelete(l.pressed, k.name);
      var w1 := WithLocal(w, l.(pressed := pressed));
      if l.committed then w1
      else w1.(rec := w1.rec.(currentKeys := Modifiers.DisplayModifiers(cfg.os, pressed)))
    else w
  }

  // ---------------------------------------------------------------------------
  // Effects
  // ---------------------------------------------------------------------------

  /** The mounted handy effect's cleanup: set `cleanup`, drop the subscription and stop
      the backend recording (its closure always saw mode "handy"). */
  function CleanupHandy(w: World): World {
    if w.rec.handy.Some? && !w.rec.handy.value.cleanup then
      Issue(w.(rec := w.rec.(handy := Some(w.rec.handy.value.(cleanup := true)), feedSubscribed := false)),
            StopHandyKeysRecording)
    else w
  }

  /** A render: if the effects' deps changed, run the old cleanups, then mount whichever
      capture effect the new state asks for. */
  function RenderStep(w: World): World {
    var now := Snapshot(w.rec.isRecording, w.rec.mode, w.rec.originalBinding);
    if now == w.rec.rendered then w
    else
      var w1 := CleanupHandy(w);
      var w2 := w1.(rec := w1.rec.(local := None, rendered := now));
      if now.isRecording && now.mode == Some(Local) then
        w2.(rec := w2.rec.(local := Some(LocalListener([], false, now.original))))
      else if now.isRecording && now.mode == Some(Handy) then
        w2.(rec := w2.rec.(handy := Some(HandyListener(false, now.original)), listenPending := true))
      else w2
  }

  /** The handy effect's `listen(...)` resolves: the subscription goes live, even if the
      effect has been cleaned up meanwhile (its handler then ignores every event). */
  function ListenResolvedStep(w: World): World {
    if w.rec.listenPending then w.(rec := w.rec.(feedSubscribed := true, listenPending := false))
    else w
  }

  /** Teardown: every effect cleanup runs; afterwards no capture source is live. */
  function UnmountStep(w: World): (r: World)
    ensures r.rec.local == None
    ensures r.rec.handy.Some? ==> r.rec.handy.value.cleanup
    ensures w.rec.handy.Some? && !w.rec.handy.value.cleanup ==> !r.rec.feedSubscribed
    ensures r.calls == w.calls + (if w.rec.handy.Some? && !w.rec.handy.value.cleanup then [StopHandyKeysRecording] else [])
    ensures r.bindings == w.bindings
  {
    var w1 := CleanupHandy(w);
    w1.(rec := w1.rec.(local := None))
  }

  // ---------------------------------------------------------------------------
  // One step
  // ---------------------------------------------------------------------------

  function Step(cfg: Config, w: World, e: Event, o: Oracle): World {
    match e
    case ClickBinding => StartRecording(cfg, w, o)
    case ClickOutside => CancelRecording(cfg, w, w.rec.rendered, o)
    case KeyDown(k) =>
      if w.rec.local.Some? then LocalKeyDown(cfg, w, w.rec.local.value, k, o)
      else if w.rec.handy.Some? && !w.rec.handy.value.cleanup then HandyEscape(cfg, w, w.rec.handy.value, k, o)
      else w
    case KeyUp(k) =>
      if w.rec.local.Some? then LocalKeyUp(cfg, w, w.rec.local.value, k) else w
    case Feed(f) => HandyFeed(cfg, w, f, o)
    case ListenResolved => ListenResolvedStep(w)
    case Render => RenderStep(w)
  }

  /** Runs a trace of events, each with the outcomes of the calls it makes. */
  function Run(cfg: Config, w: World, trace: seq<(Event, Oracle)>): World
    decreases |trace|
  {
    if trace == [] then w else Run(cfg, Step(cfg, w, trace[0].0, trace[0].1), trace[1..])
  }
}

=== FILE: stable_sort.dfy ===
/** A stable sort by an integer key.

    `Array.prototype.sort` is required to be stable (ECMAScript 2019), so a comparator
    `(a, b) => key(a) - key(b)` orders by `key` ascending and keeps the input order among
    equal keys. Both callers in the front end sort that way: the modifier orderer
    (key = position in the OS table) and the history pages (key = negated timestamp, for
    newest first). The sort is modelled as insertion sort, which is stable, and its three
    promises are proved once here: permutation, sortedness, stability. */
module StableSort {

  /** `xs` is ordered by `key`, ascending. */
  predicate SortedBy<T>(xs: seq<T>, key: T -> int) {
    forall i, j :: 0 <= i < j < |xs| ==> key(xs[i]) <= key(xs[j])
  }

  /** The elements of `xs` whose key is `k`, in their order in `xs`. */
  function WithKey<T>(xs: seq<T>, key: T -> int, k: int): (r: seq<T>)
    ensures |r| <= |xs|
  {
    if xs == [] then []
    else (if key(xs[0]) == k then [xs[0]] else []) + WithKey(xs[1..], key, k)
  }

  /** `xs` and `ys` list the elements of each key in the same relative order. */
  ghost predicate SameOrderPerKey<T>(xs: seq<T>, ys: seq<T>, key: T -> int) {
    forall k :: WithKey(xs, key, k) == WithKey(ys, key, k)
  }

  /** Inserts `x` before the first element whose key is not smaller. */
  function Insert<T>(x: T, xs: seq<T>, key: T -> int): seq<T>
  {
    if xs == [] || key(x) <= key(xs[0]) then [x] + xs
    else [xs[0]] + Insert(x, xs[1..], key)
  }

  /** Stable insertion sort by `key`, ascending. */
  function Sort<T>(xs: seq<T>, key: T -> int): seq<T>
  {
    if xs == [] then [] else Insert(xs[0], Sort(xs[1..], key), key)
  }

  lemma {:induction false} InsertPermutes<T>(x: T, xs: seq<T>, key: T -> int)
    ensures multiset(Insert(x, xs, key)) == multiset([x]) + multiset(xs)
  {
    if xs != [] && key(x) > key(xs[0]) {
      InsertPermutes(x, xs[1..], key);
      assert xs == [xs[0]] + xs[1..];
    }
  }

  lemma {:induction false} InsertSorted<T>(x: T, xs: seq<T>, key: T -> int)
    requires SortedBy(xs, key)
    ensures SortedBy(Insert(x, xs, key), key)
    ensures Insert(x, xs, key) != []
    ensures Insert(x, xs, key)[0] == x || (xs != [] && Insert(x, xs, key)[0] == xs[0])
  {
    if xs != [] && key(x) > key(xs[0]) {
      InsertSorted(x, xs[1..], key);
      var tail := Insert(x, xs[1..], key);
      var r := [xs[0]] + tail;
      forall i, j | 0 <= i < j < |r|
        ensures key(r[i]) <= key(r[j])
      {
        if i == 0 {
          assert key(xs[0]) <= key(tail[0]);
          if j > 1 {
            assert key(tail[0]) <= key(tail[j - 1]);
          }
        } else {
          assert r[i] == tail[i - 1] && r[j] == tail[j - 1];
        }
      }
    }
  }

  /** Insertion passes only over strictly smaller keys, so `x` lands in front of every
      element that shares its key: the source of stability. */
  lemma {:induction false} InsertWithKey<T>(x: T, xs: seq<T>, key: T -> int, k: int)
    ensures WithKey(Insert(x, xs, key), key, k)
         == (if key(x) == k then [x] else []) + WithKey(xs, key, k)
  {
    if xs == [] || key(x) <= key(xs[0]) {
      assert ([x] + xs)[1..] == xs;
    } else {
      var tail := Insert(x, xs[1..], key);
      var r := [xs[0]] + tail;
      var head := if key(xs[0]) == k then [xs[0]] else [];
      var mine := if key(x) == k then [x] else [];
      InsertWithKey(x, xs[1..], key, k);
      assert WithKey(r, key, k) == head + WithKey(tail, key, k) by {
        assert r[1..] == tail;
      }
      assert WithKey(xs, key, k) == head + WithKey(xs[1..], key, k);
      assert head == [] || mine == [];
    }
  }

  lemma {:induction false} SortProperties<T>(xs: seq<T>, key: T -> int)
    ensures multiset(Sort(xs, key)) == multiset(xs)
    ensures SortedBy(Sort(xs, key), key)
    ensures SameOrderPerKey(Sort(xs, key), xs, key)
  {
    if xs != [] {
      var rest := Sort(xs[1..], key);
      SortProperties(xs[1..], key);
      InsertPermutes(xs[0], rest, key);
      InsertSorted(xs[0], rest, key);
      assert xs == [xs[0]] + xs[1..];
      forall k
        ensures WithKey(Sort(xs, key), key, k) == WithKey(xs, key, k)
      {
        InsertWithKey(xs[0], rest, key, k);
      }
    }
  }

  /** Sorting an already sorted sequence changes nothing; hence `Sort` is idempotent. */
  lemma {:induction false} SortOfSorted<T>(xs: seq<T>, key: T -> int)
    requires SortedBy(xs, key)
    ensures Sort(xs, key) == xs
  {
    if xs != [] {
      assert SortedBy(xs[1..], key) by {
        forall i, j | 0 <= i < j < |xs[1..]|
          ensures key(xs[1..][i]) <= key(xs[1..][j])
        {
          assert xs[1..][i] == xs[i + 1] && xs[1..][j] == xs[j + 1];
        }
      }
      SortOfSorted(xs[1..], key);
      if |xs| > 1 {
        assert key(xs[0]) <= key(xs[1]);
      }
    }
  }

  lemma SortIdempotent<T>(xs: seq<T>, key: T -> int)
    ensures Sort(Sort(xs, key), key) == Sort(xs, key)
  {
    SortProperties(xs, key);
    SortOfSorted(Sort(xs, key), key);
  }
  lemma {:induction false} WithKeyMembers<T>(xs: seq<T>, key: T -> int, k: int)
    ensures forall x :: x in WithKey(xs, key, k) <==> x in xs && key(x) == k
  {
    if xs != [] {
      WithKeyMembers(xs[1..], key, k);
      assert xs == [xs[0]] + xs[1..];
    }
  }

  lemma {:induction false} WithKeyNone<T>(xs: seq<T>, key: T -> int, k: int)
    requires forall i :: 0 <= i < |xs| ==> key(xs[i]) != k
    ensures WithKey(xs, key, k) == []
  {
    if xs != [] {
      WithKeyNone(xs[1..], key, k);
    }
  }

  /** When every element with key `k` is `e`, the elements with key `k` are just the
      copies of `e`. */
  lemma {:induction false} WithKeyUniform<T>(xs: seq<T>, key: T -> int, k: int, e: T)
    requires key(e) == k
    requires forall i :: 0 <= i < |xs| && key(xs[i]) == k ==> xs[i] == e
    ensures WithKey(xs, key, k) == seq(multiset(xs)[e], _ => e)
  {
    if xs != [] {
      WithKeyUniform(xs[1..], key, k, e);
      assert xs == [xs[0]] + xs[1..];
      assert multiset(xs) == multiset{xs[0]} + multiset(xs[1..]);
    }
  }

  lemma SortedTail<T>(xs: seq<T>, key: T -> int)
    requires SortedBy(xs, key) && xs != []
    ensures SortedBy(xs[1..], key)
  {
    forall i, j | 0 <= i < j < |xs| - 1
      ensures key(xs[1..][i]) <= key(xs[1..][j])
    {
      assert xs[1..][i] == xs[i + 1] && xs[1..][j] == xs[j + 1];
    }
  }

  /** In a sorted sequence the head has the least key. */
  lemma SortedHeadLeast<T>(xs: seq<T>, key: T -> int, x: T)
    requires SortedBy(xs, key) && x in xs
    ensures key(xs[0]) <= key(x)
  {
    var i :| 0 <= i < |xs| && xs[i] == x;
    if i > 0 {
      assert key(xs[0]) <= key(xs[i]);
    }
  }

  lemma SameHeads<T>(xs: seq<T>, ys: seq<T>, key: T -> int)
    requires SortedBy(xs, key) && SortedBy(ys, key)
    requires xs != [] && ys != []
    requires SameOrderPerKey(xs, ys, key)
    ensures xs[0] == ys[0]
  {
    var a, b := key(xs[0]), key(ys[0]);
    WithKeyMembers(xs, key, a);
    WithKeyMembers(ys, key, a);
    WithKeyMembers(xs, key, b);
    WithKeyMembers(ys, key, b);
    assert WithKey(xs, key, a) == WithKey(ys, key, a);
    assert WithKey(xs, key, b) == WithKey(ys, key, b);
    assert xs[0] in WithKey(ys, key, a);
    SortedHeadLeast(ys, key, xs[0]);
    assert ys[0] in WithKey(xs, key, b);
    SortedHeadLeast(xs, key, ys[0]);
    assert WithKey(xs, key, a)[0] == xs[0];
    assert WithKey(ys, key, a)[0] == ys[0];
  }

  lemma SameOrderTails<T>(xs: seq<T>, ys: seq<T>, key: T -> int)
    requires xs != [] && ys != [] && xs[0] == ys[0]
    requires SameOrderPerKey(xs, ys, key)
    ensures SameOrderPerKey(xs[1..], ys[1..], key)
  {
    forall k
      ensures WithKey(xs[1..], key, k) == WithKey(ys[1..], key, k)
    {
      var h := if key(xs[0]) == k then [xs[0]] else [];
      assert WithKey(xs, key, k) == WithKey(ys, key, k);
      assert WithKey(xs, key, k) == h + WithKey(xs[1..], key, k);
      assert WithKey(ys, key, k) == h + WithKey(ys[1..], key, k);
      assert WithKey(xs[1..], key, k) == (h + WithKey(xs[1..], key, k))[|h|..];
      assert WithKey(ys[1..], key, k) == (h + WithKey(ys[1..], key, k))[|h|..];
    }
  }

  /** There is only one sorted arrangement that keeps each key's elements in a given
      order: two sorted sequences that agree key by key are equal. */
  lemma {:induction false} SortedUnique<T>(xs: seq<T>, ys: seq<T>, key: T -> int)
    requires SortedBy(xs, key) && SortedBy(ys, key)
    requires |xs| == |ys|
    requires SameOrderPerKey(xs, ys, key)
    ensures xs == ys
  {
    if xs != [] {
      SameHeads(xs, ys, key);
      SameOrderTails(xs, ys, key);
      SortedTail(xs, key);
      SortedTail(ys, key);
      SortedUnique(xs[1..], ys[1..], key);
      assert xs == [xs[0]] + xs[1..] && ys == [ys[0]] + ys[1..];
    }
  }

  /** Two elements: swapped exactly when the second has the smaller key. */
  lemma SortPair<T>(a: T, b: T, key: T -> int)
    ensures Sort([a, b], key) == (if key(b) < key(a) then [b, a] else [a, b])
  {
    assert [a, b][1..] == [b];
    assert [b][1..] == [];
    assert Sort([b], key) == [b];
    if key(a) <= key(b) {
      assert Insert(a, [b], key) == [a] + [b];
    } else {
      assert Insert(a, [b], key) == [b] + Insert(a, [], key);
    }
  }
}

=== FILE: strings.dfy ===
/** ASCII string helpers shared by the front end and the Rust text post-processor.

    Characters are Dafny `char`s restricted, where it matters, to ASCII: letters are
    `a`..`z`/`A`..`Z`, whitespace is the space and the control characters `\t`..`\r`
    (tab, line feed, vertical tab, form feed, carriage return). `Words` is Rust's
    `split_whitespace`, `Join` is `Array.join`/`Vec::join`, `Trim` is `trim()`. */
module Strings {

  // ---------------------------------------------------------------------------
  // Characters
  // ---------------------------------------------------------------------------

  predicate IsUpper(c: char) { 'A' <= c <= 'Z' }

  predicate IsLower(c: char) { 'a' <= c <= 'z' }

  predicate IsAlpha(c: char) { IsUpper(c) || IsLower(c) }

  predicate IsSpace(c: char) { c == ' ' || '\t' <= c <= '\r' }

  function UpperChar(c: char): (r: char)
    ensures IsLower(c) ==> IsUpper(r)
    ensures !IsLower(c) ==> r == c
    ensures IsSpace(r) <==> IsSpace(c)
    ensures IsAlpha(r) <==> IsAlpha(c)
  {
    if IsLower(c) then (c as int - 32) as char else c
  }

  function LowerChar(c: char): (r: char)
    ensures IsUpper(c) ==> IsLower(r)
    ensures !IsUpper(c) ==> r == c
    ensures IsSpace(r) <==> IsSpace(c)
    ensures IsAlpha(r) <==> IsAlpha(c)
  {
    if IsUpper(c) then (c as int + 32) as char else c
  }

  /** `to_uppercase()` / `toUpperCase()` over ASCII. */
  function ToUpper(s: string): (r: string)
    ensures |r| == |s|
    ensures forall i :: 0 <= i < |s| ==> r[i] == UpperChar(s[i])
  {
    seq(|s|, i requires 0 <= i < |s| => UpperChar(s[i]))
  }

  /** `to_lowercase()` / `toLowerCase()` over ASCII. */
  function ToLower(s: string): (r: string)
    ensures |r| == |s|
    ensures forall i :: 0 <= i < |s| ==> r[i] == LowerChar(s[i])
  {
    seq(|s|, i requires 0 <= i < |s| => LowerChar(s[i]))
  }

  lemma LowerOfUpperChar(c: char)
    ensures LowerChar(UpperChar(c)) == LowerChar(c)
  {
  }

  predicate AllAlpha(s: string) { forall i :: 0 <= i < |s| ==> IsAlpha(s[i]) }

  predicate HasAlpha(s: string) { exists i :: 0 <= i < |s| && IsAlpha(s[i]) }

  predicate NoSpace(s: string) { forall i :: 0 <= i < |s| ==> !IsSpace(s[i]) }

  predicate AllSpace(s: string) { forall i :: 0 <= i < |s| ==> IsSpace(s[i]) }

  /** A token `split_whitespace` can produce: non-empty, no whitespace. */
  predicate IsWord(w: string) { w != [] && NoSpace(w) }

  predicate StartsWith(s: string, prefix: string) { prefix <= s }

  /** `s.includes(sub)`: `sub` occurs at some offset of `s`. */
  predicate Contains(s: string, sub: string) {
    exists i :: 0 <= i <= |s| && sub <= s[i..]
  }

  lemma ContainsEmpty(s: string)
    ensures Contains(s, [])
  {
    assert [] <= s[0..];
  }

  // ---------------------------------------------------------------------------
  // Splitting on whitespace
  // ---------------------------------------------------------------------------

  /** `s` with its leading whitespace removed (`trim_start`). */
  function DropSpaces(s: string): (r: string)
    ensures |r| <= |s| && r == s[|s| - |r|..]
    ensures r == [] || !IsSpace(r[0])
    ensures forall i :: 0 <= i < |s| - |r| ==> IsSpace(s[i])
  {
    if s != [] && IsSpace(s[0]) then DropSpaces(s[1..]) else s
  }

  /** The longest whitespace-free prefix of `s`. */
  function TakeWord(s: string): (r: string)
    ensures r <= s
    ensures NoSpace(r)
    ensures |r| < |s| ==> IsSpace(s[|r|])
    ensures s != [] && !IsSpace(s[0]) ==> r != []
  {
    if s == [] || IsSpace(s[0]) then [] else [s[0]] + TakeWord(s[1..])
  }

  /** Rust's `split_whitespace`: the maximal whitespace-free runs of `s`, in order. */
  function Words(s: string): (ws: seq<string>)
    ensures forall i :: 0 <= i < |ws| ==> IsWord(ws[i])
    decreases |s|
  {
    var t := DropSpaces(s);
    if t == [] then []
    else
      var w := TakeWord(t);
      assert IsWord(w);
      var rest := t[|w|..];
      assert |rest| < |s|;
      var ws := Words(rest);
      assert forall i :: 0 <= i < |ws| ==> IsWord(ws[i]);
      [w] + ws
  }

  /** `Array.join(sep)` / `Vec::join(sep)`. */
  function Join(ws: seq<string>, sep: string): string
  {
    if ws == [] then []
    else if |ws| == 1 then ws[0]
    else ws[0] + sep + Join(ws[1..], sep)
  }

  /** Keeps the non-empty strings (`filter(Boolean)` on an array of strings). */
  function NonEmpty(ws: seq<string>): (r: seq<string>)
    ensures forall i :: 0 <= i < |r| ==> r[i] != []
    ensures |r| <= |ws|
  {
    if ws == [] then []
    else (if ws[0] == [] then [] else [ws[0]]) + NonEmpty(ws[1..])
  }

  /** Appending one more part to a non-empty join adds one separator and the part. */
  lemma {:induction false} JoinSnoc(ws: seq<string>, x: string, sep: string)
    requires ws != []
    ensures Join(ws + [x], sep) == Join(ws, sep) + sep + x
    decreases |ws|
  {
    if |ws| == 1 {
      assert ws + [x] == [ws[0], x];
    } else {
      assert (ws + [x])[1..] == ws[1..] + [x];
      JoinSnoc(ws[1..], x, sep);
    }
  }

  /** `filter(Boolean)` keeps a list without empty strings as it is. */
  lemma {:induction false} NonEmptyKeepsNonEmpty(ws: seq<string>)
    requires forall i :: 0 <= i < |ws| ==> ws[i] != []
    ensures NonEmpty(ws) == ws
  {
    if ws != [] {
      NonEmptyKeepsNonEmpty(ws[1..]);
    }
  }

  lemma {:induction false} WordsOfAllSpace(s: string)
    ensures Words(s) == [] <==> AllSpace(s)
  {
    var t := DropSpaces(s);
    if t != [] {
      assert s[|s| - |t|] == t[0];
    }
  }

  /** A leading whitespace character does not matter to the split. */
  lemma WordsSpaceStart(s: string)
    requires s != [] && IsSpace(s[0])
    ensures Words(s) == Words(s[1..])
  {
    assert DropSpaces(s) == DropSpaces(s[1..]);
  }

  lemma {:induction false} WordsSpacePrefix(c: char, s: string)
    requires IsSpace(c)
    ensures Words([c] + s) == Words(s)
  {
    assert ([c] + s)[1..] == s;
  }

  lemma {:induction false} TakeWordOfWord(w: string, s: string)
    requires NoSpace(w)
    requires s == [] || IsSpace(s[0])
    ensures TakeWord(w + s) == w
    decreases |w|
  {
    if w == [] {
      assert w + s == s;
    } else {
      assert (w + s)[1..] == w[1..] + s;
      TakeWordOfWord(w[1..], s);
    }
  }

  /** A word followed by whitespace (or nothing) splits off as the first token. */
  lemma {:induction false} WordsConsWord(w: string, s: string)
    requires IsWord(w)
    requires s == [] || IsSpace(s[0])
    ensures Words(w + s) == [w] + Words(s)
  {
    var t := w + s;
    assert DropSpaces(t) == t;
    TakeWordOfWord(w, s);
    assert t[|w|..] == s;
  }

  /** Joining words with single spaces and splitting again gives the words back. */
  lemma {:induction false} WordsOfJoin(ws: seq<string>)
    requires forall i :: 0 <= i < |ws| ==> IsWord(ws[i])
    ensures Words(Join(ws, " ")) == ws
    decreases |ws|
  {
    if ws == [] {
    } else if |ws| == 1 {
      WordsConsWord(ws[0], []);
      assert ws[0] + [] == ws[0];
    } else {
      var rest := Join(ws[1..], " ");
      var tail := [' '] + rest;
      assert Join(ws, " ") == ws[0] + tail;
      WordsOfJoin(ws[1..]);
      WordsSpacePrefix(' ', rest);
      assert Words(tail) == ws[1..];
      WordsConsWord(ws[0], tail);
      assert Words(ws[0] + tail) == [ws[0]] + ws[1..];
    }
  }

  /** A join of words starts and ends with a non-space and has no two adjacent spaces. */
  lemma {:induction false} JoinOfWordsShape(ws: seq<string>)
    requires forall i :: 0 <= i < |ws| ==> IsWord(ws[i])
    ensures var j := Join(ws, " ");
      && (ws == [] <==> j == [])
      && (j != [] ==> !IsSpace(j[0]) && !IsSpace(j[|j| - 1]) && j[0] == ws[0][0])
      && NoDoubleSpace(j)
    decreases |ws|
  {
    if |ws| > 1 {
      JoinOfWordsShape(ws[1..]);
      var rest := Join(ws[1..], " ");
      var j := ws[0] + " " + rest;
      forall i | 0 <= i < |j| - 1
        ensures !(IsSpace(j[i]) && IsSpace(j[i + 1]))
      {
        if i < |ws[0]| {
          assert j[i] == ws[0][i];
        } else if i == |ws[0]| {
          assert j[i + 1] == rest[0];
        } else {
          assert j[i] == rest[i - |ws[0]| - 1];
          assert j[i + 1] == rest[i + 1 - |ws[0]| - 1];
        }
      }
      assert j[|j| - 1] == rest[|rest| - 1];
    }
  }

  // ---------------------------------------------------------------------------
  // Whitespace runs and trimming
  // ---------------------------------------------------------------------------

  /** No two adjacent whitespace characters. */
  predicate NoDoubleSpace(s: string) {
    forall i :: 0 <= i < |s| - 1 ==> !(IsSpace(s[i]) && IsSpace(s[i + 1]))
  }

  /** `s` with its trailing whitespace removed (`trim_end`). */
  function DropSpacesEnd(s: string): (r: string)
    ensures |r| <= |s| && r == s[..|r|]
    ensures r == [] || !IsSpace(r[|r| - 1])
    ensures forall i :: |r| <= i < |s| ==> IsSpace(s[i])
  {
    if s != [] && IsSpace(s[|s| - 1]) then DropSpacesEnd(s[..|s| - 1]) else s
  }

  /** Where `Trim(s)` starts inside `s`. */
  function TrimOffset(s: string): nat
  {
    |s| - |DropSpaces(s)|
  }

  /** `trim()`: leading and trailing whitespace removed. */
  function Trim(s: string): (r: string)
    ensures r == [] || (!IsSpace(r[0]) && !IsSpace(r[|r| - 1]))
    ensures TrimOffset(s) + |r| <= |s| && r == s[TrimOffset(s)..TrimOffset(s) + |r|]
    ensures forall i :: 0 <= i < TrimOffset(s) ==> IsSpace(s[i])
    ensures forall i :: TrimOffset(s) + |r| <= i < |s| ==> IsSpace(s[i])
  {
    DropSpacesEnd(DropSpaces(s))
  }

  lemma {:induction false} TrimOfAllSpace(s: string)
    requires AllSpace(s)
    ensures DropSpaces(s) == [] && Trim(s) == []
  {
    if s != [] {
      TrimOfAllSpace(s[1..]);
    }
  }

  lemma TrimOfTrimmed(s: string)
    requires s == [] || (!IsSpace(s[0]) && !IsSpace(s[|s| - 1]))
    ensures Trim(s) == s
  {
  }

  // ---------------------------------------------------------------------------
  // Numbers
  // ---------------------------------------------------------------------------

  function DigitChar(d: nat): char
    requires d < 10
  {
    "0123456789"[d]
  }

  /** Decimal rendering of a natural number (template-literal `${n}`). */
  function NatToString(n: nat): (r: string)
    ensures r != []
    ensures forall i :: 0 <= i < |r| ==> '0' <= r[i] <= '9'
  {
    if n < 10 then [DigitChar(n)] else NatToString(n / 10) + [DigitChar(n % 10)]
  }

  /** Decimal rendering of an integer, with a leading `-` when negative. */
  function IntToString(n: int): string
  {
    if n < 0 then "-" + NatToString(-n) else NatToString(n)
  }
}

=== FILE: transcript_filter.dfy ===
/** The clean-up pass applied to raw transcriptions (`filter_transcription_output`):
    filler words are removed, runs of three or more repeated one- or two-letter words
    collapse to one, runs of whitespace shrink to a single space, and the ends are
    trimmed. The pass is modelled stage by stage on ASCII text and then characterised as
    a whole: its output is the surviving words joined by single spaces.

    Token removal is defined for any keep-test and proved once for all of them; the
    filler test is one instance. */
module TranscriptFilter {
  import opened Strings
  import Seqs

  // ---------------------------------------------------------------------------
  // Filler words
  // ---------------------------------------------------------------------------

  /** `FILLER_WORDS`, in pattern order. */
  const FillerWords: seq<string> :=
    ["uh", "um", "uhm", "umm", "uhh", "uhhh", "ah", "eh", "hmm", "hm", "mmm", "mm", "mh", "ha", "ehh"]

  /** A token the filler patterns `(?i)\bWORD\b[,.]?` erase completely: a filler word in
      any letter case, optionally followed by one comma or full stop. */
  predicate IsFiller(token: string) {
    var l := ToLower(token);
    || l in FillerWords
    || (|l| >= 2 && (l[|l| - 1] == ',' || l[|l| - 1] == '.') && l[..|l| - 1] in FillerWords)
  }

  /** The tokens filler removal keeps. */
  function NotFiller(): string -> bool {
    (t: string) => !IsFiller(t)
  }

  /** The tokens that are not fillers, in order. */
  function NonFillers(ws: seq<string>): seq<string> {
    Seqs.Filter(ws, NotFiller())
  }

  predicate NoFillers(ws: seq<string>) {
    forall i :: 0 <= i < |ws| ==> !IsFiller(ws[i])
  }

  /** Token removal: every token failing `keep` is erased, the whitespace around it
      stays. */
  function KeepTokens(s: string, keep: string -> bool): string
    decreases |s|
  {
    if s == [] then []
    else if IsSpace(s[0]) then [s[0]] + KeepTokens(s[1..], keep)
    else
      var t := TakeWord(s);
      (if keep(t) then t else []) + KeepTokens(s[|t|..], keep)
  }

  /** Filler removal. */
  function StripFillers(s: string): string {
    KeepTokens(s, NotFiller())
  }

  // ---------------------------------------------------------------------------
  // Whitespace runs
  // ---------------------------------------------------------------------------

  /** `MULTI_SPACE_PATTERN.replace_all(s, " ")`: each maximal run of two or more
      whitespace characters becomes one space; a lone whitespace character stays. */
  function MultiSpace(s: string): (r: string)
    ensures s != [] && !IsSpace(s[0]) ==> r != [] && r[0] == s[0]
    decreases |s|
  {
    if s == [] then []
    else if IsSpace(s[0]) then
      var rest := DropSpaces(s);
      (if |s| - |rest| >= 2 then " " else [s[0]]) + MultiSpace(rest)
    else
      var t := TakeWord(s);
      t + MultiSpace(s[|t|..])
  }

  // ---------------------------------------------------------------------------
  // Stutters
  // ---------------------------------------------------------------------------

  /** A stutter candidate: at most two characters, all letters (judged on the lowercase). */
  predicate Short(w: string) {
    var l := ToLower(w);
    |l| <= 2 && AllAlpha(l)
  }

  predicate Same(a: string, b: string) {
    ToLower(a) == ToLower(b)
  }

  /** The number of leading words whose lowercase is `key`. */
  function Run(ws: seq<string>, key: string): (n: nat)
    ensures n <= |ws|
    ensures forall i :: 0 <= i < n ==> ToLower(ws[i]) == key
    ensures n < |ws| ==> ToLower(ws[n]) != key
  {
    if ws == [] || ToLower(ws[0]) != key then 0 else 1 + Run(ws[1..], key)
  }

  /** How far one step of the `collapse_stutters` scan moves: past the whole run when a
      short word starts three or more equal words, otherwise one word. */
  function Skip(ws: seq<string>): (next: nat)
    requires ws != []
    ensures 1 <= next <= |ws|
  {
    var n := if Short(ws[0]) then Run(ws, ToLower(ws[0])) else 1;
    if n >= 3 then n else 1
  }

  /** The word loop of `collapse_stutters`: each step keeps the word it is at and moves
      on by `Skip`. */
  function Collapse(ws: seq<string>): (r: seq<string>)
    ensures |r| <= |ws|
    decreases |ws|
  {
    if ws == [] then [] else [ws[0]] + Collapse(ws[Skip(ws)..])
  }

  /** `collapse_stutters`: text without words comes back as it is; otherwise the
      collapsed words are joined by single spaces. */
  function CollapseStutters(s: string): string {
    var ws := Words(s);
    if ws == [] then s else Join(Collapse(ws), " ")
  }

  // ---------------------------------------------------------------------------
  // The whole pass
  // ---------------------------------------------------------------------------

  /** `filter_transcription_output`. */
  function FilterTranscriptionOutput(s: string): string {
    Trim(MultiSpace(CollapseStutters(StripFillers(s))))
  }

  // ---------------------------------------------------------------------------
  // Token removal through the split
  // ---------------------------------------------------------------------------

  /** A string that starts with a non-space splits off its first word. */
  lemma WordsOfWordStart(s: string)
    requires s != [] && !IsSpace(s[0])
    ensures Words(s) == [TakeWord(s)] + Words(s[|TakeWord(s)|..])
  {
  }

  /** Leading whitespace does not matter to the split. */
  lemma WordsDropSpaces(s: string)
    ensures Words(s) == Words(DropSpaces(s))
  {
  }

  lemma KeepTokensSpaceStart(s: string, keep: string -> bool)
    requires s != [] && IsSpace(s[0])
    ensures var r := KeepTokens(s, keep);
      r != [] && r[0] == s[0] && r[1..] == KeepTokens(s[1..], keep)
  {
    var r := KeepTokens(s, keep);
    assert r == [s[0]] + KeepTokens(s[1..], keep);
  }

  /** Token removal erases exactly the tokens that fail the test. */
  lemma {:induction false} KeepTokensWords(s: string, keep: string -> bool)
    ensures Words(KeepTokens(s, keep)) == Seqs.Filter(Words(s), keep)
    decreases |s|
  {
    if s == [] {
    } else if IsSpace(s[0]) {
      KeepTokensWords(s[1..], keep);
      KeepTokensSpaceStart(s, keep);
      WordsSpaceStart(KeepTokens(s, keep));
      WordsSpaceStart(s);
    } else {
      var t := TakeWord(s);
      var rest := s[|t|..];
      KeepTokensWords(rest, keep);
      KeepTokensWordStart(s, keep);
    }
  }

  lemma KeepTokensWordStart(s: string, keep: string -> bool)
    requires s != [] && !IsSpace(s[0])
    requires var rest := s[|TakeWord(s)|..];
      Words(KeepTokens(rest, keep)) == Seqs.Filter(Words(rest), keep)
    ensures Words(KeepTokens(s, keep)) == Seqs.Filter(Words(s), keep)
  {
    var t := TakeWord(s);
    var rest := s[|t|..];
    var kr := KeepTokens(rest, keep);
    WordsOfWordStart(s);
    Seqs.FilterCons(t, Words(rest), keep);
    if rest != [] {
      KeepTokensSpaceStart(rest, keep);
    }
    if keep(t) {
      assert KeepTokens(s, keep) == t + kr;
      WordsConsWord(t, kr);
    } else {
      assert KeepTokens(s, keep) == kr;
    }
  }

  /** Filler removal erases exactly the filler tokens. */
  lemma StripFillersWords(s: string)
    ensures Words(StripFillers(s)) == NonFillers(Words(s))
  {
    KeepTokensWords(s, NotFiller());
  }

  // ---------------------------------------------------------------------------
  // Whitespace runs through the split
  // ---------------------------------------------------------------------------

  /** Shrinking whitespace runs does not change the words. */
  lemma {:induction false} MultiSpaceWords(s: string)
    ensures Words(MultiSpace(s)) == Words(s)
    decreases |s|
  {
    if s == [] {
    } else if IsSpace(s[0]) {
      var rest := DropSpaces(s);
      var c := if |s| - |rest| >= 2 then ' ' else s[0];
      MultiSpaceWords(rest);
      assert MultiSpace(s) == [c] + MultiSpace(rest);
      WordsSpacePrefix(c, MultiSpace(rest));
      WordsDropSpaces(s);
      WordsDropSpaces(rest);
    } else {
      var t := TakeWord(s);
      var rest := s[|t|..];
      WordsOfWordStart(s);
      MultiSpaceWords(rest);
      var mr := MultiSpace(rest);
      assert mr == [] || IsSpace(mr[0]) by {
        if rest != [] {
          assert IsSpace(rest[0]);
          MultiSpaceStartsWithSpace(rest);
        }
      }
      WordsConsWord(t, mr);
    }
  }

  lemma MultiSpaceStartsWithSpace(s: string)
    requires s != [] && IsSpace(s[0])
    ensures MultiSpace(s) != [] && IsSpace(MultiSpace(s)[0])
  {
  }

  /** No two whitespace characters are left side by side. */
  lemma {:induction false} MultiSpaceNoDoubleSpace(s: string)
    ensures NoDoubleSpace(MultiSpace(s))
    decreases |s|
  {
    if s == [] {
    } else if IsSpace(s[0]) {
      var rest := DropSpaces(s);
      var c := if |s| - |rest| >= 2 then ' ' else s[0];
      MultiSpaceNoDoubleSpace(rest);
      NoDoubleSpaceConcat([c], MultiSpace(rest));
    } else {
      var t := TakeWord(s);
      var rest := s[|t|..];
      MultiSpaceNoDoubleSpace(rest);
      assert NoDoubleSpace(t);
      NoDoubleSpaceConcat(t, MultiSpace(rest));
    }
  }

  /** Text without doubled whitespace passes through unchanged. */
  lemma {:induction false} MultiSpaceKeepsSingleSpaced(s: string)
    requires NoDoubleSpace(s)
    ensures MultiSpace(s) == s
    decreases |s|
  {
    if s == [] {
    } else if IsSpace(s[0]) {
      var rest := DropSpaces(s);
      if |s| > 1 {
        assert !IsSpace(s[1]);
      }
      assert rest == s[1..];
      NoDoubleSpaceSuffix(s, 1);
      MultiSpaceKeepsSingleSpaced(rest);
    } else {
      var t := TakeWord(s);
      NoDoubleSpaceSuffix(s, |t|);
      MultiSpaceKeepsSingleSpaced(s[|t|..]);
      assert s == t + s[|t|..];
    }
  }

  lemma NoDoubleSpaceSuffix(s: string, k: nat)
    requires NoDoubleSpace(s) && k <= |s|
    ensures NoDoubleSpace(s[k..])
  {
    forall i | 0 <= i < |s[k..]| - 1
      ensures !(IsSpace(s[k..][i]) && IsSpace(s[k..][i + 1]))
    {
      assert s[k..][i] == s[k + i] && s[k..][i + 1] == s[k + i + 1];
    }
  }

  lemma NoDoubleSpaceConcat(a: string, b: string)
    requires NoDoubleSpace(a) && NoDoubleSpace(b)
    requires a == [] || b == [] || !(IsSpace(a[|a| - 1]) && IsSpace(b[0]))
    ensures NoDoubleSpace(a + b)
  {
    var c := a + b;
    forall i | 0 <= i < |c| - 1
      ensures !(IsSpace(c[i]) && IsSpace(c[i + 1]))
    {
      if i + 1 < |a| {
        assert c[i] == a[i] && c[i + 1] == a[i + 1];
      } else if i + 1 == |a| {
        assert c[i] == a[|a| - 1] && c[i + 1] == b[0];
      } else {
        assert c[i] == b[i - |a|] && c[i + 1] == b[i - |a| + 1];
      }
    }
  }

  // ---------------------------------------------------------------------------
  // Stutter collapse
  // ---------------------------------------------------------------------------

  /** `Collapse` taken apart: it keeps the first word and continues after the skip. */
  lemma CollapseCons(ws: seq<string>)
    requires ws != []
    ensures var r := Collapse(ws);
      r != [] && r[0] == ws[0] && r[1..] == Collapse(ws[Skip(ws)..])
  {
    var r := Collapse(ws);
    assert r == [ws[0]] + Collapse(ws[Skip(ws)..]);
  }

  /** Every kept word is one of the input words. */
  lemma {:induction false} CollapseIndex(ws: seq<string>, i: nat) returns (j: nat)
    requires i < |Collapse(ws)|
    ensures j < |ws| && Collapse(ws)[i] == ws[j]
    decreases |ws|
  {
    CollapseCons(ws);
    if i == 0 {
      j := 0;
    } else {
      var k := Skip(ws);
      var j' := CollapseIndex(ws[k..], i - 1);
      j := k + j';
    }
  }

  lemma CollapseMembers(ws: seq<string>)
    ensures forall i :: 0 <= i < |Collapse(ws)| ==> Collapse(ws)[i] in ws
  {
    forall i | 0 <= i < |Collapse(ws)|
      ensures Collapse(ws)[i] in ws
    {
      var j := CollapseIndex(ws, i);
    }
  }

  /** Short depends only on the lowercase. */
  lemma ShortOfSame(a: string, b: string)
    requires Short(a) && Same(a, b)
    ensures Short(b)
  {
  }

  lemma RunShift(ws: seq<string>, key: string)
    requires ws != [] && ToLower(ws[0]) == key
    ensures Run(ws, key) == 1 + Run(ws[1..], key)
  {
  }

  /** Three case-insensitively equal short words starting at `i`. */
  predicate Triple(ws: seq<string>, i: nat)
    requires i + 2 < |ws|
  {
    Short(ws[i]) && Same(ws[i], ws[i + 1]) && Same(ws[i], ws[i + 2])
  }

  /** No three consecutive case-insensitively equal short words. */
  predicate NoTriple(ws: seq<string>) {
    forall i :: 0 <= i < |ws| - 2 ==> !Triple(ws, i)
  }

  /** After a short word that starts a pair (and not a triple), the scan keeps the second
      word and then a word of another kind. */
  lemma PairThenOther(ws: seq<string>)
    requires |ws| >= 2 && Short(ws[0]) && Run(ws, ToLower(ws[0])) == 2
    ensures Skip(ws) == 1
    ensures var tail := ws[1..]; Skip(tail) == 1 && Collapse(tail)[1..] == Collapse(ws[2..])
  {
    var key := ToLower(ws[0]);
    var tail := ws[1..];
    RunShift(ws, key);
    ShortOfSame(ws[0], ws[1]);
    assert tail[0] == ws[1];
    CollapseCons(tail);
    assert tail[1..] == ws[2..];
  }

  /** The first three kept words are never a triple. */
  lemma CollapseHeadNoTriple(ws: seq<string>)
    requires |Collapse(ws)| >= 3
    ensures !Triple(Collapse(ws), 0)
  {
    var r := Collapse(ws);
    var k := Skip(ws);
    var rest := ws[k..];
    CollapseCons(ws);
    CollapseCons(rest);
    assert r[1] == rest[0] && r[1] == ws[k];
    if Short(ws[0]) {
      var key := ToLower(ws[0]);
      var n := Run(ws, key);
      if n == 2 {
        PairThenOther(ws);
        var cr := Collapse(rest);
        CollapseCons(ws[2..]);
        assert r[2] == cr[1] && cr[1] == Collapse(ws[2..])[0] && Collapse(ws[2..])[0] == ws[2];
      }
    }
  }

  /** Collapsing leaves no run of three. */
  lemma {:induction false} CollapseNoTriple(ws: seq<string>)
    ensures NoTriple(Collapse(ws))
    decreases |ws|
  {
    if ws != [] {
      var r := Collapse(ws);
      var cr := Collapse(ws[Skip(ws)..]);
      CollapseNoTriple(ws[Skip(ws)..]);
      CollapseCons(ws);
      forall i | 0 <= i < |r| - 2
        ensures !Triple(r, i)
      {
        if i == 0 {
          CollapseHeadNoTriple(ws);
        } else {
          assert r[i] == cr[i - 1] && r[i + 1] == cr[i] && r[i + 2] == cr[i + 1];
          assert !Triple(cr, i - 1);
        }
      }
    }
  }

  /** When the first word does not start a run of three, it is kept and the scan moves
      on by one word. */
  lemma RunBelowThree(ws: seq<string>)
    requires NoTriple(ws) && ws != [] && Short(ws[0])
    ensures Run(ws, ToLower(ws[0])) < 3
  {
    var n := Run(ws, ToLower(ws[0]));
    if n >= 3 {
      assert Triple(ws, 0);
    }
  }

  lemma NoTripleTail(ws: seq<string>)
    requires NoTriple(ws) && ws != []
    ensures NoTriple(ws[1..])
  {
    var t := ws[1..];
    forall i | 0 <= i < |t| - 2
      ensures !Triple(t, i)
    {
      assert t[i] == ws[i + 1] && t[i + 1] == ws[i + 2] && t[i + 2] == ws[i + 3];
      assert !Triple(ws, i + 1);
    }
  }

  /** A word list without runs of three is left alone. */
  lemma {:induction false} CollapseKeepsNoTriple(ws: seq<string>)
    requires NoTriple(ws)
    ensures Collapse(ws) == ws
    decreases |ws|
  {
    if ws != [] {
      if Short(ws[0]) {
        RunBelowThree(ws);
      }
      NoTripleTail(ws);
      CollapseKeepsNoTriple(ws[1..]);
      CollapseCons(ws);
    }
  }

  /** Collapsing twice is collapsing once. */
  lemma CollapseIdempotent(ws: seq<string>)
    ensures Collapse(Collapse(ws)) == Collapse(ws)
  {
    CollapseNoTriple(ws);
    CollapseKeepsNoTriple(Collapse(ws));
  }

  /** The test that keeps the words that are not stutter candidates. */
  function NotShort(): string -> bool {
    (w: string) => !Short(w)
  }

  /** A prefix of words that all fail the test contributes nothing to the filter. */
  lemma {:induction false} FilterSkipsRejected(ws: seq<string>, k: nat, p: string -> bool)
    requires k <= |ws|
    requires forall i :: 0 <= i < k ==> !p(ws[i])
    ensures Seqs.Filter(ws, p) == Seqs.Filter(ws[k..], p)
    decreases k
  {
    if k > 0 {
      FilterSkipsRejected(ws[1..], k - 1, p);
      assert ws[1..][k - 1..] == ws[k..];
    }
  }

  /** Only stutter candidates are ever dropped: every other word survives, in order. */
  lemma {:induction false} CollapseKeepsLongWords(ws: seq<string>)
    ensures Seqs.Filter(Collapse(ws), NotShort()) == Seqs.Filter(ws, NotShort())
    decreases |ws|
  {
    if ws != [] {
      var p := NotShort();
      var k := Skip(ws);
      CollapseKeepsLongWords(ws[k..]);
      CollapseCons(ws);
      if k > 1 {
        forall i | 0 <= i < k
          ensures !p(ws[i])
        {
          ShortOfSame(ws[0], ws[i]);
        }
        FilterSkipsRejected(ws, k, p);
      }
    }
  }

  /** A maximal run of three or more equal short words collapses to its first word; a
      run of one or two is kept whole. */
  lemma CollapseRun(run: seq<string>, rest: seq<string>)
    requires run != [] && Short(run[0])
    requires forall i :: 0 <= i < |run| ==> Same(run[i], run[0])
    requires rest == [] || !Same(rest[0], run[0])
    ensures Collapse(run + rest) == (if |run| >= 3 then [run[0]] else run) + Collapse(rest)
  {
    var ws := run + rest;
    RunOfPrefix(run, rest, ToLower(run[0]));
    assert ws[0] == run[0] && ws[|run|..] == rest;
    if |run| == 2 {
      CollapsePairAt(ws);
      assert ws[..2] == run && ws[2..] == rest;
    } else {
      CollapseHead(ws);
      if |run| == 1 {
        assert run == [run[0]];
      }
    }
  }

  lemma CollapseHead(ws: seq<string>)
    requires ws != []
    ensures Collapse(ws) == [ws[0]] + Collapse(ws[Skip(ws)..])
  {
  }

  /** A pair that is not a triple is kept whole. */
  lemma CollapsePairAt(ws: seq<string>)
    requires |ws| >= 2 && Short(ws[0]) && Run(ws, ToLower(ws[0])) == 2
    ensures Collapse(ws) == ws[..2] + Collapse(ws[2..])
  {
    PairSkips(ws);
    var tail := ws[1..];
    var c := Collapse(ws[2..]);
    CollapseHead(ws);
    CollapseHead(tail);
    assert tail[0] == ws[1] && tail[1..] == ws[2..];
    assert Collapse(ws) == [ws[0]] + ([ws[1]] + c);
    PrependTwo(ws, c);
  }

  lemma PairSkips(ws: seq<string>)
    requires |ws| >= 2 && Short(ws[0]) && Run(ws, ToLower(ws[0])) == 2
    ensures Skip(ws) == 1 && Skip(ws[1..]) == 1
  {
    RunShift(ws, ToLower(ws[0]));
    ShortOfSame(ws[0], ws[1]);
    assert ws[1..][0] == ws[1];
  }

  lemma PrependTwo<T>(ws: seq<T>, c: seq<T>)
    requires |ws| >= 2
    ensures [ws[0]] + ([ws[1]] + c) == ws[..2] + c
  {
  }

  lemma {:induction false} RunOfPrefix(run: seq<string>, rest: seq<string>, key: string)
    requires forall i :: 0 <= i < |run| ==> ToLower(run[i]) == key
    requires rest == [] || ToLower(rest[0]) != key
    ensures Run(run + rest, key) == |run|
    decreases |run|
  {
    if run != [] {
      assert (run + rest)[1..] == run[1..] + rest;
      RunOfPrefix(run[1..], rest, key);
    } else {
      assert run + rest == rest;
    }
  }

  // ---------------------------------------------------------------------------
  // The whole pass
  // ---------------------------------------------------------------------------

  lemma CollapseStuttersWords(s: string)
    ensures Words(CollapseStutters(s)) == Collapse(Words(s))
  {
    var ws := Words(s);
    if ws != [] {
      CollapsedWordsAreWords(ws);
      WordsOfJoin(Collapse(ws));
    }
  }

  lemma CollapsedWordsAreWords(ws: seq<string>)
    requires forall i :: 0 <= i < |ws| ==> IsWord(ws[i])
    ensures forall i :: 0 <= i < |Collapse(ws)| ==> IsWord(Collapse(ws)[i])
  {
    var c := Collapse(ws);
    forall i | 0 <= i < |c| ensures IsWord(c[i]) {
      var j := CollapseIndex(ws, i);
    }
  }

  /** The whole pass, characterised: the non-filler words, stutter-collapsed, joined by
      single spaces. */
  lemma FilterIsJoinOfSurvivors(s: string)
    ensures FilterTranscriptionOutput(s) == Join(Collapse(NonFillers(Words(s))), " ")
  {
    var a := StripFillers(s);
    StripFillersWords(s);
    if Words(a) == [] {
      FilterOfWordless(a);
    } else {
      FilterOfWordy(a);
    }
  }

  lemma FilterOfWordless(a: string)
    requires Words(a) == []
    ensures Trim(MultiSpace(CollapseStutters(a))) == []
  {
    var m := MultiSpace(a);
    assert CollapseStutters(a) == a;
    MultiSpaceWords(a);
    WordsOfAllSpace(m);
    TrimOfAllSpace(m);
  }

  lemma FilterOfWordy(a: string)
    requires Words(a) != []
    ensures Trim(MultiSpace(CollapseStutters(a))) == Join(Collapse(Words(a)), " ")
  {
    var c := Collapse(Words(a));
    var b := Join(c, " ");
    assert CollapseStutters(a) == b;
    CollapsedWordsAreWords(Words(a));
    JoinOfWordsShape(c);
    assert NoDoubleSpace(b);
    MultiSpaceKeepsSingleSpaced(b);
    assert MultiSpace(b) == b;
    TrimOfTrimmed(b);
  }

  /** The output never starts or ends with whitespace and never holds two whitespace
      characters in a row. */
  lemma FilterOutputShape(s: string)
    ensures var r := FilterTranscriptionOutput(s);
      (r == [] || (!IsSpace(r[0]) && !IsSpace(r[|r| - 1]))) && NoDoubleSpace(r)
  {
    FilterIsJoinOfSurvivors(s);
    var ws := NonFillers(Words(s));
    NonFillerWordsAreWords(Words(s));
    CollapsedWordsAreWords(ws);
    JoinOfWordsShape(Collapse(ws));
  }

  lemma NonFillerWordsAreWords(ws: seq<string>)
    requires forall i :: 0 <= i < |ws| ==> IsWord(ws[i])
    ensures var n := NonFillers(ws); forall i :: 0 <= i < |n| ==> IsWord(n[i])
  {
    var n := NonFillers(ws);
    Seqs.FilterMembers(ws, NotFiller());
    forall i | 0 <= i < |n| ensures IsWord(n[i]) {
      assert n[i] in ws;
    }
  }

  /** Text that is already clean (words without fillers or stutter runs, joined by single
      spaces) comes out unchanged. */
  lemma FilterKeepsCleanText(ws: seq<string>)
    requires forall i :: 0 <= i < |ws| ==> IsWord(ws[i])
    requires NoFillers(ws)
    requires NoTriple(ws)
    ensures FilterTranscriptionOutput(Join(ws, " ")) == Join(ws, " ")
  {
    WordsOfJoin(ws);
    FilterIsJoinOfSurvivors(Join(ws, " "));
    Seqs.FilterAll(ws, NotFiller());
    CollapseKeepsNoTriple(ws);
  }

  /** The kept words carry no filler. */
  lemma SurvivorsAreClean(s: string)
    ensures var c := Collapse(NonFillers(Words(s)));
      forall i :: 0 <= i < |c| ==> IsWord(c[i]) && !IsFiller(c[i])
  {
    var n := NonFillers(Words(s));
    var c := Collapse(n);
    NonFillerWordsAreWords(Words(s));
    forall i | 0 <= i < |c| ensures IsWord(c[i]) && !IsFiller(c[i]) {
      var j := CollapseIndex(n, i);
      assert NotFiller()(n[j]);
    }
  }

  /** Filtering twice is filtering once. */
  lemma FilterIdempotent(s: string)
    ensures FilterTranscriptionOutput(FilterTranscriptionOutput(s)) == FilterTranscriptionOutput(s)
  {
    var c := Collapse(NonFillers(Words(s)));
    FilterIsJoinOfSurvivors(s);
    SurvivorsAreClean(s);
    CollapseNoTriple(NonFillers(Words(s)));
    FilterKeepsCleanText(c);
  }

  // ---------------------------------------------------------------------------
  // The stutter cases of the unit tests, on the word list
  // ---------------------------------------------------------------------------

  /** A short word, then a run of `n >= 3` copies of another short word, then a long word:
      the run collapses and the single words stay. */
  lemma CollapseSingleThenRun(a: string, b: string, c: string, n: nat)
    requires Short(a) && Short(b) && !Same(b, a) && !Short(c) && n >= 3
    ensures Collapse([a] + seq(n, _ => b) + [c]) == [a, b, c]
  {
    var run := seq(n, _ => b);
    assert [a] + run + [c] == [a] + (run + [c]);
    RunThenLong(b, c, n);
    CollapseRun([a], run + [c]);
  }

  lemma RunThenLong(b: string, c: string, n: nat)
    requires Short(b) && !Short(c) && n >= 3
    ensures Collapse(seq(n, _ => b) + [c]) == [b, c]
  {
    CollapseLong(c, []);
    assert [c] + [] == [c];
    CollapseRun(seq(n, _ => b), [c]);
  }

  /** "w wh wh wh wh wh wh wh wh wh why": the nine repetitions of "wh" collapse. */
  lemma StutterCollapse()
    ensures Collapse(["w", "wh", "wh", "wh", "wh", "wh", "wh", "wh", "wh", "wh", "why"]) == ["w", "wh", "why"]
  {
    assert ToLower("w") == "w" && ToLower("wh") == "wh" && ToLower("why") == "why";
    ElevenWords("w", "wh", "why");
    CollapseSingleThenRun("w", "wh", "why", 9);
  }

  lemma ElevenWords<T>(a: T, b: T, c: T)
    ensures [a, b, b, b, b, b, b, b, b, b, c] == [a] + seq(9, _ => b) + [c]
  {
  }

  /** A run of four equal short words keeps its first word. */
  lemma CollapseFour(a: string, rest: seq<string>)
    requires Short(a) && (rest == [] || !Same(rest[0], a))
    ensures Collapse([a, a, a, a] + rest) == [a] + Collapse(rest)
  {
    CollapseRun([a, a, a, a], rest);
  }

  /** A word that is not a stutter candidate is kept and the scan moves on by one. */
  lemma CollapseLong(b: string, rest: seq<string>)
    requires !Short(b)
    ensures Collapse([b] + rest) == [b] + Collapse(rest)
  {
    CollapseHead([b] + rest);
    assert ([b] + rest)[1..] == rest;
  }

  /** Two runs of four short words around a longer word collapse to three words. */
  lemma CollapseTwoRuns(a: string, b: string, c: string)
    requires Short(a) && !Short(b) && Short(c) && !Same(b, a)
    ensures Collapse([a, a, a, a, b, c, c, c, c]) == [a, b, c]
  {
    var c4 := [c, c, c, c];
    NineWords(a, b, c);
    CollapseFour(c, []);
    assert c4 + [] == c4;
    CollapseLong(b, c4);
    CollapseFour(a, [b] + c4);
  }

  lemma NineWords<T>(a: T, b: T, c: T)
    ensures [a, a, a, a, b, c, c, c, c] == [a, a, a, a] + ([b] + [c, c, c, c])
  {
  }

  /** "I I I I think so so so so": both runs of four collapse. */
  lemma StutterShortWords()
    ensures Collapse(["I", "I", "I", "I", "think", "so", "so", "so", "so"]) == ["I", "think", "so"]
  {
    assert ToLower("I") == "i" && ToLower("think") == "think" && ToLower("so") == "so";
    CollapseTwoRuns("I", "think", "so");
  }

  /** "No NO no NO no": one run, compared without regard to case, kept as its first word. */
  lemma StutterMixedCase()
    ensures Collapse(["No", "NO", "no", "NO", "no"]) == ["No"]
  {
    var run := ["No", "NO", "no", "NO", "no"];
    assert ToLower("No") == "no" && ToLower("NO") == "no" && ToLower("no") == "no";
    CollapseRun(run, []);
    assert run + [] == run;
  }

  /** A pair of short words followed by two other words is kept whole. */
  lemma CollapseKeepsPairOf(a: string, b: string, c: string)
    requires Short(a) && Short(b) && !Same(b, a) && !Same(c, b)
    ensures Collapse([a, a, b, c]) == [a, a, b, c]
  {
    CollapseRun([b], [c]);
    CollapseHead([c]);
    assert Collapse([b, c]) == [b, c] by {
      assert [b] + [c] == [b, c];
    }
    CollapseRun([a, a], [b, c]);
    assert [a, a] + [b, c] == [a, a, b, c];
  }

  /** "no no is fine": a pair is not a stutter. */
  lemma StutterKeepsPair()
    ensures Collapse(["no", "no", "is", "fine"]) == ["no", "no", "is", "fine"]
  {
    assert ToLower("no") == "no" && ToLower("is") == "is" && ToLower("fine") == "fine";
    CollapseKeepsPairOf("no", "is", "fine");
  }
}

=== FILE: transcripts.dfy ===
/** The transcripts page: the history newest first, a search box, per-entry delete and
    copy, and the entries grouped under a date label.

    The label of an entry ("Today", "Yesterday" or the long date) depends on the local
    calendar, so the grouping takes it as a function of the entry. */
module Transcripts {
  import opened Results
  import opened Strings
  import opened History
  import Seqs

  /** `loadHistory`: a successful reply replaces the history, sorted newest first; an
      error or a rejection leaves it as it was. */
  function LoadHistory(history: seq<Entry>, reply: Reply<seq<Entry>>): (r: seq<Entry>)
    ensures !reply.Ok? ==> r == history
    ensures reply.Ok? ==>
      && multiset(r) == multiset(reply.data)
      && (forall i, j :: 0 <= i < j < |r| ==> r[i].timestamp >= r[j].timestamp)
  {
    if reply.Ok? then
      SortNewestFirstSpec(reply.data);
      SortNewestFirst(reply.data)
    else history
  }

  /** Polling again with the same reply shows the same list. */
  lemma LoadHistoryStable(history: seq<Entry>, reply: Reply<seq<Entry>>)
    ensures LoadHistory(LoadHistory(history, reply), reply) == LoadHistory(history, reply)
  {
  }

  // ---------------------------------------------------------------------------
  // Search
  // ---------------------------------------------------------------------------

  /** The search test: the query, lower-cased, occurs in the lower-cased raw
      transcription or in the lower-cased post-processed text when there is one. */
  predicate Matches(query: string, e: Entry) {
    || Contains(ToLower(e.transcription), ToLower(query))
    || (Truthy(e.postProcessed) && Contains(ToLower(e.postProcessed.value), ToLower(query)))
  }

  function MatchesQuery(query: string): Entry -> bool {
    (e: Entry) => Matches(query, e)
  }

  /** `filteredHistory`. */
  function FilteredHistory(history: seq<Entry>, query: string): (r: seq<Entry>)
    ensures |r| <= |history|
    ensures forall i :: 0 <= i < |r| ==> Matches(query, r[i])
  {
    Seqs.Filter(history, MatchesQuery(query))
  }

  /** An entry is listed exactly when it is in the history and matches, and the list keeps
      the newest-first order of the history. */
  lemma FilteredHistorySpec(history: seq<Entry>, query: string)
    ensures forall e :: e in FilteredHistory(history, query) <==> e in history && Matches(query, e)
    ensures Seqs.Subsequence(FilteredHistory(history, query), history)
  {
    Seqs.FilterMembers(history, MatchesQuery(query));
    Seqs.FilterIsSubsequence(history, MatchesQuery(query));
  }

  /** An empty search box lists the whole history. */
  lemma EmptyQueryListsAll(history: seq<Entry>)
    ensures FilteredHistory(history, "") == history
  {
    forall i | 0 <= i < |history|
      ensures Matches("", history[i])
    {
      ContainsEmpty(ToLower(history[i].transcription));
    }
    Seqs.FilterAll(history, MatchesQuery(""));
  }

  /** An entry whose shown text contains the query is found. */
  lemma ShownTextIsSearched(query: string, e: Entry)
    requires Contains(ToLower(DisplayText(e)), ToLower(query))
    ensures Matches(query, e)
  {
  }

  /** The search also looks at the raw transcription when the post-processed text is the
      one shown, so an entry can be found by words the page does not show. */
  lemma HiddenTextIsSearched()
    ensures var e := Entry(1, 0, "hello there", Some("Hi"));
      && Matches("hello", e)
      && !Contains(ToLower(DisplayText(e)), ToLower("hello"))
  {
    var e := Entry(1, 0, "hello there", Some("Hi"));
    assert "hello" <= ToLower(e.transcription)[0..];
    assert ToLower("hello") == "hello";
    assert ToLower("Hi") == "hi";
  }

  // ---------------------------------------------------------------------------
  // Delete
  // ---------------------------------------------------------------------------

  /** The notification a delete shows. */
  datatype DeleteToast = Deleted | DeleteFailed | Silent

  function KeepsOtherIds(id: int): Entry -> bool {
    (e: Entry) => e.id != id
  }

  /** `handleDelete`: once the back end confirms, every entry with that id leaves the
      list and "Transcript deleted" is shown; a rejected call shows the failure and an
      error status shows nothing, and in both cases the list stays. */
  function HandleDelete(history: seq<Entry>, id: int, reply: Reply<()>): (r: (seq<Entry>, DeleteToast))
    ensures reply.Ok? <==> r.1 == Deleted
    ensures reply.Thrown? <==> r.1 == DeleteFailed
    ensures !reply.Ok? ==> r.0 == history
  {
    match reply
    case Ok(_) => (Seqs.Filter(history, KeepsOtherIds(id)), Deleted)
    case Err(_) => (history, Silent)
    case Thrown(_) => (history, DeleteFailed)
  }

  /** After a confirmed delete no entry has the id, every other entry is still listed,
      and the list keeps its order. */
  lemma DeleteSpec(history: seq<Entry>, id: int)
    ensures var r := HandleDelete(history, id, Ok(())).0;
      && (forall e :: e in r ==> e.id != id)
      && (forall e :: e in history && e.id != id ==> e in r)
      && Seqs.Subsequence(r, history)
  {
    Seqs.FilterMembers(history, KeepsOtherIds(id));
    Seqs.FilterIsSubsequence(history, KeepsOtherIds(id));
  }

  /** Deleting the same id twice is deleting it once. */
  lemma DeleteIdempotent(history: seq<Entry>, id: int)
    ensures var once := HandleDelete(history, id, Ok(())).0;
      HandleDelete(once, id, Ok(())).0 == once
  {
    Seqs.FilterIdempotent(history, KeepsOtherIds(id));
  }

  /** Deleting leaves the search result as it would be had the entry never been there:
      the two filters commute. */
  lemma DeleteCommutesWithSearch(history: seq<Entry>, id: int, query: string)
    ensures FilteredHistory(HandleDelete(history, id, Ok(())).0, query)
      == HandleDelete(FilteredHistory(history, query), id, Ok(())).0
  {
    Seqs.FilterCommutes(history, KeepsOtherIds(id), MatchesQuery(query));
  }

  // ---------------------------------------------------------------------------
  // Grouping by date label
  // ---------------------------------------------------------------------------

  /** A label and the entries under it, in list order. */
  type Groups = seq<(string, seq<Entry>)>

  /** The index of the group with `label`, if any. */
  function FindGroup(groups: Groups, dateLabel: string): (r: Option<nat>)
    ensures r.Some? ==> r.value < |groups| && groups[r.value].0 == dateLabel
    ensures r.None? ==> forall i :: 0 <= i < |groups| ==> groups[i].0 != dateLabel
  {
    if groups == [] then None
    else if groups[|groups| - 1].0 == dateLabel then Some(|groups| - 1)
    else FindGroup(groups[..|groups| - 1], dateLabel)
  }

  /** One step of the `reduce`: push onto the label's group, creating it at the end. */
  function AddToGroup(groups: Groups, dateLabel: string, e: Entry): Groups {
    match FindGroup(groups, dateLabel)
    case Some(k) => groups[k := (dateLabel, groups[k].1 + [e])]
    case None => groups + [(dateLabel, [e])]
  }

  /** `groupedHistory` as `Object.entries` lists it: groups in the order their labels
      first appear. */
  function GroupByLabel(items: seq<Entry>, labelOf: Entry -> string): Groups {
    if items == [] then []
    else AddToGroup(GroupByLabel(items[..|items| - 1], labelOf), labelOf(items[|items| - 1]), items[|items| - 1])
  }

  function HasLabel(labelOf: Entry -> string, dateLabel: string): Entry -> bool {
    (e: Entry) => labelOf(e) == dateLabel
  }

  /** Some group carries `dateLabel`. */
  predicate HasGroup(groups: Groups, dateLabel: string) {
    exists i :: 0 <= i < |groups| && groups[i].0 == dateLabel
  }

  /** Some item is labelled `dateLabel`. */
  predicate Labelled(items: seq<Entry>, labelOf: Entry -> string, dateLabel: string) {
    exists k :: 0 <= k < |items| && labelOf(items[k]) == dateLabel
  }

  predicate DistinctLabels(groups: Groups) {
    forall i, j :: 0 <= i < j < |groups| ==> groups[i].0 != groups[j].0
  }

  lemma AddToGroupDistinct(groups: Groups, dateLabel: string, e: Entry)
    requires DistinctLabels(groups)
    ensures DistinctLabels(AddToGroup(groups, dateLabel, e))
  {
  }

  /** What one step of the `reduce` does to the groups: the label's group receives the
      item at its end, or a new group is appended; every other group stays. */
  lemma AddToGroupShape(groups: Groups, dateLabel: string, e: Entry)
    requires DistinctLabels(groups)
    ensures var g := AddToGroup(groups, dateLabel, e);
      && (HasGroup(groups, dateLabel) ==> |g| == |groups|)
      && (!HasGroup(groups, dateLabel) ==> |g| == |groups| + 1 && g[|groups|] == (dateLabel, [e]))
      && (forall i :: 0 <= i < |groups| ==> g[i].0 == groups[i].0)
      && (forall i :: 0 <= i < |groups| && groups[i].0 != dateLabel ==> g[i].1 == groups[i].1)
      && (forall i :: 0 <= i < |groups| && groups[i].0 == dateLabel ==> g[i].1 == groups[i].1 + [e])
  {
  }

  /** The labels present after one step: the old ones and the new item's. */
  lemma AddToGroupHas(groups: Groups, dateLabel: string, e: Entry, other: string)
    requires DistinctLabels(groups)
    ensures HasGroup(AddToGroup(groups, dateLabel, e), other)
      <==> HasGroup(groups, other) || other == dateLabel
  {
    var g := AddToGroup(groups, dateLabel, e);
    AddToGroupShape(groups, dateLabel, e);
    if HasGroup(groups, other) {
      var i :| 0 <= i < |groups| && groups[i].0 == other;
      assert g[i].0 == other;
    }
    if other == dateLabel && !HasGroup(groups, other) {
      assert g[|groups|].0 == other;
    }
    if HasGroup(g, other) && other != dateLabel {
      var i :| 0 <= i < |g| && g[i].0 == other;
      assert i < |groups| && groups[i].0 == other;
    }
  }

  lemma LabelledSnoc(items: seq<Entry>, labelOf: Entry -> string, dateLabel: string)
    requires items != []
    ensures Labelled(items, labelOf, dateLabel)
      <==> Labelled(items[..|items| - 1], labelOf, dateLabel) || labelOf(items[|items| - 1]) == dateLabel
  {
    var init := items[..|items| - 1];
    if Labelled(init, labelOf, dateLabel) {
      var k :| 0 <= k < |init| && labelOf(init[k]) == dateLabel;
      assert items[k] == init[k];
    }
    if Labelled(items, labelOf, dateLabel) {
      var k :| 0 <= k < |items| && labelOf(items[k]) == dateLabel;
      if k < |init| {
        assert init[k] == items[k];
      }
    }
  }

  /** Each label has one group. */
  lemma {:induction false} GroupLabelsDistinct(items: seq<Entry>, labelOf: Entry -> string)
    ensures DistinctLabels(GroupByLabel(items, labelOf))
  {
    if items != [] {
      var init := items[..|items| - 1];
      var e := items[|items| - 1];
      GroupLabelsDistinct(init, labelOf);
      AddToGroupDistinct(GroupByLabel(init, labelOf), labelOf(e), e);
    }
  }

  /** A label has a group exactly when some item carries it. */
  lemma {:induction false} GroupLabelSet(items: seq<Entry>, labelOf: Entry -> string, dateLabel: string)
    ensures HasGroup(GroupByLabel(items, labelOf), dateLabel) <==> Labelled(items, labelOf, dateLabel)
  {
    if items != [] {
      var init := items[..|items| - 1];
      var e := items[|items| - 1];
      GroupLabelSet(init, labelOf, dateLabel);
      GroupLabelsDistinct(init, labelOf);
      AddToGroupHas(GroupByLabel(init, labelOf), labelOf(e), e, dateLabel);
      LabelledSnoc(items, labelOf, dateLabel);
    }
  }

  /** Each group holds exactly the items with its label, in list order. */
  lemma {:induction false} GroupContents(items: seq<Entry>, labelOf: Entry -> string, i: nat)
    requires i < |GroupByLabel(items, labelOf)|
    ensures var g := GroupByLabel(items, labelOf);
      g[i].1 == Seqs.Filter(items, HasLabel(labelOf, g[i].0))
  {
    var init := items[..|items| - 1];
    var e := items[|items| - 1];
    assert items == init + [e];
    var g0 := GroupByLabel(init, labelOf);
    GroupLabelsDistinct(init, labelOf);
    AddToGroupShape(g0, labelOf(e), e);
    if i < |g0| {
      GroupContents(init, labelOf, i);
      OldGroupContents(g0, e, init, labelOf, i);
    } else {
      GroupLabelSet(init, labelOf, labelOf(e));
      NewGroupContents(g0, e, init, labelOf);
    }
  }

  /** A group that already existed receives the new item exactly when it carries the
      item's label. */
  lemma OldGroupContents(groups: Groups, e: Entry, items: seq<Entry>, labelOf: Entry -> string, i: nat)
    requires DistinctLabels(groups) && i < |groups|
    requires groups[i].1 == Seqs.Filter(items, HasLabel(labelOf, groups[i].0))
    ensures var g := AddToGroup(groups, labelOf(e), e);
      i < |g| && g[i].1 == Seqs.Filter(items + [e], HasLabel(labelOf, g[i].0))
  {
    var l := groups[i].0;
    AddToGroupShape(groups, labelOf(e), e);
    Seqs.FilterSnoc(items, e, HasLabel(labelOf, l));
  }

  /** A new group holds just the item that opened it. */
  lemma NewGroupContents(groups: Groups, e: Entry, items: seq<Entry>, labelOf: Entry -> string)
    requires DistinctLabels(groups)
    requires !HasGroup(groups, labelOf(e)) && !Labelled(items, labelOf, labelOf(e))
    ensures var g := AddToGroup(groups, labelOf(e), e);
      |groups| < |g| && g[|groups|].1 == Seqs.Filter(items + [e], HasLabel(labelOf, g[|groups|].0))
  {
    AddToGroupShape(groups, labelOf(e), e);
    NoGroupNoItem(items, labelOf, labelOf(e));
    Seqs.FilterSnoc(items, e, HasLabel(labelOf, labelOf(e)));
  }

  /** A label no item carries selects nothing. */
  lemma NoGroupNoItem(items: seq<Entry>, labelOf: Entry -> string, dateLabel: string)
    requires !Labelled(items, labelOf, dateLabel)
    ensures Seqs.Filter(items, HasLabel(labelOf, dateLabel)) == []
  {
    Seqs.FilterMembers(items, HasLabel(labelOf, dateLabel));
  }

  /** Groups come in the order their labels first appear: an earlier group's label
      occurs in the list before any item of a later group. */
  lemma {:induction false} GroupOrder(items: seq<Entry>, labelOf: Entry -> string, i: nat, j: nat)
    returns (k: nat)
    requires i < j < |GroupByLabel(items, labelOf)|
    ensures var g := GroupByLabel(items, labelOf);
      && k < |items| && labelOf(items[k]) == g[i].0
      && forall m :: 0 <= m <= k ==> labelOf(items[m]) != g[j].0
  {
    var init := items[..|items| - 1];
    var e := items[|items| - 1];
    var g0 := GroupByLabel(init, labelOf);
    var g := GroupByLabel(items, labelOf);
    if j < |g0| {
      k := GroupOrder(init, labelOf, i, j);
      assert g[i].0 == g0[i].0 && g[j].0 == g0[j].0;
      assert forall m :: 0 <= m <= k ==> items[m] == init[m];
    } else {
      assert g[i].0 == g0[i].0 && g[j].0 == labelOf(e);
      GroupLabelSet(init, labelOf, g0[i].0);
      GroupLabelSet(init, labelOf, labelOf(e));
      k :| k < |init| && labelOf(init[k]) == g0[i].0;
      assert forall m :: 0 <= m <= k ==> items[m] == init[m];
    }
  }
}
